=== FILE: README.md ===
# lmpio trajectory core, modelled in Dafny

`lmpio` reads and writes two text formats for molecular-dynamics trajectories:

- **LAMMPS custom dump files** (`lmpio/custom.py`). Each snapshot is nine header lines followed by one line per atom, with one column per name on the `ITEM: ATOMS` line.
- **XYZ files** (`lmpio/xyz.py`). Each snapshot is an atom-count line, a comment line, and one line per atom giving its type and three coordinates.

Both readers can keep the parsed array in a binary `.npy` sidecar next to the source and load that sidecar instead on the next call.

The model treats the inputs as follows:

- A file is a `seq<string>` of lines.
- The file system is a map from path to an entry. An entry holds a modification time and either text lines or a saved array.
- `float()`, `str(float)` and `'%.4f'` are an abstract `FloatFormat` record. The round-trip lemmas state their assumptions about it as hypotheses.
- `int()` and `str(int)` are modelled concretely.
- `str.strip`, `split(' ')`, `' '.join`, `lower` and `in` are modelled character by character.

An exception becomes an `Error` value. A write that fails part-way leaves the lines written before the failure.

Modules follow the source:

- `CustomRead`, `CustomSplit`, `CustomWrite` and `CustomLoad` model `read_specs`, `nskip`, `read_custom`, `customdata_splitargs`, `write_custom`, `load_custom` and `_save_custom_binary`.
- `XyzRead`, `XyzWrite` and `XyzLoad` model `_linelist`, `read_xyz`, `read_xyz_atomtypes`, `write_xyz`, `load_xyz`, `_save_xyz_binary` and `load_pos_of_type`.
- `CustomRoundTrip` and `XyzRoundTrip` relate each writer to its reader.
- `PyStr`, `PyInt`, `PyFloat`, `FileSys`, `Output`, `RowSort` and `Wrappers` hold the Python and numpy behaviour the core relies on.

## Model

| member | source | states |
|---|---|---|
| PyStr.Strip | lmpio/custom.py:35 | what `strip()` leaves is no longer than the string and neither starts nor ends with whitespace |
| PyStr.StripIsSlice | lmpio/custom.py:35 | `strip()` keeps one contiguous slice of the string and removes only whitespace before and after it |
| PyStr.Split | lmpio/custom.py:37 | `split(' ')` keeps empty fields, never loses the string, and no piece contains the separator |
| PyStr.JoinSplit | lmpio/custom.py:37 | joining the pieces of `split(sep)` with `sep` gives the string back |
| PyStr.SplitJoin | lmpio/custom.py:227 | `split(sep)` undoes `sep.join` when no piece contains the separator |
| PyStr.SplitStripJoin | lmpio/custom.py:47 | `strip().split(' ')` of whitespace-free tokens joined by single spaces gives the tokens back |
| PyStr.DropEmpty | lmpio/xyz.py:52 | the comprehension keeps every non-empty string as often as it occurs, and no empty one |
| PyStr.DropEmptyConcat | lmpio/xyz.py:52 | filtering a concatenation is filtering each part, so the kept strings stay in their order |
| PyStr.DropEmptyUnchanged | lmpio/xyz.py:52 | dropping empty strings from a list that has none changes nothing |
| PyStr.Lower | lmpio/custom.py:130 | `lower()` maps each character separately and keeps the length |
| PyStr.LowerTwice | lmpio/custom.py:130 | lower-casing twice is the same as lower-casing once |
| PyStr.RFind | lmpio/custom.py:17 | the last position of a character, or -1, with no occurrence after it |
| PyInt.ShowNat | lmpio/custom.py:222 | the decimal text of a natural number is a numeral that denotes that number |
| PyInt.ParseShow | lmpio/custom.py:35 | `int(str(n)) == n` for every integer n, so the atom-count line reads back |
| PyInt.ShowToken | lmpio/custom.py:222 | the printed atom count is one whitespace-free word |
| PyInt.ParseBlank | lmpio/custom.py:35 | `int()` of an empty or all-blank line raises ValueError |
| PyInt.ParseIntSyntax | lmpio/custom.py:35 | `int(line.strip())` succeeds exactly on a numeral of digits and single underscores, optionally signed, and gives its value with the sign applied |
| PyInt.ShowDigits | lmpio/custom.py:222 | `str(n)` starts with a minus sign exactly when n is negative, and the rest is a numeral whose value is the magnitude of n |
| PyFloat.Trunc | lmpio/custom.py:84 | the integer cast truncates toward zero, for both signs |
| PyFloat.Reread | lmpio/custom.py:39 | the value `float()` gives for the text `str()` printed of x |
| PyFloat.RereadParsed | lmpio/custom.py:39 | a value that was itself read by `float()` is read back unchanged from its printed text |
| FileSys.ReadLines | lmpio/custom.py:15-16 | opening a missing path raises FileNotFoundError naming it; a text file yields its lines |
| FileSys.SaveArray | lmpio/custom.py:116 | `np.save` writes exactly one entry, at the path with `.npy` ensured, and leaves every other file as it was |
| FileSys.SplitExt | lmpio/custom.py:17 | `os.path.splitext` splits the name into root and extension; the extension is empty exactly when no dot qualifies, and otherwise starts at the last dot of the last name part, provided some character before it in that part is not a dot |
| Output.Run | lmpio/custom.py:213-234 | the writes complete in order until the first exception, which is reported; earlier lines stay in the file |
| Output.RunConcat | lmpio/custom.py:214-234 | after writes that all succeed, the file holds their lines followed by what the later writes produce |
| Errors.Collect | lmpio/custom.py:138-177 | a loop that stops at the first exception yields all values exactly when every step succeeds, and otherwise the first error |
| RowSort.InsertPos | lmpio/custom.py:106 | the position where a row goes: after every row with a smaller id, before the first with an id at least as large |
| RowSort.Insert | lmpio/custom.py:106 | inserting into rows sorted on the id column keeps them sorted and adds exactly that row |
| RowSort.SortByColumn | lmpio/custom.py:106 | `snap[np.argsort(snap[:, c])]` returns a permutation of the rows, in non-decreasing order of column c |
| RowSort.SortKeepsWidth | lmpio/custom.py:106 | sorting only moves whole rows, so every row keeps its width |
| RowSort.SortSorted | lmpio/custom.py:106 | rows that are already sorted are left in their order |
| CustomRead.ParseFloats | lmpio/custom.py:39 | `[float(e) for e in ...]` succeeds exactly when every token converts, and gives each token's value in order |
| CustomRead.ReadSpecs | lmpio/custom.py:30-50 | a key is present exactly when the file reaches its line; the box has three rows, which may differ in length |
| CustomRead.ReadSpecsFails | lmpio/custom.py:34-43 | `read_specs` raises exactly when line 3 is not an `int()` or line 5, 6 or 7 has a word that is not a `float()`; line 3 is checked first |
| CustomRead.ReadSpecsValues | lmpio/custom.py:34-47 | each key holds what its own line converts to: `int()` of line 3, line 4 from word 3 on, the floats of lines 5 to 7, line 8 from word 2 on |
| CustomRead.ReadSpecsParts | lmpio/custom.py:30-50 | a successful read is assembled from the count of line 3, the words of lines 4 and 8 and the box of lines 5 to 7 |
| CustomRead.KeysAgree | lmpio/custom.py:33-49 | two files whose lines 3 to 8 agree have the same header, whatever follows |
| CustomRead.ReadSpecsFirstNine | lmpio/custom.py:48-49 | `read_specs` reads nothing after line 8 |
| CustomRead.SkipLines | lmpio/custom.py:56 | discarding k lines leaves the file from line k on, or nothing past the end |
| CustomRead.NSkip | lmpio/custom.py:52-57 | `nskip` is false and consumes nothing exactly at the end of the file; otherwise it consumes n lines, or all that are left |
| CustomRead.ParseRow | lmpio/custom.py:104 | a data line fills a row of nargs values exactly when every word converts and there are nargs words (each value from its word) or one word (broadcast to all); a word that does not convert is the ValueError of `float()`, a wrong count the ValueError of a failed broadcast |
| CustomRead.ReadRows | lmpio/custom.py:102-104 | the k rows of a snapshot are the k following lines, each converted, and a file that ends too early fails rather than giving a partial snapshot |
| CustomRead.ReadBlock | lmpio/custom.py:101-106 | a snapshot reads exactly when its rows do; it has n rows of nargs values, unchanged without an id column and otherwise those rows sorted on it |
| CustomRead.EmptyRowFails | lmpio/custom.py:103-104 | a line read past the end of the file (`''`) cannot become a row |
| CustomRead.ReadBlocks | lmpio/custom.py:99-107 | every snapshot has num_atoms rows of one entry per column name; with an id column each snapshot is sorted on it; a non-empty file gives at least one snapshot |
| CustomRead.BlocksStep | lmpio/custom.py:100-107 | one turn of the snapshot loop consumes a nine-line header and n rows, and the snapshot is those rows |
| CustomRead.BlocksFillFile | lmpio/custom.py:100-107 | with n > 0 atoms, a successful read means the file is exactly a whole number of 9 + n line blocks |
| CustomRead.EmptySnapshotsCount | lmpio/custom.py:100-107 | with zero atoms, every started header of up to nine lines is one empty snapshot |
| CustomRead.BlocksSorted | lmpio/custom.py:105-106 | sorting by id changes neither whether the read succeeds nor the rows of any snapshot, only their order |
| CustomRead.ReadCustom | lmpio/custom.py:90-111 | the specs are those of `read_specs`; the data has at least one snapshot, each of num_atoms rows of one entry per column name |
| CustomRead.IdColumn | lmpio/custom.py:105-106 | sorting happens exactly when it is asked for and 'id' is a column name, on the first 'id' column |
| CustomSplit.FirstIndex | lmpio/custom.py:77 | `list.index` finds the first occurrence |
| CustomSplit.Index | lmpio/custom.py:82 | `args.index(name)` raises ValueError exactly when the name is absent |
| CustomSplit.RemoveFirst | lmpio/custom.py:66-68 | `list.remove` drops exactly the first occurrence and keeps everything else |
| CustomSplit.FoldInto | lmpio/custom.py:64-73 | after the append and three removes, the field is present and every other name is kept |
| CustomSplit.FoldIntoCount | lmpio/custom.py:64-73 | as multisets, the fold adds the field and removes one of each part |
| CustomSplit.FoldIntoDistinct | lmpio/custom.py:64-73 | folding distinct names keeps them distinct, removes the three parts and keeps everything else |
| CustomSplit.SplitNamesDistinct | lmpio/custom.py:63-75 | with distinct names, the loop visits 'position' exactly when x, y and z are all present, and then none of x, y, z; the same holds for velocity; every other name is visited |
| CustomSplit.SplitNamesFrom | lmpio/custom.py:63-73 | every name the loop visits is a column name, or position (velocity) when x, y and z (vx, vy and vz) are all column names |
| CustomSplit.ColumnAt | lmpio/custom.py:82 | `data[:, :, k]` takes entry k of every atom row of every snapshot, and raises IndexError when some row is too short or there are no snapshots |
| CustomSplit.TriplesAt | lmpio/custom.py:77 | `data[:, :, [i, j, k]]` gathers three entries of every atom row into one vector |
| CustomSplit.TruncColumn | lmpio/custom.py:83-84 | the 'id' column becomes integers, each value truncated toward zero |
| CustomSplit.NamedColumn | lmpio/custom.py:82 | `data[:,:,args.index(name)]` succeeds exactly when the name is listed, there is a snapshot and every row reaches its first position; an absent name is ValueError, a short row IndexError |
| CustomSplit.NamedTriple | lmpio/custom.py:77 | gathering three named columns succeeds exactly when all three are listed and reachable in every row; an absent name is ValueError, a short row IndexError |
| CustomSplit.SplitOne | lmpio/custom.py:76-84 | one pass of the loop raises nothing exactly when its name (or all three parts of position or velocity) can be looked up and reached |
| CustomSplit.SplitLoop | lmpio/custom.py:75-84 | the loop raises nothing exactly when every visited name can be looked up and its rows are wide enough; then every plain name gets its column, position and velocity their triples, and keys that are not visited keep their values |
| CustomSplit.SplitArgs | lmpio/custom.py:59-88 | a missing 'args' or 'data' is a KeyError; otherwise the split succeeds exactly when every visited name can be taken from the data; it adds one key per visited plain name, position and velocity when all their parts are present, keeps the header keys, deletes 'data' exactly when asked, and leaves every unvisited column, and position (velocity) when not all of x, y, z (vx, vy, vz) are listed, as it was |
| CustomSplit.SplitArgsOk | lmpio/custom.py:59-88 | with 'args' and 'data', no column already named position or velocity, a snapshot, and every row as wide as the name list, the split raises nothing |
| CustomWrite.DotExt | lmpio/custom.py:130-132 | the normalised extension is the lower-cased extension, with a dot put in front exactly when it does not already start with one |
| CustomWrite.CustomOutputPath | lmpio/custom.py:130-134 | the extension is appended unless it already occurs in the lower-cased name; an empty extension is an IndexError |
| CustomWrite.CustomOutputPathIdempotent | lmpio/custom.py:130-134 | applying the naming rule to its own output changes nothing |
| CustomWrite.ComponentColumn | lmpio/custom.py:142 | `np.array(psnap)[:, k]` takes component k of every vector of every snapshot |
| CustomWrite.SelectColumn | lmpio/custom.py:139-177 | a name's own key wins; x, y, z (vx, vy, vz) otherwise come from position (velocity); anything else is a KeyError naming it |
| CustomWrite.SelectColumns | lmpio/custom.py:137-177 | the selection succeeds exactly when every name can be selected, gives the arrays in name order, and otherwise raises the first failing name's error |
| CustomWrite.BoundaryLine | lmpio/custom.py:185-188 | the header line joins the first three boundary entries; without a 'boundary' key the source evaluates an undefined name (NameError) |
| CustomWrite.BoundsJoin | lmpio/custom.py:188 | the f-string is the same text as the words joined by single spaces |
| CustomWrite.CheckColumn | lmpio/custom.py:199-204 | a column passes exactly when it has nsnap snapshots of nbp atoms; otherwise the error names which count is wrong |
| CustomWrite.CheckColumns | lmpio/custom.py:199-204 | all columns pass, or the first column that fails gives the error |
| CustomWrite.CheckShapes | lmpio/custom.py:196-204 | the shape check passes exactly when the columns are rectangular, and then nsnap and nbp are those of the first column |
| CustomWrite.TimestepText | lmpio/custom.py:217-220 | the timestep line fails only when a timestep list is given and is too short |
| CustomWrite.TimestepTextParses | lmpio/custom.py:217-220 | `int()` of the timestep line gives back `timesteps[snap]`, or 0 |
| CustomWrite.BoxText | lmpio/custom.py:224-226 | box line i is the two bounds joined by a space; a missing 'simulation_box' is a KeyError; a box whose rows differ in length, or a row i that is missing or shorter than two, is an IndexError |
| CustomWrite.RowText | lmpio/custom.py:229-233 | an atom line is the cells joined by single spaces, with no trailing space |
| CustomWrite.SpacedJoin | lmpio/custom.py:230-233 | building the line cell by cell leaves exactly one trailing space to cut |
| CustomWrite.HeaderSteps | lmpio/custom.py:216-227 | each snapshot writes exactly nine header lines |
| CustomWrite.RowSteps | lmpio/custom.py:229-234 | each snapshot writes one line per atom, the atom's cells joined by spaces |
| CustomWrite.WriteCustom | lmpio/custom.py:119-234 | the file is opened exactly when the extension, selection, boundary and shape checks all pass, at the normalised name, in the requested mode |
| CustomWrite.WriteCustomRuns | lmpio/custom.py:213-234 | once opened, the file receives the snapshot writes up to the first failure |
| CustomWrite.StepsFromAllLines | lmpio/custom.py:214-234 | every write succeeds exactly when there is a timestep per snapshot (or no list) and a rectangular box of at least three rows of two |
| CustomWrite.HeaderAllLines | lmpio/custom.py:216-227 | a header is written in full exactly when its timestep exists (or there is no list) and the box is rectangular with at least three rows of two; only the timestep and box lines can fail |
| CustomWrite.WriteCustomCompletes | lmpio/custom.py:213-234 | after opening, `write_custom` raises nothing exactly when the timesteps cover the snapshots and the box is rectangular with at least three rows of two |
| CustomLoad.SplitExtAt | lmpio/custom.py:17 | when the dot at k is the last dot, no separator follows it, and the character before it is neither a dot nor a separator, `splitext` cuts at k |
| CustomLoad.CustomSidecar | lmpio/custom.py:17 | the sidecar name ends in `_custom.npy`, has extension `.npy`, and is never the source's name |
| CustomLoad.SavedCustomBinary | lmpio/custom.py:113-116 | as written, a name whose extension is `.npy` gets a second `.npy`; any other name is saved as `np.save` names it |
| CustomLoad.SavedCustomBinaryCorrected | lmpio/custom.py:113-116 | corrected, a name whose extension is `.npy` is saved as it is |
| CustomLoad.SavedSidecarMissed | lmpio/custom.py:113-116 | as written, the sidecar is saved under its name plus `.npy`, which is not the name the cache test looks for (the test of line 17) |
| CustomLoad.SavedSidecarFound | lmpio/custom.py:113-116 | corrected, the sidecar is saved exactly where the cache test looks (the test of line 17) |
| CustomLoad.LoadCustomAs | lmpio/custom.py:14-28 | a missing source is FileNotFoundError; a fresh sidecar is used without writing anything; otherwise the result is `read_custom` of the source, split when asked, and the data is saved under the `_save_custom_binary` name exactly when `savenpy` is set and the read succeeds; any load keeps every existing file and never changes the source |
| CustomLoad.CacheHitLoad | lmpio/custom.py:18-21 | a successful load from a fresh sidecar writes nothing and gives the source's header keys with the sidecar's array as 'data', split when asked |
| CustomLoad.CacheMissLoad | lmpio/custom.py:22-27 | a successful load without a usable sidecar is `read_custom` of the source with data, split when asked, and saves that data exactly when `savenpy` is set |
| CustomLoad.SidecarNotSource | lmpio/custom.py:25 | saving the sidecar, as written or corrected, never overwrites the source |
| CustomLoad.StaleSidecarIgnored | lmpio/custom.py:18 | a sidecar older than the source, or one that may not be loaded, gives the same result as no sidecar at all |
| CustomLoad.AsWrittenNeverCaches | lmpio/custom.py:17-25 | as written, a load never creates the sidecar it checks, so the next load misses the cache again, because the save of lines 114-115 adds a second `.npy` |
| CustomLoad.AsWrittenExample | lmpio/custom.py:113-116 | for "dump.txt" the cache test looks for "dump_custom.npy" and the save writes "dump_custom.npy.npy" (the test of line 17) |
| CustomLoad.CorrectedReloadHits | lmpio/custom.py:14-28 | corrected, a load that parses and saves makes the next cache-allowed load hit, return the same dictionary and write nothing |
| CustomLoad.CacheAfterSave | lmpio/custom.py:18-25 | after the corrected save the sidecar is fresh and the cache holds exactly what the source reads as |
| CustomRoundTrip.FieldsOfJoin | lmpio/custom.py:39 | `strip().split(' ')` of words joined by single spaces gives the words back, as line 227 joins them |
| CustomRoundTrip.BoxLineParses | lmpio/custom.py:39-43 | a written box line reads back as the values `float()` gives for the printed bounds, as lines 224-226 write it |
| CustomRoundTrip.RereadPairs | lmpio/custom.py:39-44 | the box as read back from printed bounds: three rows, each the `float()` of `str()` of the two bounds |
| CustomRoundTrip.BoxReadBack | lmpio/custom.py:39-44 | a box that was itself read from a file is read back unchanged once printed, as lines 224-226 print it |
| CustomRoundTrip.CountOfShow | lmpio/custom.py:35 | line 3 written as `str(nbp)` reads back as nbp, as line 222 writes it |
| CustomRoundTrip.BoxOfHeader | lmpio/custom.py:38-45 | lines 5 to 7 written as two printed bounds each read back as the reread box, as lines 224-226 write them |
| CustomRoundTrip.AtomsLineFields | lmpio/custom.py:47 | the `ITEM: ATOMS` line reads back as the column names, as line 227 writes it |
| CustomRoundTrip.BoundsLineFields | lmpio/custom.py:37 | the `ITEM: BOX BOUNDS` line reads back as its three boundary entries, as line 188 writes it |
| CustomRoundTrip.ReadSpecsOfHeader | lmpio/custom.py:30-50 | a written header reads back as its atom count, boundary entries, column names and the box as `float()` reads its printed bounds, as lines 216-227 write it |
| CustomRoundTrip.HeaderWritten | lmpio/custom.py:216-227 | with a rectangular box of at least three rows of two and enough timesteps, the file starts with the nine lines of the first header |
| CustomRoundTrip.RunHeaderLines | lmpio/custom.py:221-227 | for a rectangular box of at least three rows of two, lines 3 to 8 of the output are the atom count, the boundary line, the three box lines and the names line |
| CustomRoundTrip.ReadSpecsOfRun | lmpio/custom.py:30-50 | for a rectangular box of at least three rows of two, `read_specs` of the written lines gives back the header the writer was given, with the box as `float()` reads its printed bounds, after the writes of lines 213-234 |
| CustomRoundTrip.ReadSpecsAfterWrite | lmpio/custom.py:30-50 | after `write_custom` in mode 'w', or in mode 'a' on an empty file, the header reads back as the atom count, the first three boundary entries, the reread box and the column names; appending to a file with a full header leaves its header as it was |
| CustomRoundTrip.WrittenHeaderReads | lmpio/custom.py:30-50 | with a rectangular box of at least three rows of two, the lines one `write_custom` call writes start with a header that reads back as the atom count, boundary entries, reread box and column names, after lines 213-227 |
| CustomRoundTrip.FileAfterReads | lmpio/custom.py:207-213 | a file opened with mode 'w', or empty before an append, reads as the written header; one appended to after a full header keeps reading as its old header |
| CustomRoundTrip.AppendKeepsHeader | lmpio/custom.py:33-49 | lines added after the first nine do not change what `read_specs` reads |
| CustomRoundTrip.ComponentOfTriples | lmpio/custom.py:77 | component k of the gathered triples is the data column at the k-th index, as line 142 takes it |
| CustomRoundTrip.SelectAfterSplit | lmpio/custom.py:137-177 | for a dictionary with a snapshot and rows as wide as the name list, the split succeeds and the writer's selection of a name is that name's column of the original data, after the split of lines 59-88 |
| CustomRoundTrip.SelectPosition | lmpio/custom.py:139-156 | x, y and z come back from the components of position, as line 77 gathers them |
| CustomRoundTrip.SelectVelocity | lmpio/custom.py:157-174 | vx, vy and vz come back from the components of velocity, as line 80 gathers them |
| CustomRoundTrip.SelectPlain | lmpio/custom.py:175-177 | every other name comes back from its own key, as line 82 stores it |
| CustomRoundTrip.SplitAddsNoParts | lmpio/custom.py:64-73 | once folded, x, y, z (vx, vy, vz) get no key of their own |
| CustomRoundTrip.SelectAllAfterSplit | lmpio/custom.py:137-177 | for a dictionary with a snapshot and rows as wide as the name list, the split succeeds and selecting all column names gives every column of the data back, in order, after the split of lines 59-88 |
| CustomRoundTrip.ReadCustomSplits | lmpio/custom.py:59-111 | what `read_custom` returns can always be split, unless a column is already named position or velocity |
| XyzRead.LineListWords | lmpio/xyz.py:51-52 | every word is non-empty and holds no space |
| XyzRead.LineListJoin | lmpio/xyz.py:51-52 | words joined by single spaces come back as the same words |
| XyzRead.WordLists | lmpio/xyz.py:61 | every line is split into its words, in order |
| XyzRead.RunLength | lmpio/xyz.py:64-67 | the inner loop reads the rows at the head and stops at the first line with fewer than four words |
| XyzRead.RunLengthIs | lmpio/xyz.py:64-67 | any run of rows ended by a short line or the end is the one the loop reads |
| XyzRead.AfterRun | lmpio/xyz.py:66-69 | after a run, the line that ended it is passed over as well |
| XyzRead.ParseRow | lmpio/xyz.py:65 | a row keeps words 1 to 3 as floats; a word that does not convert is a ValueError |
| XyzRead.ParseRows | lmpio/xyz.py:64-67 | a run converts exactly when every row does, giving one row of three values per line |
| XyzRead.ReadXyzWords | lmpio/xyz.py:59-69 | every snapshot read has at least one row, each of three values; the only error is a failed float conversion |
| XyzRead.SkipLine | lmpio/xyz.py:62-69 | a line that does not start a snapshot is passed over |
| XyzRead.ReadRun | lmpio/xyz.py:62-69 | a run of rows is one snapshot, followed by what the rest of the file gives |
| XyzRead.NoSnapshots | lmpio/xyz.py:59-70 | a file with no line that starts a snapshot gives no snapshots and no error, and only such a file does |
| XyzRead.FirstWords | lmpio/xyz.py:91 | the types are the first word of each row, in order |
| XyzRead.AtomTypesAtRun | lmpio/xyz.py:86-93 | where the first snapshot starts, the types are the first words of its rows |
| XyzRead.AtomTypesRun | lmpio/xyz.py:86-93 | a run of rows ended by a short line or the end gives its first words as the types |
| XyzRead.ReadXyzAtomTypes | lmpio/xyz.py:77-95 | the loop that counts snapshots and stops at the second returns the first words of the first snapshot's rows |
| XyzRead.AtomTypesMatchFirst | lmpio/xyz.py:54-95 | `read_xyz_atomtypes` gives one type per row of the first snapshot `read_xyz` reads |
| XyzRead.ReadXyz | lmpio/xyz.py:54-75 | a missing file is FileNotFoundError; 'pos' is the snapshots of the file's lines and 'types' the first snapshot's types |
| XyzWrite.XyzOutputPath | lmpio/xyz.py:107-108 | `.xyz` is appended exactly when asked for and not already in the lower-cased name |
| XyzWrite.XyzOutputPathIdempotent | lmpio/xyz.py:107-108 | applying the naming rule to its own output changes nothing |
| XyzWrite.AtomStep | lmpio/xyz.py:118 | an atom line fails with IndexError exactly when the atom has no type or no three coordinates |
| XyzWrite.WriteXyz | lmpio/xyz.py:97-118 | an empty 'pos' is an IndexError before any file is opened; otherwise the file is written, not appended, at the normalised name |
| XyzWrite.SnapshotStepsAllLines | lmpio/xyz.py:115-118 | a snapshot's writes all succeed exactly when its first nbp atoms each have a type and three coordinates |
| XyzWrite.XyzStepsAllLines | lmpio/xyz.py:114-118 | all writes succeed exactly when every snapshot can be written |
| XyzWrite.WriteXyzCompletes | lmpio/xyz.py:97-118 | `write_xyz` raises nothing exactly when 'pos' is non-empty and every snapshot has `len(pos[0])` writable atoms |
| XyzWrite.SnapshotLines | lmpio/xyz.py:115-118 | each snapshot is nbp + 2 lines |
| XyzWrite.XyzStepsTexts | lmpio/xyz.py:114-118 | when all writes succeed, the file holds the lines of the snapshots in order |
| XyzWrite.WriteXyzLines | lmpio/xyz.py:97-118 | a complete write leaves exactly the snapshots' lines in the file |
| XyzRoundTrip.TimestepWords | lmpio/xyz.py:116 | the comment line splits into "Atoms.", "Timestep:" and the index |
| XyzRoundTrip.AtomWords | lmpio/xyz.py:118 | an atom line splits back into its type and three coordinate texts |
| XyzRoundTrip.SnapshotWordsOf | lmpio/xyz.py:115-118 | a written snapshot splits into the count, the comment and the atom rows |
| XyzRoundTrip.XyzWordsOf | lmpio/xyz.py:114-118 | the written file splits into the word lists of its snapshots |
| XyzRoundTrip.SnapshotParses | lmpio/xyz.py:65 | the rows of a written snapshot convert, each value being what `float()` makes of its `'%.4f'` text, as line 118 writes them |
| XyzRoundTrip.ReadBlock | lmpio/xyz.py:59-69 | a count line, a comment line and a run of rows read as one snapshot followed by the rest |
| XyzRoundTrip.ReadOneWritten | lmpio/xyz.py:59-69 | one written snapshot reads back as one snapshot, followed by what the later ones give, as lines 115-118 write it |
| XyzRoundTrip.ReadWritten | lmpio/xyz.py:59-69 | the written snapshots read back one for one, each matching the snapshot written at its place, as lines 114-118 write them |
| XyzRoundTrip.TypesWritten | lmpio/xyz.py:77-95 | the types read back are the types of the first nbp atoms, as line 118 writes them |
| XyzRoundTrip.ReadAllWritten | lmpio/xyz.py:54-95 | the written word lists read back as `len(pos)` matching snapshots with the written types, as lines 114-118 write them |
| XyzRoundTrip.WriteThenReadXyz | lmpio/xyz.py:54-118 | `read_xyz` of a file `write_xyz` wrote gives `len(pos)` snapshots of `len(pos[0])` rows, each value from its `'%.4f'` text, and the types of those atoms |
| XyzLoad.XyzSidecar | lmpio/xyz.py:33 | the sidecar is the name without its last four characters plus `_xyz.npy`, and never the source's name |
| XyzLoad.SavedXyzBinary | lmpio/xyz.py:120-125 | `.npy` is appended exactly when the name does not already end in it |
| XyzLoad.SavedXyzSidecarFound | lmpio/xyz.py:120-125 | the sidecar is saved under exactly the name line 33 builds, so the cache test of line 34 finds it |
| XyzLoad.LoadXyz | lmpio/xyz.py:32-43 | the cache is used exactly when the sidecar exists and loading is allowed; otherwise the result is that of `read_xyz`, and 'pos' is saved under the `_save_xyz_binary` name exactly when `savenpy` is set and the read succeeds; the source is never changed |
| XyzLoad.XyzCacheHit | lmpio/xyz.py:34-38 | a successful cache load writes nothing; 'pos' is the sidecar's array and 'types' those `read_xyz_atomtypes` reads from the source |
| XyzLoad.LoadXyzIgnoresMtime | lmpio/xyz.py:34 | the sidecar's age plays no part in the result |
| XyzLoad.XyzReloadHits | lmpio/xyz.py:32-43 | a load that parses and saves makes the next cache-allowed load hit, return the same dictionary and write nothing |
| XyzLoad.SelectFrom | lmpio/xyz.py:47 | the selected indices are in range and increasing, and an index is there exactly when its type is selected |
| XyzLoad.SelectedIndices | lmpio/xyz.py:47 | the comprehension's loop gives increasing in-range indices, and exactly those whose type is selected |
| XyzLoad.IncreasingUnique | lmpio/xyz.py:47 | two increasing index lists with the same members are equal |
| XyzLoad.SelectedIndicesIsSelectFrom | lmpio/xyz.py:47 | the loop and the recursive definition select the same list |
| XyzLoad.PickRows | lmpio/xyz.py:48 | `snap[ids]` gives the rows at the indices in order, and raises IndexError exactly when one is out of range |
| XyzLoad.PickAll | lmpio/xyz.py:48 | every snapshot yields the rows at the indices, and the result exists exactly when every index is in range in every snapshot |
| XyzLoad.PickAllShape | lmpio/xyz.py:48 | the selection succeeds exactly when every index is in range in every snapshot, and gives one result per snapshot |
| XyzLoad.LoadPosOfType | lmpio/xyz.py:45-49 | load errors propagate; otherwise each snapshot holds the positions of the atoms whose type is selected, in atom order |
| XyzLoad.LoadPosIgnoresLoadnpy | lmpio/xyz.py:46 | the `loadnpy` argument has no effect, because `savenpy` is passed in its place |

## Behaviour of the code worth noting

- The readers have no "empty trajectory" or "short snapshot" error.
  - With `num_atoms == 0`, every started header of up to nine lines after line 8 is one empty snapshot (`EmptySnapshotsCount`). With `num_atoms > 0`, a started header without its rows fails: `nskip` returns True, and the row read that follows gets `''`, which `float()` rejects.
  - A snapshot cut short by the end of the file fails on `float('')` (a ValueError). This is the `RejectsEmpty` hypothesis.
  - An XYZ file with no qualifying line yields no snapshots and no error.
- An unreadable sidecar is not recovered from: `np.load` raises and the load returns that error.
- `load_xyz` has no staleness test: any existing sidecar is used when `loadnpy` is set.
- Without a 'boundary' key, `write_custom` raises NameError, since line 186 compares an undefined name instead of assigning it. It does not fall back to a default boundary line.
- `load_pos_of_type` passes `savenpy` as `loadnpy`.
- There is no separate malformed-header error. A file shorter than its header makes `read_specs` leave keys out, and `read_custom` then raises KeyError for the missing key. A header line that does not convert raises the ValueError of `int()` or `float()`.

## Left out

- Real file I/O, `os.path.isfile` and `os.path.getmtime`: the file system is a map argument, and the time of a save is an argument `now`.
- FileSys.SplitExt: models POSIX `posixpath.splitext` only ('/' as the sole separator); Windows drives and backslash separators (`ntpath`) are outside the model.
- XyzWrite.WriteXyz: takes `data['pos']` and `data['types']` as two arguments, so the KeyError `write_xyz` raises for a dictionary missing either key is not modelled (the custom writer's dictionary lookups are).
- The binary layout of `.npy` files: a saved array is stored and loaded as it is.
- Float syntax and rounding: `float()`, `str(float)` and `'%.4f'` are an abstract `FloatFormat`. The round trips assume that `str()` and `'%.4f'` print a single word `float()` accepts (`ReprParses`, `FixedParses`), so the box and the XYZ positions read back as what `float()` makes of the printed text. Where a value was itself read by `float()`, its printed text is assumed to read back as the same value (`ReprInvertsParse`), which is what `BoxReadBack` uses. Float values are mathematical reals: `nan` and `inf` have no counterpart, nor does `argsort` placing NaN ids last, nor the int64 width of the id cast.
- numpy ragged arrays: `np.array(data)` over snapshots of different sizes is modelled as the list of snapshots. The custom reader never produces one, since every snapshot has `num_atoms` rows.
- numpy broadcasting beyond one word per row: a data line of one word fills the row. A line of any other wrong length is a ValueError.
- `np.argsort` is not a stable sort. The model sorts stably; this is one of the orders `argsort` may produce when ids repeat.
- PyStr.Lower: lower-cases ASCII letters only, because Unicode case mapping tables are outside the model.
- numpy versions: the model follows numpy before 1.24, which `np.int` needs. There `np.array([xlim, ylim, zlim])` of box lines of different lengths is a one-dimensional object array; `read_specs` keeps it, and `write_custom` raises IndexError at `simulation_box[0,0]`. numpy 1.24 and later raise ValueError already in `read_specs`; that variant is not modelled.
- `simulation_box` is taken to be a numpy array, as `read_specs` builds it; a plain nested list, which `[i, j]` cannot subscript (TypeError), is not modelled.
- `np.int` (deprecated and removed in recent numpy): the cast is modelled as truncation toward zero.
- Append mode: `write_custom` records the mode. `Output.FileAfter` states the result: concatenation for 'a', replacement for 'w'.
- `print` logging and the command-line block of `xyz.py`: no effect on results.
- Values in the written text are rendered by `str()` of the dictionary's entries. Boundary entries and column names are taken to be strings.
- CustomRoundTrip.ReadSpecsAfterWrite: requires the names and boundary entries to be single words and the atom count to be printed by `str(int)`. With spaces inside a name, `split(' ')` would not give it back. For an append to a non-empty file of fewer than nine lines, the header mixes old and new lines, and nothing is stated about it.
- CustomSplit.SplitArgs: the source keeps header keys, columns and 'data' in one Python dict, so a column named 'data', 'args', 'boundary', 'num_atoms', 'simulation_box' or 'timesteps' overwrites that key (and a column named 'data' is then deleted by `remove_data`). The model keeps columns in their own map and does not reproduce those collisions.
- CustomWrite.SelectColumn: for the same reason, a name in 'args' that is a header key but not a column ('num_atoms', 'boundary', ...) is a KeyError here, while the source's single dict finds the header value and writes it as a column.
- CustomRoundTrip.SelectAllAfterSplit and CustomRoundTrip.SelectAfterSplit: in the source these hold only when no column is named after a header key or 'data' (a column named 'args' would replace the name list the writer reads). The model does not require that, because its columns cannot collide with header keys.
- PyInt.ParseInt: accepts ASCII digits only. Python's `int()` also accepts other Unicode decimal digits, which are outside the model.

## Findings

| source | as written | input that shows it | evidently intended | confidence | as-written member | corrected member |
|---|---|---|---|---|---|---|
| lmpio/custom.py:114-115 | `_save_custom_binary` appends `.npy` when the name's extension already is `.npy`, so `load_custom` saves the sidecar under `<root>_custom.npy.npy` while its cache test looks for `<root>_custom.npy`; the cache is never hit | `load_custom("dump.txt")` checks for `dump_custom.npy` and saves `dump_custom.npy.npy` | append `.npy` only when the extension is not `.npy` (as `_save_xyz_binary` does), so the next load finds the sidecar | medium; not executed | CustomLoad.AsWrittenNeverCaches | CustomLoad.CorrectedReloadHits |

=== FILE: customdata.dfy ===
/** The dictionary the custom-format functions pass around, with its
    well-known keys given fixed places. */
module CustomData {
  import opened Wrappers

  type Array3 = seq<seq<seq<real>>>  // [snapshot][atom][column]

  /** A cell of a per-column array: numpy float64, or an integer after
      the cast `customdata_splitargs` applies to 'id'. */
  datatype Num = F(x: real) | I(n: int)

  function Value(v: Num): real {
    match v
    case F(x) => x
    case I(n) => n as real
  }

  type Column = seq<seq<Num>>        // [snapshot][atom]

  datatype Vec3 = Vec3(x: real, y: real, z: real)

  function Component(v: Vec3, k: nat): real
    requires k < 3
  {
    if k == 0 then v.x else if k == 1 then v.y else v.z
  }

  /** What `read_specs` puts in the dictionary.  A key is absent (None)
      when the file ends before the line that sets it. */
  datatype Specs = Specs(
    numAtoms: Option<int>,            // 'num_atoms', line 3
    boundary: Option<seq<string>>,    // 'boundary', line 4
    box: Option<seq<seq<real>>>,      // 'simulation_box', lines 5-7
    args: Option<seq<string>>)        // 'args', line 8

  /** The whole dictionary: the header keys, the raw 'data' array, the
      per-column arrays and the 'position'/'velocity' fields that
      `customdata_splitargs` adds, and the optional 'timesteps' list the
      writer reads. */
  datatype CustomDict = CustomDict(
    specs: Specs,
    data: Option<Array3>,
    columns: map<string, Column>,
    position: Option<seq<seq<Vec3>>>,
    velocity: Option<seq<seq<Vec3>>>,
    timesteps: Option<seq<int>>)

  /** The dictionary `read_custom` returns before any splitting. */
  function RawDict(specs: Specs, data: Array3): CustomDict {
    CustomDict(specs, Some(data), map[], None, None, None)
  }
}

=== FILE: customload.dfy ===
/** `load_custom`: read a custom dump, or take its data from the binary
    sidecar file `np.save` left next to it, and `_save_custom_binary`,
    which names that sidecar when it is saved. */
module CustomLoad {
  import opened Wrappers
  import opened Errors
  import opened PyStr
  import opened PyFloat
  import opened FileSys
  import opened CustomData
  import opened CustomRead
  import opened CustomSplit

  /** `os.path.splitext` when the dot at k is the last dot and nothing
      after it is a path separator, and the character before it is an
      ordinary one: the extension starts at k. */
  lemma SplitExtAt(q: string, k: nat)
    requires 1 <= k < |q| && q[k] == '.'
    requires forall j :: k < j < |q| ==> q[j] != '.' && q[j] != '/'
    requires q[k - 1] != '.' && q[k - 1] != '/'
    ensures SplitExt(q) == (q[..k], q[k..])
  {
    var sepIndex := RFind(q, '/');
    var dotIndex := RFind(q, '.');
    assert dotIndex == k;
    assert sepIndex < k - 1;
    assert sepIndex < k - 1 < dotIndex && q[k - 1] != '.';
  }

  /** Splitting a name that ends in "<c>.npy", where c is neither a dot
      nor a path separator, cuts off exactly ".npy". */
  lemma SplitExtNpy(q: string)
    requires |q| >= 5 && q[|q| - 4..] == ".npy"
    requires q[|q| - 5] != '.' && q[|q| - 5] != '/'
    ensures SplitExt(q) == (q[..|q| - 4], ".npy")
  {
    assert q[|q| - 4] == '.' && q[|q| - 3] == 'n' && q[|q| - 2] == 'p' && q[|q| - 1] == 'y';
    SplitExtAt(q, |q| - 4);
  }

  /** The sidecar `load_custom` looks for: the name without its extension,
      followed by "_custom.npy". */
  function CustomSidecar(filename: string): (r: string)
    ensures EndsWith(r, "_custom.npy")
    ensures SplitExt(r) == (r[..|r| - 4], ".npy")
    ensures r != filename
  {
    var root := SplitExt(filename).0;
    var r := root + "_custom.npy";
    assert r[|r| - 4..] == ".npy";
    assert r[|r| - 5] == 'm';
    SplitExtNpy(r);
    assert r[|r| - 11..] == "_custom.npy";
    assert r[|root|] == '_';
    assert filename == root + SplitExt(filename).1;
    assert |r| == |filename| ==> filename[|root|] == '.';
    r
  }

  /** The file `_save_custom_binary(outname, data)` writes, as written:
      ".npy" is appended when `os.path.splitext` finds the extension ".npy",
      and `np.save` then keeps the name as it is. */
  function SavedCustomBinary(outname: string): (r: string)
    ensures EndsWith(r, ".npy")
    ensures SplitExt(outname).1 == ".npy" ==> r == outname + ".npy"
    ensures SplitExt(outname).1 != ".npy" ==> r == NpySavePath(outname)
  {
    NpySavePath(if SplitExt(outname).1 == ".npy" then outname + ".npy" else outname)
  }

  /** The file `_save_custom_binary` evidently means to write: ".npy" is
      appended only when the name does not already have that extension,
      so a sidecar name is kept as it is. */
  function SavedCustomBinaryCorrected(outname: string): (r: string)
    ensures EndsWith(r, ".npy")
    ensures SplitExt(outname).1 == ".npy" ==> r == outname
  {
    var p := if SplitExt(outname).1 == ".npy" then outname else outname + ".npy";
    assert SplitExt(outname).1 == ".npy" ==> p[|p| - 4..] == ".npy";
    NpySavePath(p)
  }

  /** The saved name as written (fixed == false) or corrected. */
  function SavedSidecar(fixed: bool, outname: string): string {
    if fixed then SavedCustomBinaryCorrected(outname) else SavedCustomBinary(outname)
  }

  /** As written, the sidecar is saved under a name that is not the one
      `load_custom` looks for. */
  lemma SavedSidecarMissed(filename: string)
    ensures SavedCustomBinary(CustomSidecar(filename)) == CustomSidecar(filename) + ".npy"
    ensures SavedCustomBinary(CustomSidecar(filename)) != CustomSidecar(filename)
  {
    var s := CustomSidecar(filename);
    assert |s + ".npy"| != |s|;
  }

  /** Corrected, the sidecar is saved exactly where it is looked for. */
  lemma SavedSidecarFound(filename: string)
    ensures SavedCustomBinaryCorrected(CustomSidecar(filename)) == CustomSidecar(filename)
  {
  }

  /** The cache test of `load_custom`: the sidecar exists, loading from it
      is allowed and it is not older than the source. */
  predicate CacheFresh(fs: Fs, filename: string, loadnpy: bool)
    requires filename in fs
  {
    var fnpy := CustomSidecar(filename);
    fnpy in fs && loadnpy && fs[fnpy].mtime >= fs[filename].mtime
  }

  /** The result of a load and the file system after it. */
  datatype Loaded = Loaded(result: Result<CustomDict, Error>, fs: Fs)

  /** The dictionary taken from the cache: the header keys read from the
      source, 'data' loaded from the sidecar. */
  function FromCache(fs: Fs, filename: string, ff: FloatFormat): (r: Result<CustomDict, Error>)
    ensures r.Ok? ==> ReadLines(fs, filename).Ok? && ReadSpecs(ReadLines(fs, filename).value, ff).Ok?
    ensures r.Ok? ==> LoadArray(fs, CustomSidecar(filename)).Ok?
    ensures r.Ok? ==> r.value == RawDict(ReadSpecs(ReadLines(fs, filename).value, ff).value,
                                         fs[CustomSidecar(filename)].content.values)
  {
    var lines :- ReadLines(fs, filename);
    var specs :- ReadSpecs(lines, ff);
    var a :- LoadArray(fs, CustomSidecar(filename));
    Ok(RawDict(specs, a))
  }

  /** The optional `customdata_splitargs(specs, remove_data=True)` at the end. */
  function MaybeSplit(r: Result<CustomDict, Error>, splitArgs: bool): (s: Result<CustomDict, Error>)
    ensures !splitArgs ==> s == r
    ensures r.Err? ==> s == r
    ensures splitArgs && r.Ok? ==> s == SplitArgs(r.value, true)
  {
    if r.Err? || !splitArgs then r else SplitArgs(r.value, true)
  }

  /** `read_custom(filename, sortbyid, splitargs=False)`. */
  function ReadSource(fs: Fs, filename: string, sortById: bool, ff: FloatFormat): (r: Result<CustomDict, Error>)
    ensures r.Ok? ==> ReadLines(fs, filename).Ok? && r == ReadCustom(ReadLines(fs, filename).value, sortById, false, ff)
    ensures r.Ok? ==> r.value.data.Some?
  {
    var lines :- ReadLines(fs, filename);
    ReadCustom(lines, sortById, false, ff)
  }

  /** `load_custom(filename, savenpy, loadnpy, sortbyid, splitargs)`, with
      the sidecar saved under `SavedSidecar(fixed, ...)` at time `now`. */
  function LoadCustomAs(fixed: bool, fs: Fs, filename: string, savenpy: bool, loadnpy: bool,
                        sortById: bool, splitArgs: bool, ff: FloatFormat, now: int): (r: Loaded)
    ensures filename !in fs ==> r == Loaded(Err(FileNotFound(filename)), fs)
    ensures filename in fs && CacheFresh(fs, filename, loadnpy) ==>
      r == Loaded(MaybeSplit(FromCache(fs, filename, ff), splitArgs), fs)
    ensures filename in fs && !CacheFresh(fs, filename, loadnpy) ==>
      r.result == MaybeSplit(ReadSource(fs, filename, sortById, ff), splitArgs)
    ensures filename in fs && !CacheFresh(fs, filename, loadnpy) ==>
      r.fs == if savenpy && ReadSource(fs, filename, sortById, ff).Ok?
        then SaveArray(fs, SavedSidecar(fixed, CustomSidecar(filename)), ReadSource(fs, filename, sortById, ff).value.data.value, now)
        else fs
    ensures r.fs.Keys >= fs.Keys
    ensures filename in fs ==> filename in r.fs && r.fs[filename] == fs[filename]
  {
    if filename !in fs then Loaded(Err(FileNotFound(filename)), fs)
    else if CacheFresh(fs, filename, loadnpy) then
      Loaded(MaybeSplit(FromCache(fs, filename, ff), splitArgs), fs)
    else
      var read := ReadSource(fs, filename, sortById, ff);
      SidecarNotSource(fixed, filename);
      var fs' := if savenpy && read.Ok?
        then SaveArray(fs, SavedSidecar(fixed, CustomSidecar(filename)), read.value.data.value, now)
        else fs;
      Loaded(MaybeSplit(read, splitArgs), fs')
  }

  /** A load that takes the cache writes nothing and returns the header
      keys read from the source with the sidecar's array as 'data', split
      when asked for. */
  lemma CacheHitLoad(fixed: bool, fs: Fs, filename: string, savenpy: bool, loadnpy: bool,
                     sortById: bool, splitArgs: bool, ff: FloatFormat, now: int)
    requires filename in fs && CacheFresh(fs, filename, loadnpy)
    requires LoadCustomAs(fixed, fs, filename, savenpy, loadnpy, sortById, splitArgs, ff, now).result.Ok?
    ensures var r := LoadCustomAs(fixed, fs, filename, savenpy, loadnpy, sortById, splitArgs, ff, now);
      && r.fs == fs
      && fs[filename].content.Text? && fs[CustomSidecar(filename)].content.Npy?
      && ReadSpecs(fs[filename].content.lines, ff).Ok?
      && var raw := RawDict(ReadSpecs(fs[filename].content.lines, ff).value, fs[CustomSidecar(filename)].content.values);
         r.result == if splitArgs then SplitArgs(raw, true) else Ok(raw)
  {
  }

  /** A load that misses the cache returns what `read_custom` makes of
      the source, split when asked for, and with `savenpy` saves the
      unsplit 'data' array under the name the saving step picks. */
  lemma CacheMissLoad(fixed: bool, fs: Fs, filename: string, savenpy: bool, loadnpy: bool,
                      sortById: bool, splitArgs: bool, ff: FloatFormat, now: int)
    requires filename in fs && !CacheFresh(fs, filename, loadnpy)
    requires LoadCustomAs(fixed, fs, filename, savenpy, loadnpy, sortById, splitArgs, ff, now).result.Ok?
    ensures var r := LoadCustomAs(fixed, fs, filename, savenpy, loadnpy, sortById, splitArgs, ff, now);
      && fs[filename].content.Text?
      && var raw := ReadCustom(fs[filename].content.lines, sortById, false, ff);
      && raw.Ok? && raw.value.data.Some?
      && r.result == (if splitArgs then SplitArgs(raw.value, true) else raw)
      && r.fs == if savenpy then SaveArray(fs, SavedSidecar(fixed, CustomSidecar(filename)), raw.value.data.value, now) else fs
  {
  }

  /** Neither way of saving the sidecar overwrites the source. */
  lemma SidecarNotSource(fixed: bool, filename: string)
    ensures NpySavePath(SavedSidecar(fixed, CustomSidecar(filename))) == SavedSidecar(fixed, CustomSidecar(filename))
    ensures SavedSidecar(fixed, CustomSidecar(filename)) != filename
  {
    var s := CustomSidecar(filename);
    var root := SplitExt(filename).0;
    assert s == root + "_custom.npy";
    var saved := SavedSidecar(fixed, s);
    assert saved[..|s|] == s;
    assert saved[|root|] == '_';
    assert filename == root + SplitExt(filename).1;
    if |saved| == |filename| {
      assert filename[|root|] == '.';
    }
  }

  /** A sidecar that is older than the source, or that loading may not
      use, changes nothing in the result: the load is the same as with no
      sidecar at all. */
  lemma StaleSidecarIgnored(fixed: bool, fs: Fs, filename: string, e: Entry, savenpy: bool, loadnpy: bool,
                            sortById: bool, splitArgs: bool, ff: FloatFormat, now: int)
    requires filename in fs
    requires !loadnpy || e.mtime < fs[filename].mtime
    ensures LoadCustomAs(fixed, fs[CustomSidecar(filename) := e], filename, savenpy, loadnpy, sortById, splitArgs, ff, now).result ==
            LoadCustomAs(fixed, fs - {CustomSidecar(filename)}, filename, savenpy, loadnpy, sortById, splitArgs, ff, now).result
  {
    var fnpy := CustomSidecar(filename);
    var with := fs[fnpy := e];
    var without := fs - {fnpy};
    assert with[filename] == without[filename] == fs[filename];
    assert !CacheFresh(with, filename, loadnpy);
    assert !CacheFresh(without, filename, loadnpy);
    assert ReadLines(with, filename) == ReadLines(without, filename);
  }

  /** As written, a load never creates or changes the sidecar it checks,
      so when there is none, the next load parses the source again. */
  lemma {:induction false} AsWrittenNeverCaches(fs: Fs, filename: string, savenpy: bool, loadnpy: bool,
                                                sortById: bool, splitArgs: bool, ff: FloatFormat, now: int, loadnpy2: bool)
    requires filename in fs && CustomSidecar(filename) !in fs
    ensures var r := LoadCustomAs(false, fs, filename, savenpy, loadnpy, sortById, splitArgs, ff, now);
      CustomSidecar(filename) !in r.fs && !CacheFresh(r.fs, filename, loadnpy2)
  {
    var fnpy := CustomSidecar(filename);
    SavedSidecarMissed(filename);
    SidecarNotSource(false, filename);
  }

  /** `load_custom` on "dump.txt" checks for "dump_custom.npy" and saves
      "dump_custom.npy.npy". */
  lemma AsWrittenExample()
    ensures CustomSidecar("dump.txt") == "dump_custom.npy"
    ensures SavedCustomBinary("dump_custom.npy") == "dump_custom.npy.npy"
  {
    DumpSidecar();
    SavedSidecarMissed("dump.txt");
  }

  /** The sidecar name of "dump.txt". */
  lemma DumpSidecar()
    ensures CustomSidecar("dump.txt") == "dump_custom.npy"
  {
    SplitExtAt("dump.txt", 4);
  }

  /** Corrected, a load that parses the source and saves the sidecar (at a
      time not before the source's) makes the next load that may use the
      cache take it, return the same dictionary and write nothing. */
  lemma CorrectedReloadHits(fs: Fs, filename: string, loadnpy: bool, sortById: bool, splitArgs: bool,
                            ff: FloatFormat, now: int, savenpy2: bool, now2: int)
    requires filename in fs && !CacheFresh(fs, filename, loadnpy)
    requires LoadCustomAs(true, fs, filename, true, loadnpy, sortById, splitArgs, ff, now).result.Ok?
    requires now >= fs[filename].mtime
    ensures var r1 := LoadCustomAs(true, fs, filename, true, loadnpy, sortById, splitArgs, ff, now);
      var r2 := LoadCustomAs(true, r1.fs, filename, savenpy2, true, sortById, splitArgs, ff, now2);
      CacheFresh(r1.fs, filename, true) && r2 == Loaded(r1.result, r1.fs)
  {
    var fnpy := CustomSidecar(filename);
    SavedSidecarFound(filename);
    var read := ReadSource(fs, filename, sortById, ff);
    var r1 := LoadCustomAs(true, fs, filename, true, loadnpy, sortById, splitArgs, ff, now);
    assert read.Ok? && r1 == Loaded(MaybeSplit(read, splitArgs), SaveArray(fs, fnpy, read.value.data.value, now));
    CacheAfterSave(fs, filename, sortById, ff, now);
  }

  /** After the corrected save, the cache holds what the source reads as. */
  lemma CacheAfterSave(fs: Fs, filename: string, sortById: bool, ff: FloatFormat, now: int)
    requires filename in fs && ReadSource(fs, filename, sortById, ff).Ok?
    requires now >= fs[filename].mtime
    ensures var read := ReadSource(fs, filename, sortById, ff);
      var fs' := SaveArray(fs, CustomSidecar(filename), read.value.data.value, now);
      CacheFresh(fs', filename, true) && FromCache(fs', filename, ff) == read
  {
    var fnpy := CustomSidecar(filename);
    var read := ReadSource(fs, filename, sortById, ff);
    SidecarNotSource(true, filename);
    SavedSidecarFound(filename);
    var fs' := SaveArray(fs, fnpy, read.value.data.value, now);
    assert fs'[filename] == fs[filename];
    assert ReadLines(fs', filename) == ReadLines(fs, filename);
    assert LoadArray(fs', fnpy) == Ok(read.value.data.value);
  }
}

=== FILE: customread.dfy ===
/** Reading the LAMMPS custom dump format: `read_specs`, `nskip` and
    `read_custom`.  A file is its list of lines; `readline()` past the
    end returns "" and is modelled by reading from an empty remainder. */
module CustomRead {
  import opened Wrappers
  import opened Errors
  import opened PyStr
  import opened PyInt
  import opened PyFloat
  import opened RowSort
  import opened CustomData
  import CustomSplit

  /** `line.strip().split(' ')`: every single space separates, so two
      spaces in a row give an empty field. */
  function Fields(line: string): seq<string> {
    Split(Strip(line), ' ')
  }

  /** Python's `xs[k:]`, which is empty when xs is shorter than k. */
  function DropFirst<T>(xs: seq<T>, k: nat): (r: seq<T>)
    ensures |r| == if k <= |xs| then |xs| - k else 0
    ensures forall i :: 0 <= i < |r| ==> r[i] == xs[k + i]
  {
    if k <= |xs| then xs[k..] else []
  }

  /** `[float(e) for e in ts]`: None when some token is not a float. */
  function ParseFloats(ts: seq<string>, ff: FloatFormat): (r: Option<seq<real>>)
    ensures r.Some? <==> forall i :: 0 <= i < |ts| ==> ff.parse(ts[i]).Some?
    ensures r.Some? ==> |r.value| == |ts| && forall i :: 0 <= i < |ts| ==> ff.parse(ts[i]) == Some(r.value[i])
  {
    if |ts| == 0 then Some([])
    else match ff.parse(ts[0])
      case None => None
      case Some(v) =>
        match ParseFloats(ts[1..], ff)
        case None => None
        case Some(vs) => Some([v] + vs)
  }

  /** Line 3, `specs['num_atoms'] = int(line.strip())`: no key when the
      file is shorter, a ValueError when the line is not an integer. */
  function CountKey(lines: seq<string>): (r: Result<Option<int>, Error>)
    ensures r.Err? <==> |lines| > 3 && ParseInt(Strip(lines[3])).None?
    ensures r.Err? ==> r.error == NotAnInt
    ensures r.Ok? ==> (r.value.Some? <==> |lines| > 3)
    ensures r.Ok? && |lines| > 3 ==> r.value == ParseInt(Strip(lines[3]))
  {
    if |lines| <= 3 then Ok(None)
    else match ParseInt(Strip(lines[3]))
      case None => Err(NotAnInt)
      case Some(v) => Ok(Some(v))
  }

  /** Box line k, `[float(entry) for entry in line.strip().split(' ')]`:
      nothing is read when the file is shorter. */
  function BoxLine(lines: seq<string>, k: nat, ff: FloatFormat): (r: Result<seq<real>, Error>)
    ensures r.Err? <==> k < |lines| && ParseFloats(Fields(lines[k]), ff).None?
    ensures r.Err? ==> r.error == NotAFloat
    ensures r.Ok? && k < |lines| ==> ParseFloats(Fields(lines[k]), ff) == Some(r.value)
  {
    if k >= |lines| then Ok([])
    else match ParseFloats(Fields(lines[k]), ff)
      case None => Err(NotAFloat)
      case Some(v) => Ok(v)
  }

  /** Lines 5 to 7, converted in order; the key is set once line 7 is
      reached. */
  function BoxKey(lines: seq<string>, ff: FloatFormat): (r: Result<Option<seq<seq<real>>>, Error>)
    ensures r.Err? <==> BoxLine(lines, 5, ff).Err? || BoxLine(lines, 6, ff).Err? || BoxLine(lines, 7, ff).Err?
    ensures r.Err? ==> r.error == NotAFloat
    ensures r.Ok? ==> (r.value.Some? <==> |lines| > 7)
    ensures r.Ok? && |lines| > 7 ==>
      |r.value.value| == 3 && BoxLine(lines, 5, ff) == Ok(r.value.value[0]) &&
      BoxLine(lines, 6, ff) == Ok(r.value.value[1]) && BoxLine(lines, 7, ff) == Ok(r.value.value[2])
  {
    var x :- BoxLine(lines, 5, ff);
    var y :- BoxLine(lines, 6, ff);
    var z :- BoxLine(lines, 7, ff);
    Ok(if |lines| > 7 then Some([x, y, z]) else None)
  }

  /** `read_specs`: lines 3 to 8 set the keys, in file order, and each
      conversion error is raised when its line is reached.  Line 4 and
      line 8 are kept as words, which cannot fail. */
  function ReadSpecs(lines: seq<string>, ff: FloatFormat): (r: Result<Specs, Error>)
    ensures |lines| <= 3 ==> r == Ok(Specs(None, None, None, None))
    ensures r.Ok? ==> (r.value.numAtoms.Some? <==> |lines| > 3)
    ensures r.Ok? ==> (r.value.boundary.Some? <==> |lines| > 4)
    ensures r.Ok? ==> (r.value.box.Some? <==> |lines| > 7)
    ensures r.Ok? ==> (r.value.args.Some? <==> |lines| > 8)
    ensures r.Ok? && r.value.box.Some? ==> |r.value.box.value| == 3
  {
    var n :- CountKey(lines);
    var box :- BoxKey(lines, ff);
    Ok(Specs(n,
      if |lines| > 4 then Some(DropFirst(Fields(lines[4]), 3)) else None,
      box,
      if |lines| > 8 then Some(DropFirst(Fields(lines[8]), 2)) else None))
  }

  /** Some line `read_specs` converts does not convert: the atom count on
      line 3, or a box line 5, 6 or 7 that the file reaches. */
  predicate SpecsLineFails(lines: seq<string>, ff: FloatFormat) {
    || (|lines| > 3 && ParseInt(Strip(lines[3])).None?)
    || (|lines| > 5 && ParseFloats(Fields(lines[5]), ff).None?)
    || (|lines| > 6 && ParseFloats(Fields(lines[6]), ff).None?)
    || (|lines| > 7 && ParseFloats(Fields(lines[7]), ff).None?)
  }

  /** `read_specs` raises exactly when a line it converts does not
      convert: ValueError from `int()` for line 3, checked first, and
      otherwise from `float()`. */
  lemma ReadSpecsFails(lines: seq<string>, ff: FloatFormat)
    ensures ReadSpecs(lines, ff).Err? <==> SpecsLineFails(lines, ff)
    ensures |lines| > 3 && ParseInt(Strip(lines[3])).None? ==> ReadSpecs(lines, ff) == Err(NotAnInt)
    ensures ReadSpecs(lines, ff).Err? && ReadSpecs(lines, ff) != Err(NotAnInt) ==> ReadSpecs(lines, ff) == Err(NotAFloat)
  {
  }

  /** A key `read_specs` sets holds the conversion of its own line: the
      atom count of line 3, line 4 from word 3 on, the box rows of lines
      5 to 7, and line 8 from word 2 on. */
  lemma ReadSpecsValues(lines: seq<string>, ff: FloatFormat)
    requires ReadSpecs(lines, ff).Ok?
    ensures var sp := ReadSpecs(lines, ff).value;
      (|lines| > 3 ==> sp.numAtoms == ParseInt(Strip(lines[3]))) &&
      (|lines| > 4 ==> sp.boundary == Some(DropFirst(Fields(lines[4]), 3))) &&
      (|lines| > 7 ==>
         ParseFloats(Fields(lines[5]), ff) == Some(sp.box.value[0]) &&
         ParseFloats(Fields(lines[6]), ff) == Some(sp.box.value[1]) &&
         ParseFloats(Fields(lines[7]), ff) == Some(sp.box.value[2])) &&
      (|lines| > 8 ==> sp.args == Some(DropFirst(Fields(lines[8]), 2)))
  {
    ReadSpecsParts(lines, ff);
    if |lines| > 7 {
      BoxValues(lines, ff);
    }
  }

  /** A successful `read_specs` is made of its count key and its box key. */
  lemma ReadSpecsParts(lines: seq<string>, ff: FloatFormat)
    requires ReadSpecs(lines, ff).Ok?
    ensures CountKey(lines).Ok? && BoxKey(lines, ff).Ok?
    ensures ReadSpecs(lines, ff).value == Specs(CountKey(lines).value,
      if |lines| > 4 then Some(DropFirst(Fields(lines[4]), 3)) else None,
      BoxKey(lines, ff).value,
      if |lines| > 8 then Some(DropFirst(Fields(lines[8]), 2)) else None)
  {
  }

  lemma BoxValues(lines: seq<string>, ff: FloatFormat)
    requires BoxKey(lines, ff).Ok? && |lines| > 7
    ensures var box := BoxKey(lines, ff).value.value;
      ParseFloats(Fields(lines[5]), ff) == Some(box[0]) &&
      ParseFloats(Fields(lines[6]), ff) == Some(box[1]) &&
      ParseFloats(Fields(lines[7]), ff) == Some(box[2])
  {
    var box := BoxKey(lines, ff).value.value;
    BoxLineValue(lines, 5, ff, box[0]);
    BoxLineValue(lines, 6, ff, box[1]);
    BoxLineValue(lines, 7, ff, box[2]);
  }

  lemma BoxLineValue(lines: seq<string>, k: nat, ff: FloatFormat, v: seq<real>)
    requires k < |lines| && BoxLine(lines, k, ff) == Ok(v)
    ensures ParseFloats(Fields(lines[k]), ff) == Some(v)
  {
  }

  /** `read_specs` stops after line 8: nothing after it matters. */
  lemma ReadSpecsFirstNine(lines: seq<string>, ff: FloatFormat)
    ensures |lines| > 9 ==> ReadSpecs(lines, ff) == ReadSpecs(lines[..9], ff)
  {
    if |lines| > 9 {
      var p := lines[..9];
      assert forall k :: 3 <= k <= 8 ==> p[k] == lines[k];
      KeysAgree(p, lines, ff);
    }
  }

  /** Two files that agree on lines 3 to 8 have the same header. */
  lemma KeysAgree(a: seq<string>, b: seq<string>, ff: FloatFormat)
    requires |a| > 8 && |b| > 8 && forall k :: 3 <= k <= 8 ==> a[k] == b[k]
    ensures ReadSpecs(a, ff) == ReadSpecs(b, ff)
  {
    CountKeyAgree(a, b);
    BoxKeyAgree(a, b, ff);
    assert a[4] == b[4] && a[8] == b[8];
  }

  lemma CountKeyAgree(a: seq<string>, b: seq<string>)
    requires |a| > 3 && |b| > 3 && a[3] == b[3]
    ensures CountKey(a) == CountKey(b)
  {
  }

  lemma BoxKeyAgree(a: seq<string>, b: seq<string>, ff: FloatFormat)
    requires |a| > 7 && |b| > 7 && a[5] == b[5] && a[6] == b[6] && a[7] == b[7]
    ensures BoxKey(a, ff) == BoxKey(b, ff)
  {
    BoxLineAgree(a, b, 5, ff);
    BoxLineAgree(a, b, 6, ff);
    BoxLineAgree(a, b, 7, ff);
  }

  lemma BoxLineAgree(a: seq<string>, b: seq<string>, k: nat, ff: FloatFormat)
    requires k < |a| && k < |b| && a[k] == b[k]
    ensures BoxLine(a, k, ff) == BoxLine(b, k, ff)
  {
  }

  /** `k` calls of `readline()` whose results are discarded. */
  function SkipLines(rest: seq<string>, k: int): (r: seq<string>)
    ensures r == rest[if k <= 0 then 0 else if k <= |rest| then k else |rest|..]
    decreases |rest|
  {
    if k <= 0 || |rest| == 0 then rest else SkipLines(rest[1..], k - 1)
  }

  /** `nskip(f, n)`: false, consuming nothing, when the first read is at
      the end of the file; otherwise true, with n lines consumed (or all
      that are left, and at least one). */
  function NSkip(rest: seq<string>, n: int): (r: (bool, seq<string>))
    ensures r.0 <==> |rest| > 0
    ensures !r.0 ==> r.1 == rest
    ensures r.0 ==> r.1 == rest[if n <= 1 then 1 else if n <= |rest| then n else |rest|..]
  {
    if |rest| == 0 then (false, rest)
    else (true, SkipLines(rest[1..], n - 1))
  }

  /** `snap[i] = [float(e) for e in line.strip().split(' ')]` for a
      snapshot array with `nargs` columns: a single value is broadcast
      across the row, any other count but `nargs` is a ValueError. */
  function ParseRow(line: string, nargs: nat, ff: FloatFormat): (r: Result<seq<real>, Error>)
    ensures r.Ok? ==> |r.value| == nargs
    ensures r.Ok? <==> ParseFloats(Fields(line), ff).Some? && (|Fields(line)| == nargs || |Fields(line)| == 1)
    ensures r.Ok? && |Fields(line)| == nargs ==> forall i :: 0 <= i < nargs ==> ff.parse(Fields(line)[i]) == Some(r.value[i])
    ensures r.Ok? && |Fields(line)| == 1 ==> forall i :: 0 <= i < nargs ==> ff.parse(Fields(line)[0]) == Some(r.value[i])
    ensures ParseFloats(Fields(line), ff).None? ==> r == Err(NotAFloat)
    ensures r.Err? && ParseFloats(Fields(line), ff).Some? ==> r == Err(RowShape)
  {
    var vals := ParseFloats(Fields(line), ff);
    if vals.None? then Err(NotAFloat)
    else if |vals.value| == nargs then Ok(vals.value)
    else if |vals.value| == 1 then Ok(seq(nargs, _ => vals.value[0]))
    else Err(RowShape)
  }

  /** `f.readline()` for the i-th line from here: "" past the end. */
  function LineAt(rest: seq<string>, i: nat): string {
    if i < |rest| then rest[i] else ""
  }

  /** The `k` data rows of one snapshot, read one `readline()` at a time:
      row i is the parse of the i-th line, and the first line that does
      not parse ends the read. */
  function ReadRows(rest: seq<string>, k: nat, nargs: nat, ff: FloatFormat): (r: Result<seq<seq<real>>, Error>)
    ensures r.Ok? ==> |r.value| == k && RowsOfWidth(r.value, nargs)
    ensures r.Ok? && RejectsEmpty(ff) ==> k <= |rest|
    ensures r.Ok? ==> forall i :: 0 <= i < k ==> ParseRow(LineAt(rest, i), nargs, ff) == Ok(r.value[i])
  {
    var rs := seq(k, i requires 0 <= i < k => ParseRow(LineAt(rest, i), nargs, ff));
    EmptyRowFails(nargs, ff);
    assert |rest| < k ==> rs[|rest|] == ParseRow("", nargs, ff);
    Collect(rs)
  }

  /** At the end of the file `readline()` returns "", and `float('')`
      raises. */
  lemma EmptyRowFails(nargs: nat, ff: FloatFormat)
    ensures RejectsEmpty(ff) ==> ParseRow("", nargs, ff).Err?
  {
    FieldsOfEmpty();
  }

  lemma FieldsOfEmpty()
    ensures Fields("") == [""]
  {
  }

  /** One snapshot: the n rows after the header, sorted on column
      `idCol` when one is given. */
  function ReadBlock(body: seq<string>, n: nat, nargs: nat, idCol: Option<nat>, ff: FloatFormat): (r: Result<seq<seq<real>>, Error>)
    requires idCol.Some? ==> idCol.value < nargs
    ensures r.Ok? <==> ReadRows(body, n, nargs, ff).Ok?
    ensures r.Ok? ==> |r.value| == n && RowsOfWidth(r.value, nargs)
    ensures r.Ok? && idCol.None? ==> r.value == ReadRows(body, n, nargs, ff).value
    ensures r.Ok? && idCol.Some? ==>
      HasColumn(ReadRows(body, n, nargs, ff).value, idCol.value) &&
      r.value == SortByColumn(ReadRows(body, n, nargs, ff).value, idCol.value)
    ensures r.Ok? && idCol.Some? ==> HasColumn(r.value, idCol.value) && SortedOn(r.value, idCol.value)
  {
    var rows :- ReadRows(body, n, nargs, ff);
    if idCol.Some? then SortKeepsWidth(rows, idCol.value, nargs); Ok(SortByColumn(rows, idCol.value))
    else Ok(rows)
  }

  /** The snapshot loop of `read_custom`: while `nskip(f, 9)` succeeds,
      read `n` rows, and sort them on column `idCol` when one is given. */
  function ReadBlocks(rest: seq<string>, n: int, nargs: nat, idCol: Option<nat>, ff: FloatFormat): (r: Result<Array3, Error>)
    requires idCol.Some? ==> idCol.value < nargs
    ensures r.Ok? && |rest| > 0 ==> n >= 0 && |r.value| > 0
    ensures r.Ok? ==> Shaped(r.value, n, nargs)
    ensures r.Ok? && idCol.Some? ==> AllSortedOn(r.value, idCol.value)
    decreases |rest|
  {
    var skipped := NSkip(rest, 9);
    if !skipped.0 then Ok([])
    else if n < 0 then Err(NegativeAtomCount)
    else
      var body := skipped.1;
      var snap :- ReadBlock(body, n, nargs, idCol, ff);
      var snaps :- ReadBlocks(body[if n <= |body| then n else |body|..], n, nargs, idCol, ff);
      ShapedCons(snap, snaps, n, nargs);
      if idCol.Some? then SortedCons(snap, snaps, idCol.value); Ok([snap] + snaps)
      else Ok([snap] + snaps)
  }

  /** One turn of the snapshot loop with n > 0 atoms: a successful read
      consumed a full header and n rows, and the first snapshot is the
      (sorted, when asked) rows after the header. */
  lemma BlocksStep(rest: seq<string>, n: int, nargs: nat, idCol: Option<nat>, ff: FloatFormat)
    requires idCol.Some? ==> idCol.value < nargs
    requires ReadBlocks(rest, n, nargs, idCol, ff).Ok? && n > 0 && RejectsEmpty(ff) && |rest| > 0
    ensures |rest| >= 9 + n
    ensures ReadRows(rest[9..], n, nargs, ff).Ok?
    ensures ReadBlocks(rest[9 + n..], n, nargs, idCol, ff).Ok?
    ensures |ReadBlocks(rest, n, nargs, idCol, ff).value| == 1 + |ReadBlocks(rest[9 + n..], n, nargs, idCol, ff).value|
    ensures idCol.None? ==> (ReadBlocks(rest, n, nargs, idCol, ff).value ==
      [ReadRows(rest[9..], n, nargs, ff).value] + ReadBlocks(rest[9 + n..], n, nargs, idCol, ff).value)
  {
    var body := NSkip(rest, 9).1;
    assert body == rest[9..];
    assert ReadRows(body, n, nargs, ff).Ok?;
    assert body[n..] == rest[9 + n..];
  }

  /** With n > 0 atoms and no partial snapshot tolerated, the file after
      the header is exactly a whole number of 9 + n line blocks. */
  lemma {:induction false} BlocksFillFile(rest: seq<string>, n: int, nargs: nat, idCol: Option<nat>, ff: FloatFormat)
    requires idCol.Some? ==> idCol.value < nargs
    requires ReadBlocks(rest, n, nargs, idCol, ff).Ok? && n > 0 && RejectsEmpty(ff)
    ensures |rest| == |ReadBlocks(rest, n, nargs, idCol, ff).value| * (9 + n)
    decreases |rest|
  {
    if |rest| > 0 {
      BlocksStep(rest, n, nargs, idCol, ff);
      BlocksFillFile(rest[9 + n..], n, nargs, idCol, ff);
      var tail := rest[9 + n..];
      CountStep(|rest|, |tail|, |ReadBlocks(tail, n, nargs, idCol, ff).value|, 9 + n);
    }
  }

  /** With no atoms every header of up to nine lines is a snapshot of
      no rows, so the count is the number of lines divided by nine,
      rounded up. */
  lemma {:induction false} EmptySnapshotsCount(rest: seq<string>, nargs: nat, idCol: Option<nat>, ff: FloatFormat)
    requires idCol.Some? ==> idCol.value < nargs
    ensures ReadBlocks(rest, 0, nargs, idCol, ff).Ok?
    ensures |ReadBlocks(rest, 0, nargs, idCol, ff).value| == (|rest| + 8) / 9
    decreases |rest|
  {
    if |rest| > 0 {
      var tail := NSkip(rest, 9).1;
      assert ReadRows(tail, 0, nargs, ff) == Ok([]);
      assert tail[0..] == tail;
      EmptySnapshotsCount(tail, nargs, idCol, ff);
      CeilStep(|rest|, |tail|, |ReadBlocks(tail, 0, nargs, idCol, ff).value|);
    }
  }

  lemma CeilStep(total: nat, tail: nat, k: nat)
    requires total > 0 && tail == (if total >= 9 then total - 9 else 0) && k == (tail + 8) / 9
    ensures k + 1 == (total + 8) / 9
  {
  }

  lemma CountStep(total: nat, tail: nat, k: nat, m: nat)
    requires total == m + tail && tail == k * m
    ensures total == (k + 1) * m
  {
  }

  /** Each snapshot of `sorted` is that of `plain`, sorted on column c. */
  predicate SortedVersion(sorted: Array3, plain: Array3, c: nat) {
    |sorted| == |plain| &&
    forall s :: 0 <= s < |plain| ==> HasColumn(plain[s], c) && sorted[s] == SortByColumn(plain[s], c)
  }

  lemma SortedVersionCons(rows: seq<seq<real>>, sorted: Array3, plain: Array3, c: nat)
    requires HasColumn(rows, c) && SortedVersion(sorted, plain, c)
    ensures SortedVersion([SortByColumn(rows, c)] + sorted, [rows] + plain, c)
  {
    var s2, p2 := [SortByColumn(rows, c)] + sorted, [rows] + plain;
    forall s | 0 <= s < |p2|
      ensures HasColumn(p2[s], c) && s2[s] == SortByColumn(p2[s], c)
    {
      if s > 0 {
        assert p2[s] == plain[s - 1] && s2[s] == sorted[s - 1];
      }
    }
  }

  /** Sorting by id changes neither whether the read succeeds nor which
      rows a snapshot holds: each snapshot is the unsorted one, sorted. */
  lemma {:induction false} BlocksSorted(rest: seq<string>, n: int, nargs: nat, c: nat, ff: FloatFormat)
    requires c < nargs
    ensures ReadBlocks(rest, n, nargs, Some(c), ff).Ok? <==> ReadBlocks(rest, n, nargs, None, ff).Ok?
    ensures ReadBlocks(rest, n, nargs, None, ff).Ok? ==>
      SortedVersion(ReadBlocks(rest, n, nargs, Some(c), ff).value, ReadBlocks(rest, n, nargs, None, ff).value, c)
    decreases |rest|
  {
    var skipped := NSkip(rest, 9);
    if skipped.0 && n >= 0 {
      var body := skipped.1;
      var tail := body[if n <= |body| then n else |body|..];
      BlocksSorted(tail, n, nargs, c, ff);
      var rows := ReadRows(body, n, nargs, ff);
      var plain := ReadBlocks(tail, n, nargs, None, ff);
      var sorted := ReadBlocks(tail, n, nargs, Some(c), ff);
      assert ReadBlock(body, n, nargs, None, ff).Ok? == rows.Ok? == ReadBlock(body, n, nargs, Some(c), ff).Ok?;
      if rows.Err? {
        assert ReadBlocks(rest, n, nargs, None, ff).Err? && ReadBlocks(rest, n, nargs, Some(c), ff).Err?;
      } else if plain.Err? {
        assert ReadBlocks(rest, n, nargs, None, ff).Err? && ReadBlocks(rest, n, nargs, Some(c), ff).Err?;
      } else {
        assert ReadBlocks(rest, n, nargs, None, ff) == Ok([rows.value] + plain.value);
        assert ReadBlocks(rest, n, nargs, Some(c), ff) == Ok([SortByColumn(rows.value, c)] + sorted.value);
        SortedVersionCons(rows.value, sorted.value, plain.value, c);
      }
    }
  }

  /** Every snapshot has n rows of w entries. */
  predicate Shaped(data: Array3, n: int, w: nat) {
    forall s :: 0 <= s < |data| ==> |data[s]| == n && RowsOfWidth(data[s], w)
  }

  lemma ShapedCons(snap: seq<seq<real>>, snaps: Array3, n: int, w: nat)
    requires |snap| == n && RowsOfWidth(snap, w) && Shaped(snaps, n, w)
    ensures Shaped([snap] + snaps, n, w)
  {
  }

  /** Every snapshot is sorted on column c. */
  predicate AllSortedOn(data: Array3, c: nat) {
    forall s :: 0 <= s < |data| ==> HasColumn(data[s], c) && SortedOn(data[s], c)
  }

  lemma SortedCons(snap: seq<seq<real>>, snaps: Array3, c: nat)
    requires HasColumn(snap, c) && SortedOn(snap, c) && AllSortedOn(snaps, c)
    ensures AllSortedOn([snap] + snaps, c)
  {
  }

  /** `read_custom(filename, sortbyid, splitargs)` on the file's lines. */
  function ReadCustom(lines: seq<string>, sortById: bool, splitArgs: bool, ff: FloatFormat): (r: Result<CustomDict, Error>)
    ensures r.Ok? ==> ReadSpecs(lines, ff).Ok? && r.value.specs == ReadSpecs(lines, ff).value
    ensures r.Ok? ==> |lines| > 8
    ensures r.Ok? && !splitArgs ==> r.value.data.Some? && |r.value.data.value| > 0
    ensures r.Ok? && !splitArgs ==> r.value == RawDict(r.value.specs, r.value.data.value)
    ensures r.Ok? && !splitArgs ==> forall s :: 0 <= s < |r.value.data.value| ==>
      |r.value.data.value[s]| == r.value.specs.numAtoms.value &&
      forall a :: 0 <= a < |r.value.data.value[s]| ==> |r.value.data.value[s][a]| == |r.value.specs.args.value|
  {
    var specs :- ReadSpecs(lines, ff);
    if specs.numAtoms.None? then Err(MissingKey("num_atoms"))
    else if specs.args.None? then Err(MissingKey("args"))
    else
      var args := specs.args.value;
      var data :- ReadBlocks(lines, specs.numAtoms.value, |args|, IdColumn(args, sortById), ff);
      var d := RawDict(specs, data);
      if splitArgs then CustomSplit.SplitArgs(d, true) else Ok(d)
  }

  /** The column the rows are sorted on: that of the first 'id' when
      sorting is asked for and there is one. */
  function IdColumn(args: seq<string>, sortById: bool): (r: Option<nat>)
    ensures r.Some? ==> r.value < |args| && args[r.value] == "id"
    ensures r.Some? ==> forall j :: 0 <= j < r.value ==> args[j] != "id"
    ensures r.Some? <==> sortById && "id" in args
  {
    if sortById && "id" in args then Some(CustomSplit.FirstIndex(args, "id")) else None
  }
}

=== FILE: customroundtrip.dfy ===
/** What reading back the output of `write_custom` gives, and how the
    writer's column selection undoes `customdata_splitargs`. */
module CustomRoundTrip {
  import opened Wrappers
  import opened Errors
  import opened PyStr
  import opened PyInt
  import opened PyFloat
  import opened CustomData
  import opened Output
  import opened CustomRead
  import opened CustomWrite
  import opened CustomSplit

  /** `line.strip().split(' ')` of tokens joined by single spaces gives
      the tokens back. */
  lemma FieldsOfJoin(ts: seq<string>)
    requires |ts| > 0 && AllTokens(ts)
    ensures Fields(Join(ts, ' ')) == ts
  {
    SplitStripJoin(ts);
  }

  /** The values `read_specs` gives a box line written from two floats. */
  lemma BoxLineParses(lo: real, hi: real, ff: FloatFormat)
    requires ReprParses(ff)
    ensures ParseFloats(Fields(Join([ff.repr(lo), ff.repr(hi)], ' ')), ff) == Some([Reread(ff, lo), Reread(ff, hi)])
  {
    assert IsToken(ff.repr(lo)) && IsToken(ff.repr(hi));
    FieldsOfJoin([ff.repr(lo), ff.repr(hi)]);
    ParsePair(ff.repr(lo), ff.repr(hi), Reread(ff, lo), Reread(ff, hi), ff);
  }

  lemma ParsePair(a: string, b: string, x: real, y: real, ff: FloatFormat)
    requires ff.parse(a) == Some(x) && ff.parse(b) == Some(y)
    ensures ParseFloats([a, b], ff) == Some([x, y])
  {
    var r := ParseFloats([a, b], ff);
    assert [a, b][0] == a && [a, b][1] == b;
    assert r.Some? && |r.value| == 2;
    assert r.value[0] == x && r.value[1] == y;
    assert r.value == [x, y];
  }

  /** The 'ITEM: ATOMS' line splits back into its names. */
  lemma AtomsLineFields(args: seq<string>)
    requires |args| > 0 && AllTokens(args)
    ensures DropFirst(Fields("ITEM: ATOMS " + Join(args, ' ')), 2) == args
  {
    var ts := ["ITEM:", "ATOMS"] + args;
    HeaderWords();
    TokensAppend(["ITEM:", "ATOMS"], args);
    AtomsJoin(args);
    FieldsOfJoin(ts);
    assert ts[2..] == args;
  }

  /** The fixed words of the header lines are tokens. */
  lemma HeaderWords()
    ensures AllTokens(["ITEM:", "ATOMS"])
    ensures AllTokens(["ITEM:", "BOX", "BOUNDS"])
  {
    assert IsToken("ITEM:");
    assert IsToken("ATOMS");
    assert IsToken("BOX");
    assert IsToken("BOUNDS");
  }

  lemma TokensAppend(a: seq<string>, b: seq<string>)
    requires AllTokens(a) && AllTokens(b)
    ensures AllTokens(a + b)
  {
    assert forall i :: |a| <= i < |a + b| ==> (a + b)[i] == b[i - |a|];
  }

  lemma AtomsJoin(args: seq<string>)
    requires |args| > 0
    ensures Join(["ITEM:", "ATOMS"] + args, ' ') == "ITEM: ATOMS " + Join(args, ' ')
  {
    assert ["ITEM:"] + (["ATOMS"] + args) == ["ITEM:", "ATOMS"] + args;
    JoinCons("ITEM:", ["ATOMS"] + args, ' ');
    JoinCons("ATOMS", args, ' ');
    AtomsPrefix(Join(args, ' '));
  }

  lemma AtomsPrefix(x: string)
    ensures "ITEM:" + [' '] + ("ATOMS" + [' '] + x) == "ITEM: ATOMS " + x
  {
  }

  /** The 'ITEM: BOX BOUNDS' line splits back into its three entries. */
  lemma BoundsLineFields(b: seq<string>)
    requires |b| >= 3 && AllTokens(b[..3])
    ensures DropFirst(Fields(Join(["ITEM:", "BOX", "BOUNDS"] + b[..3], ' ')), 3) == b[..3]
  {
    HeaderWords();
    TokensAppend(["ITEM:", "BOX", "BOUNDS"], b[..3]);
    FieldsOfJoin(["ITEM:", "BOX", "BOUNDS"] + b[..3]);
    assert (["ITEM:", "BOX", "BOUNDS"] + b[..3])[3..] == b[..3];
  }

  /** The [lo, hi] pairs the writer prints. */
  function BoxPairs(box: seq<seq<real>>): (r: seq<seq<real>>)
    requires |box| >= 3 && forall i :: 0 <= i < 3 ==> |box[i]| >= 2
    ensures |r| == 3 && forall i :: 0 <= i < 3 ==> r[i] == [box[i][0], box[i][1]]
  {
    [[box[0][0], box[0][1]], [box[1][0], box[1][1]], [box[2][0], box[2][1]]]
  }

  /** The [lo, hi] pairs as `float()` reads them back from the text the
      writer prints. */
  function RereadPairs(box: seq<seq<real>>, ff: FloatFormat): (r: seq<seq<real>>)
    requires ReprParses(ff)
    requires |box| >= 3 && forall i :: 0 <= i < 3 ==> |box[i]| >= 2
    ensures |r| == 3
    ensures forall i :: 0 <= i < 3 ==>
      |r[i]| == 2 && ff.parse(ff.repr(box[i][0])) == Some(r[i][0]) && ff.parse(ff.repr(box[i][1])) == Some(r[i][1])
  {
    [[Reread(ff, box[0][0]), Reread(ff, box[0][1])],
     [Reread(ff, box[1][0]), Reread(ff, box[1][1])],
     [Reread(ff, box[2][0]), Reread(ff, box[2][1])]]
  }

  /** A box `read_specs` read from a file is reread unchanged once
      written again: its values are doubles, whose `str()` reads back
      exactly. */
  lemma BoxReadBack(lines: seq<string>, ff: FloatFormat)
    requires ReprParses(ff) && ReprInvertsParse(ff)
    requires ReadSpecs(lines, ff).Ok? && |lines| > 7
    requires BoxShaped(ReadSpecs(lines, ff).value.box)
    ensures var box := ReadSpecs(lines, ff).value.box.value;
      RereadPairs(box, ff) == BoxPairs(box)
  {
    var box := ReadSpecs(lines, ff).value.box.value;
    ReadSpecsValues(lines, ff);
    RowReadBack(Fields(lines[5]), box[0], ff);
    RowReadBack(Fields(lines[6]), box[1], ff);
    RowReadBack(Fields(lines[7]), box[2], ff);
  }

  lemma RowReadBack(ts: seq<string>, row: seq<real>, ff: FloatFormat)
    requires ReprParses(ff) && ReprInvertsParse(ff)
    requires ParseFloats(ts, ff) == Some(row) && |row| >= 2
    ensures Reread(ff, row[0]) == row[0] && Reread(ff, row[1]) == row[1]
  {
    RereadParsed(ff, ts[0]);
    RereadParsed(ff, ts[1]);
  }

  /** `read_specs` on the nine header lines the writer prints. */
  lemma ReadSpecsOfHeader(lines: seq<string>, nbp: nat, bounds: seq<string>, box: seq<seq<real>>, args: seq<string>, ff: FloatFormat)
    requires ReprParses(ff)
    requires |bounds| >= 3 && AllTokens(bounds[..3])
    requires |box| >= 3 && forall i :: 0 <= i < 3 ==> |box[i]| >= 2
    requires |args| > 0 && AllTokens(args)
    requires |lines| > 8
    requires lines[3] == Show(nbp)
    requires lines[4] == Join(["ITEM:", "BOX", "BOUNDS"] + bounds[..3], ' ')
    requires lines[5] == Join([ff.repr(box[0][0]), ff.repr(box[0][1])], ' ')
    requires lines[6] == Join([ff.repr(box[1][0]), ff.repr(box[1][1])], ' ')
    requires lines[7] == Join([ff.repr(box[2][0]), ff.repr(box[2][1])], ' ')
    requires lines[8] == "ITEM: ATOMS " + Join(args, ' ')
    ensures ReadSpecs(lines, ff) == Ok(Specs(Some(nbp), Some(bounds[..3]), Some(RereadPairs(box, ff)), Some(args)))
  {
    CountOfShow(lines, nbp);
    BoxOfHeader(lines, box, ff);
    BoundsLineFields(bounds);
    AtomsLineFields(args);
  }

  lemma CountOfShow(lines: seq<string>, nbp: nat)
    requires |lines| > 3 && lines[3] == Show(nbp)
    ensures CountKey(lines) == Ok(Some(nbp))
  {
    ShowToken(nbp);
    StripUnchanged(Show(nbp));
    ParseShow(nbp);
  }

  /** The box key of the three box lines the writer prints. */
  lemma BoxOfHeader(lines: seq<string>, box: seq<seq<real>>, ff: FloatFormat)
    requires ReprParses(ff)
    requires |box| >= 3 && forall i :: 0 <= i < 3 ==> |box[i]| >= 2
    requires |lines| > 7
    requires lines[5] == Join([ff.repr(box[0][0]), ff.repr(box[0][1])], ' ')
    requires lines[6] == Join([ff.repr(box[1][0]), ff.repr(box[1][1])], ' ')
    requires lines[7] == Join([ff.repr(box[2][0]), ff.repr(box[2][1])], ' ')
    ensures BoxKey(lines, ff) == Ok(Some(RereadPairs(box, ff)))
  {
    var r := RereadPairs(box, ff);
    BoxLineParses(box[0][0], box[0][1], ff);
    BoxLineParses(box[1][0], box[1][1], ff);
    BoxLineParses(box[2][0], box[2][1], ff);
    assert BoxLine(lines, 5, ff) == Ok(r[0]);
    assert BoxLine(lines, 6, ff) == Ok(r[1]);
    assert BoxLine(lines, 7, ff) == Ok(r[2]);
    assert [r[0], r[1], r[2]] == r;
  }

  /** The first snapshot's header is written in full when the timestep
      list (if any) is not empty and the box has three rows of two. */
  lemma HeaderWritten(l: Layout, nsnap: nat, ff: FloatFormat)
    requires Fits(l, nsnap) && nsnap > 0
    requires l.timesteps.None? || |l.timesteps.value| > 0
    requires BoxWritable(l.box)
    ensures var out := Run(StepsFrom(l, nsnap, 0, ff));
      AllLines(HeaderSteps(l, 0, ff)) && |out.lines| >= 9 && out.lines[..9] == Texts(HeaderSteps(l, 0, ff))
  {
    var h := HeaderSteps(l, 0, ff);
    var rest := RowSteps(l, nsnap, 0, ff) + StepsFrom(l, nsnap, 1, ff);
    assert StepsFrom(l, nsnap, 0, ff) == h + rest;
    assert AllLines(h);
    RunConcat(h, rest);
  }

  /** `read_specs` on the lines the snapshot writes leave in the file. */
  lemma ReadSpecsOfRun(l: Layout, nsnap: nat, bounds: seq<string>, ff: FloatFormat)
    requires ReprParses(ff)
    requires Fits(l, nsnap) && nsnap > 0
    requires l.timesteps.None? || |l.timesteps.value| > 0
    requires BoxWritable(l.box)
    requires |bounds| >= 3 && AllTokens(bounds[..3])
    requires l.boundary == Join(["ITEM:", "BOX", "BOUNDS"] + bounds[..3], ' ')
    requires |l.args| > 0 && AllTokens(l.args)
    ensures ReadSpecs(Run(StepsFrom(l, nsnap, 0, ff)).lines, ff) ==
      Ok(Specs(Some(l.nbp), Some(bounds[..3]), Some(RereadPairs(l.box.value, ff)), Some(l.args)))
  {
    var lines := Run(StepsFrom(l, nsnap, 0, ff)).lines;
    RunHeaderLines(l, nsnap, ff);
    ReadSpecsOfHeader(lines, l.nbp, bounds, l.box.value, l.args, ff);
  }

  /** Lines 3 to 8 of the first snapshot: the atom count, the boundary
      line, the three box lines and the column-name line. */
  lemma RunHeaderLines(l: Layout, nsnap: nat, ff: FloatFormat)
    requires Fits(l, nsnap) && nsnap > 0
    requires l.timesteps.None? || |l.timesteps.value| > 0
    requires BoxWritable(l.box)
    ensures var lines := Run(StepsFrom(l, nsnap, 0, ff)).lines;
      && |lines| > 8
      && lines[3] == Show(l.nbp)
      && lines[4] == l.boundary
      && lines[5] == BoxText(l.box, 0, ff).value
      && lines[6] == BoxText(l.box, 1, ff).value
      && lines[7] == BoxText(l.box, 2, ff).value
      && lines[8] == "ITEM: ATOMS " + Join(l.args, ' ')
  {
    HeaderWritten(l, nsnap, ff);
    var steps := StepsFrom(l, nsnap, 0, ff);
    var h := HeaderSteps(l, 0, ff);
    HeaderPrefix(l, nsnap, ff);
    HeaderLineSteps(l, ff);
    var lines := Run(steps).lines;
    assert lines[3] == steps[3].text && lines[4] == steps[4].text && lines[5] == steps[5].text;
    assert lines[6] == steps[6].text && lines[7] == steps[7].text && lines[8] == steps[8].text;
  }

  /** Writes 3 to 8 of a header whose box has three rows of two. */
  lemma HeaderLineSteps(l: Layout, ff: FloatFormat)
    requires BoxWritable(l.box)
    ensures var h := HeaderSteps(l, 0, ff);
      && h[3] == Line(Show(l.nbp))
      && h[4] == Line(l.boundary)
      && h[5] == Line(BoxText(l.box, 0, ff).value)
      && h[6] == Line(BoxText(l.box, 1, ff).value)
      && h[7] == Line(BoxText(l.box, 2, ff).value)
      && h[8] == Line("ITEM: ATOMS " + Join(l.args, ' '))
  {
  }

  /** The first nine writes are the first snapshot's header. */
  lemma HeaderPrefix(l: Layout, nsnap: nat, ff: FloatFormat)
    requires Fits(l, nsnap) && nsnap > 0
    ensures |StepsFrom(l, nsnap, 0, ff)| >= 9
    ensures forall i :: 0 <= i < 9 ==> StepsFrom(l, nsnap, 0, ff)[i] == HeaderSteps(l, 0, ff)[i]
  {
    var h := HeaderSteps(l, 0, ff);
    var rest := RowSteps(l, nsnap, 0, ff) + StepsFrom(l, nsnap, 1, ff);
    assert StepsFrom(l, nsnap, 0, ff) == h + rest;
  }

  /** `read_specs` on the file `write_custom` leaves behind.  In mode 'w',
      or appending to an empty file, it gives back the atom count, the
      first three boundary entries, the box bounds as reread and the
      column names, when those names and entries are whitespace-free.
      Appending to a file that already holds a header leaves that header
      what `read_specs` reads. */
  lemma ReadSpecsAfterWrite(outfn: string, d: CustomDict, extension: string, append: bool,
                            existing: seq<string>, ff: FloatFormat)
    requires ReprParses(ff)
    requires Opens(outfn, d, extension)
    requires d.timesteps.None? || |d.timesteps.value| > 0
    requires BoxWritable(d.specs.box)
    requires AllTokens(d.specs.args.value) && AllTokens(d.specs.boundary.value[..3])
    ensures var r := WriteCustom(outfn, d, extension, append, ff);
      && r.file.Some? && r.file.value.append == append
      && ((!append || existing == []) ==>
           ReadSpecs(FileAfter(existing, r.file.value), ff) == Ok(Specs(
             Some(WrittenAtoms(d)), Some(d.specs.boundary.value[..3]),
             Some(RereadPairs(d.specs.box.value, ff)), Some(d.specs.args.value))))
      && (append && |existing| > 8 ==> ReadSpecs(FileAfter(existing, r.file.value), ff) == ReadSpecs(existing, ff))
  {
    WrittenHeaderReads(outfn, d, extension, append, ff);
    var sp := Specs(Some(WrittenAtoms(d)), Some(d.specs.boundary.value[..3]),
                    Some(RereadPairs(d.specs.box.value, ff)), Some(d.specs.args.value));
    FileAfterReads(existing, WriteCustom(outfn, d, extension, append, ff).file.value, sp, ff);
  }

  /** What the header of a file reads as once one write has landed in it:
      the written header when the file was truncated or empty, the old one
      when lines were appended after a full header. */
  lemma FileAfterReads(existing: seq<string>, w: Written, sp: Specs, ff: FloatFormat)
    requires ReadSpecs(w.lines, ff) == Ok(sp)
    ensures !w.append || existing == [] ==> ReadSpecs(FileAfter(existing, w), ff) == Ok(sp)
    ensures w.append && |existing| > 8 ==> ReadSpecs(FileAfter(existing, w), ff) == ReadSpecs(existing, ff)
  {
    if w.append && existing == [] {
      assert FileAfter(existing, w) == w.lines;
    }
    if w.append && |existing| > 8 {
      AppendKeepsHeader(existing, w.lines, ff);
    }
  }

  /** The lines one call of `write_custom` writes start with a header
      that reads back. */
  lemma WrittenHeaderReads(outfn: string, d: CustomDict, extension: string, append: bool, ff: FloatFormat)
    requires ReprParses(ff)
    requires Opens(outfn, d, extension)
    requires d.timesteps.None? || |d.timesteps.value| > 0
    requires BoxWritable(d.specs.box)
    requires AllTokens(d.specs.args.value) && AllTokens(d.specs.boundary.value[..3])
    ensures var r := WriteCustom(outfn, d, extension, append, ff);
      && r.file.Some? && r.file.value.append == append
      && ReadSpecs(r.file.value.lines, ff) == Ok(Specs(
           Some(WrittenAtoms(d)), Some(d.specs.boundary.value[..3]),
           Some(RereadPairs(d.specs.box.value, ff)), Some(d.specs.args.value)))
  {
    var l := LayoutOf(d);
    WriteCustomRuns(outfn, d, extension, append, ff);
    BoundaryLineText(d);
    ReadSpecsOfRun(l, WrittenSnapshots(d), d.specs.boundary.value, ff);
  }

  /** Lines added after a header do not change it. */
  lemma AppendKeepsHeader(existing: seq<string>, more: seq<string>, ff: FloatFormat)
    requires |existing| > 8
    ensures ReadSpecs(existing + more, ff) == ReadSpecs(existing, ff)
  {
    assert forall k :: 3 <= k <= 8 ==> (existing + more)[k] == existing[k];
    KeysAgree(existing + more, existing, ff);
  }

  /** Component k of the vectors gathered from columns i, j, k of the
      data is the column at the matching index. */
  lemma ComponentOfTriples(data: Array3, idx: seq<nat>, k: nat)
    requires |idx| == 3 && k < 3
    requires TriplesAt(data, idx[0], idx[1], idx[2]).Ok?
    ensures ColumnAt(data, idx[k]).Ok?
    ensures ComponentColumn(TriplesAt(data, idx[0], idx[1], idx[2]).value, k) == ColumnAt(data, idx[k]).value
  {
    var t := TriplesAt(data, idx[0], idx[1], idx[2]).value;
    var a := ComponentColumn(t, k);
    var b := ColumnAt(data, idx[k]).value;
    assert |a| == |b|;
    forall s | 0 <= s < |a|
      ensures a[s] == b[s]
    {
      assert |a[s]| == |b[s]|;
      forall j | 0 <= j < |a[s]|
        ensures a[s][j] == b[s][j]
      {
      }
    }
  }

  /** The dictionary `read_custom` returns, before any split. */
  predicate Unsplit(d: CustomDict) {
    d.specs.args.Some? && d.data.Some? && d.columns == map[] && d.position.None? && d.velocity.None?
  }

  /** Distinct column names, none literally 'position' or 'velocity'. */
  predicate PlainNames(args: seq<string>) {
    Distinct(args) && "position" !in args && "velocity" !in args
  }

  /** A dictionary `read_custom` returned unsplit can be split, unless a
      column is literally named 'position' or 'velocity'. */
  lemma ReadCustomSplits(lines: seq<string>, sortById: bool, removeData: bool, ff: FloatFormat)
    requires ReadCustom(lines, sortById, false, ff).Ok?
    requires var d := ReadCustom(lines, sortById, false, ff).value;
      d.specs.args.Some? && "position" !in d.specs.args.value && "velocity" !in d.specs.args.value
    ensures SplitArgs(ReadCustom(lines, sortById, false, ff).value, removeData).Ok?
  {
    var d := ReadCustom(lines, sortById, false, ff).value;
    var data := d.data.value;
    forall k | 0 <= k < |d.specs.args.value|
      ensures Wide(data, k)
    {
    }
    SplitArgsOk(d, removeData);
  }

  /** Every atom row has an entry for every column name. */
  predicate FullRows(d: CustomDict)
    requires d.specs.args.Some? && d.data.Some?
  {
    |d.data.value| > 0 && forall k :: 0 <= k < |d.specs.args.value| ==> Wide(d.data.value, k)
  }

  /** The writer's choice of array for a column name, applied to the
      dictionary `customdata_splitargs` built from distinct names, gives
      that column of the data back: x, y, z (vx, vy, vz) through the
      components of 'position' ('velocity'), 'id' truncated to integers. */
  lemma SelectAfterSplit(d: CustomDict, removeData: bool, name: string)
    requires Unsplit(d) && PlainNames(d.specs.args.value)
    requires FullRows(d)
    requires name in d.specs.args.value
    ensures SplitArgs(d, removeData).Ok?
    ensures NamedColumn(d.specs.args.value, d.data.value, name).Ok?
    ensures SelectColumn(SplitArgs(d, removeData).value, name) == NamedColumn(d.specs.args.value, d.data.value, name)
  {
    var args := d.specs.args.value;
    SplitArgsOk(d, removeData);
    SplitNamesDistinct(args);
    if HasAll(args, PositionNames) && name in PositionNames {
      SelectPosition(d, removeData, name);
    } else if HasAll(args, VelocityNames) && name in VelocityNames {
      SelectVelocity(d, removeData, name);
    } else {
      SelectPlain(d, removeData, name);
    }
  }

  lemma SelectPlain(d: CustomDict, removeData: bool, name: string)
    requires Unsplit(d) && PlainNames(d.specs.args.value)
    requires SplitArgs(d, removeData).Ok?
    requires name in d.specs.args.value
    requires !(HasAll(d.specs.args.value, PositionNames) && name in PositionNames)
    requires !(HasAll(d.specs.args.value, VelocityNames) && name in VelocityNames)
    ensures NamedColumn(d.specs.args.value, d.data.value, name).Ok?
    ensures SelectColumn(SplitArgs(d, removeData).value, name) == NamedColumn(d.specs.args.value, d.data.value, name)
  {
    SplitNamesDistinct(d.specs.args.value);
    assert name in SplitNames(d.specs.args.value) && !IsField(name);
  }

  lemma SelectPosition(d: CustomDict, removeData: bool, name: string)
    requires Unsplit(d) && PlainNames(d.specs.args.value)
    requires SplitArgs(d, removeData).Ok?
    requires HasAll(d.specs.args.value, PositionNames) && name in PositionNames
    ensures NamedColumn(d.specs.args.value, d.data.value, name).Ok?
    ensures SelectColumn(SplitArgs(d, removeData).value, name) == NamedColumn(d.specs.args.value, d.data.value, name)
  {
    var args, data := d.specs.args.value, d.data.value;
    var e := SplitArgs(d, removeData).value;
    SplitNamesDistinct(args);
    var idx := [FirstIndex(args, "x"), FirstIndex(args, "y"), FirstIndex(args, "z")];
    assert NamedTriple(args, data, PositionNames) == TriplesAt(data, idx[0], idx[1], idx[2]);
    var k := FirstIndex(PositionNames, name);
    assert idx[k] == FirstIndex(args, name);
    ComponentOfTriples(data, idx, k);
    assert name !in e.columns;
    assert name != "id";
  }

  lemma SelectVelocity(d: CustomDict, removeData: bool, name: string)
    requires Unsplit(d) && PlainNames(d.specs.args.value)
    requires SplitArgs(d, removeData).Ok?
    requires HasAll(d.specs.args.value, VelocityNames) && name in VelocityNames
    ensures NamedColumn(d.specs.args.value, d.data.value, name).Ok?
    ensures SelectColumn(SplitArgs(d, removeData).value, name) == NamedColumn(d.specs.args.value, d.data.value, name)
  {
    var args, data := d.specs.args.value, d.data.value;
    var e := SplitArgs(d, removeData).value;
    SplitNamesDistinct(args);
    var idx := [FirstIndex(args, "vx"), FirstIndex(args, "vy"), FirstIndex(args, "vz")];
    assert NamedTriple(args, data, VelocityNames) == TriplesAt(data, idx[0], idx[1], idx[2]);
    var k := FirstIndex(VelocityNames, name);
    assert idx[k] == FirstIndex(args, name);
    ComponentOfTriples(data, idx, k);
    assert name !in e.columns;
    assert name != "id";
  }

  /** When x,y,z (vx,vy,vz) are folded into 'position' ('velocity'), the
      split adds no key of their own for them. */
  lemma SplitAddsNoParts(d: CustomDict, removeData: bool)
    requires Unsplit(d) && PlainNames(d.specs.args.value)
    requires SplitArgs(d, removeData).Ok?
    ensures var e := SplitArgs(d, removeData).value;
      HasAll(d.specs.args.value, PositionNames) ==> "x" !in e.columns && "y" !in e.columns && "z" !in e.columns
    ensures var e := SplitArgs(d, removeData).value;
      HasAll(d.specs.args.value, VelocityNames) ==> "vx" !in e.columns && "vy" !in e.columns && "vz" !in e.columns
  {
    SplitNamesDistinct(d.specs.args.value);
  }

  /** The writer's selection over all the column names of a split
      dictionary gives every column of the data back. */
  lemma SelectAllAfterSplit(d: CustomDict, removeData: bool)
    requires Unsplit(d) && PlainNames(d.specs.args.value)
    requires FullRows(d)
    ensures var args := d.specs.args.value;
      && SplitArgs(d, removeData).Ok?
      && SelectColumns(SplitArgs(d, removeData).value, args).Ok?
      && forall i :: 0 <= i < |args| ==>
           NamedColumn(args, d.data.value, args[i]).Ok? &&
           SelectColumns(SplitArgs(d, removeData).value, args).value[i] == NamedColumn(args, d.data.value, args[i]).value
  {
    var args := d.specs.args.value;
    SplitArgsOk(d, removeData);
    forall i | 0 <= i < |args|
      ensures NamedColumn(args, d.data.value, args[i]).Ok?
      ensures SelectColumn(SplitArgs(d, removeData).value, args[i]) == NamedColumn(args, d.data.value, args[i])
    {
      SelectAfterSplit(d, removeData, args[i]);
    }
  }
}

=== FILE: customsplit.dfy ===
/** `customdata_splitargs`: from the raw [snapshot][atom][column] array to
    one array per column name, with x,y,z folded into 'position' and
    vx,vy,vz into 'velocity'. */
module CustomSplit {
  import opened Wrappers
  import opened Errors
  import opened PyFloat
  import opened CustomData

  const PositionNames: seq<string> := ["x", "y", "z"]
  const VelocityNames: seq<string> := ["vx", "vy", "vz"]

  predicate HasAll(args: seq<string>, names: seq<string>)
    requires |names| == 3
  {
    names[0] in args && names[1] in args && names[2] in args
  }

  /** The position of the first occurrence of x in xs. */
  function FirstIndex(xs: seq<string>, x: string): (i: nat)
    requires x in xs
    ensures i < |xs| && xs[i] == x
    ensures forall j :: 0 <= j < i ==> xs[j] != x
  {
    if xs[0] == x then 0 else 1 + FirstIndex(xs[1..], x)
  }

  /** `xs.index(x)`: ValueError when x is absent. */
  function Index(xs: seq<string>, x: string): (r: Result<nat, Error>)
    ensures r.Ok? <==> x in xs
    ensures r.Ok? ==> r.value == FirstIndex(xs, x)
    ensures r.Err? ==> r.error == NotInList(x)
  {
    if x in xs then Ok(FirstIndex(xs, x)) else Err(NotInList(x))
  }

  /** `xs.remove(x)`: drops the first occurrence. */
  function RemoveFirst(xs: seq<string>, x: string): (r: seq<string>)
    requires x in xs
    ensures |r| == |xs| - 1
    ensures r == xs[..FirstIndex(xs, x)] + xs[FirstIndex(xs, x) + 1..]
    ensures forall y :: y in r ==> y in xs
    ensures forall y :: y in xs && y != x ==> y in r
  {
    var i := FirstIndex(xs, x);
    assert xs == xs[..i] + [x] + xs[i + 1..];
    xs[..i] + xs[i + 1..]
  }

  /** The names the split loop visits: the column names, with x,y,z
      replaced by 'position' (appended at the end) when all three are
      present, and likewise vx,vy,vz by 'velocity'. */
  function SplitNames(args: seq<string>): seq<string> {
    var withPosition := if HasAll(args, PositionNames) then FoldInto(args, "position", PositionNames) else args;
    if HasAll(args, VelocityNames) then
      assert HasAll(withPosition, VelocityNames);
      FoldInto(withPosition, "velocity", VelocityNames)
    else withPosition
  }

  /** `cpargs.append(field)` followed by removing each of the three names. */
  function FoldInto(names: seq<string>, field: string, parts: seq<string>): (r: seq<string>)
    requires |parts| == 3 && HasAll(names, parts)
    requires field != parts[0] && field != parts[1] && field != parts[2]
    requires parts[0] != parts[1] && parts[0] != parts[2] && parts[1] != parts[2]
    ensures field in r
    ensures forall y :: y in r ==> y in names || y == field
    ensures forall y :: y in names && y != parts[0] && y != parts[1] && y != parts[2] ==> y in r
  {
    var r0 := names + [field];
    assert field in r0;
    var r1 := RemoveFirst(r0, parts[0]);
    var r2 := RemoveFirst(r1, parts[1]);
    RemoveFirst(r2, parts[2])
  }

  /** Every atom row of every snapshot has an entry k. */
  predicate Wide(data: Array3, k: nat) {
    forall s, a :: 0 <= s < |data| && 0 <= a < |data[s]| ==> k < |data[s][a]|
  }

  /** `data[:, :, k]`.  An empty list of snapshots is a one-dimensional
      numpy array, so three indices are an IndexError. */
  function ColumnAt(data: Array3, k: nat): (r: Result<Column, Error>)
    ensures r.Ok? <==> |data| > 0 && Wide(data, k)
    ensures r.Ok? ==> |r.value| == |data|
    ensures r.Ok? ==> forall s :: 0 <= s < |data| ==>
      |r.value[s]| == |data[s]| && forall a :: 0 <= a < |data[s]| ==> r.value[s][a] == F(data[s][a][k])
  {
    if |data| > 0 && Wide(data, k) then
      Ok(seq(|data|, s requires 0 <= s < |data| =>
        seq(|data[s]|, a requires 0 <= a < |data[s]| => F(data[s][a][k]))))
    else Err(IndexOutOfRange)
  }

  /** `data[:, :, [i, j, k]]`. */
  function TriplesAt(data: Array3, i: nat, j: nat, k: nat): (r: Result<seq<seq<Vec3>>, Error>)
    ensures r.Ok? <==> |data| > 0 && Wide(data, i) && Wide(data, j) && Wide(data, k)
    ensures r.Ok? ==> |r.value| == |data|
    ensures r.Ok? ==> forall s :: 0 <= s < |data| ==>
      |r.value[s]| == |data[s]| &&
      forall a :: 0 <= a < |data[s]| ==> r.value[s][a] == Vec3(data[s][a][i], data[s][a][j], data[s][a][k])
  {
    if |data| > 0 && Wide(data, i) && Wide(data, j) && Wide(data, k) then
      Ok(seq(|data|, s requires 0 <= s < |data| =>
        seq(|data[s]|, a requires 0 <= a < |data[s]| => Vec3(data[s][a][i], data[s][a][j], data[s][a][k]))))
    else Err(IndexOutOfRange)
  }

  /** `.astype(np.int)` on a column: every value truncated toward zero. */
  function TruncColumn(col: Column): (r: Column)
    ensures |r| == |col|
    ensures forall s :: 0 <= s < |col| ==>
      |r[s]| == |col[s]| && forall a :: 0 <= a < |col[s]| ==> r[s][a] == I(Trunc(Value(col[s][a])))
  {
    seq(|col|, s requires 0 <= s < |col| =>
      seq(|col[s]|, a requires 0 <= a < |col[s]| => I(Trunc(Value(col[s][a])))))
  }

  /** The array stored under a plain column name: the column at the name's
      first position, cast to integers for 'id'. */
  function NamedColumn(args: seq<string>, data: Array3, name: string): (r: Result<Column, Error>)
    ensures r.Ok? <==> name in args && |data| > 0 && Wide(data, FirstIndex(args, name))
    ensures name !in args ==> r == Err(NotInList(name))
    ensures name in args && r.Err? ==> r == Err(IndexOutOfRange)
    ensures r.Ok? ==> |r.value| == |data|
  {
    var i :- Index(args, name);
    var col :- ColumnAt(data, i);
    Ok(if name == "id" then TruncColumn(col) else col)
  }

  /** The array stored under 'position' (names x,y,z) or 'velocity'
      (names vx,vy,vz). */
  function NamedTriple(args: seq<string>, data: Array3, names: seq<string>): (r: Result<seq<seq<Vec3>>, Error>)
    requires |names| == 3
    ensures r.Ok? <==> TripleVisitable(args, data, names)
    ensures !HasAll(args, names) ==> r.Err? && r.error.NotInList?
    ensures HasAll(args, names) && r.Err? ==> r == Err(IndexOutOfRange)
    ensures r.Ok? ==> |r.value| == |data|
  {
    var i :- Index(args, names[0]);
    var j :- Index(args, names[1]);
    var k :- Index(args, names[2]);
    TriplesAt(data, i, j, k)
  }

  predicate IsField(name: string) {
    name == "position" || name == "velocity"
  }

  /** The three names are present and every atom row has an entry at
      the first position of each. */
  predicate TripleVisitable(args: seq<string>, data: Array3, names: seq<string>)
    requires |names| == 3
  {
    HasAll(args, names) && |data| > 0 &&
    Wide(data, FirstIndex(args, names[0])) && Wide(data, FirstIndex(args, names[1])) && Wide(data, FirstIndex(args, names[2]))
  }

  /** The split loop's pass for `name` raises nothing: every name it
      looks up is in the list and every atom row is wide enough. */
  predicate Visitable(args: seq<string>, data: Array3, name: string) {
    if name == "position" then TripleVisitable(args, data, PositionNames)
    else if name == "velocity" then TripleVisitable(args, data, VelocityNames)
    else name in args && |data| > 0 && Wide(data, FirstIndex(args, name))
  }

  /** One pass of the split loop. */
  function SplitOne(args: seq<string>, data: Array3, name: string, d: CustomDict): (r: Result<CustomDict, Error>)
    ensures r.Ok? <==> Visitable(args, data, name)
  {
    if name == "position" then
      var p :- NamedTriple(args, data, PositionNames);
      Ok(d.(position := Some(p)))
    else if name == "velocity" then
      var v :- NamedTriple(args, data, VelocityNames);
      Ok(d.(velocity := Some(v)))
    else
      var col :- NamedColumn(args, data, name);
      Ok(d.(columns := d.columns[name := col]))
  }

  /** The split loop over `names`, stopping at the first exception. */
  function SplitLoop(args: seq<string>, data: Array3, names: seq<string>, d: CustomDict): (r: Result<CustomDict, Error>)
    ensures r.Ok? <==> forall n :: n in names ==> Visitable(args, data, n)
    ensures r.Ok? ==> r.value.specs == d.specs && r.value.data == d.data && r.value.timesteps == d.timesteps
    ensures r.Ok? ==> r.value.columns.Keys == d.columns.Keys + (set n | n in names && !IsField(n))
    ensures r.Ok? ==> forall n :: n in names && !IsField(n) ==>
      NamedColumn(args, data, n).Ok? && r.value.columns[n] == NamedColumn(args, data, n).value
    ensures r.Ok? ==> forall n :: n in d.columns && n !in names ==> r.value.columns[n] == d.columns[n]
    ensures r.Ok? ==> if "position" in names
      then NamedTriple(args, data, PositionNames).Ok? && r.value.position == Some(NamedTriple(args, data, PositionNames).value)
      else r.value.position == d.position
    ensures r.Ok? ==> if "velocity" in names
      then NamedTriple(args, data, VelocityNames).Ok? && r.value.velocity == Some(NamedTriple(args, data, VelocityNames).value)
      else r.value.velocity == d.velocity
    decreases |names|
  {
    if |names| == 0 then Ok(d)
    else
      var d' :- SplitOne(args, data, names[0], d);
      assert forall n :: n in names <==> n == names[0] || n in names[1..];
      SplitLoop(args, data, names[1..], d')
  }

  /** `customdata_splitargs(specs, remove_data)`. */
  function SplitArgs(d: CustomDict, removeData: bool): (r: Result<CustomDict, Error>)
    ensures d.specs.args.None? ==> r == Err(MissingKey("args"))
    ensures d.specs.args.Some? && d.data.None? ==> r == Err(MissingKey("data"))
    ensures r.Ok? <==> (d.specs.args.Some? && d.data.Some? &&
      forall n :: n in SplitNames(d.specs.args.value) ==> Visitable(d.specs.args.value, d.data.value, n))
    ensures r.Ok? ==> r.value.specs == d.specs && r.value.timesteps == d.timesteps
    ensures r.Ok? ==> r.value.data == if removeData then None else d.data
    ensures r.Ok? ==> (r.value.columns.Keys ==
      d.columns.Keys + (set n | n in SplitNames(d.specs.args.value) && !IsField(n)))
    ensures r.Ok? ==> forall n :: n in SplitNames(d.specs.args.value) && !IsField(n) ==>
      NamedColumn(d.specs.args.value, d.data.value, n).Ok? &&
      r.value.columns[n] == NamedColumn(d.specs.args.value, d.data.value, n).value
    ensures r.Ok? && HasAll(d.specs.args.value, PositionNames) ==>
      NamedTriple(d.specs.args.value, d.data.value, PositionNames).Ok? &&
      r.value.position == Some(NamedTriple(d.specs.args.value, d.data.value, PositionNames).value)
    ensures r.Ok? && HasAll(d.specs.args.value, VelocityNames) ==>
      NamedTriple(d.specs.args.value, d.data.value, VelocityNames).Ok? &&
      r.value.velocity == Some(NamedTriple(d.specs.args.value, d.data.value, VelocityNames).value)
    ensures r.Ok? && !HasAll(d.specs.args.value, PositionNames) ==> r.value.position == d.position
    ensures r.Ok? && !HasAll(d.specs.args.value, VelocityNames) ==> r.value.velocity == d.velocity
    ensures r.Ok? ==> forall n :: n in d.columns && n !in SplitNames(d.specs.args.value) ==>
      r.value.columns[n] == d.columns[n]
  {
    if d.specs.args.None? then Err(MissingKey("args"))
    else if d.data.None? then Err(MissingKey("data"))
    else
      var args := d.specs.args.value;
      var names := SplitNames(args);
      SplitNamesFields(args);
      SplitNamesFrom(args);
      var p :- SplitLoop(args, d.data.value, names, d);
      Ok(if removeData then p.(data := None) else p)
  }

  /** 'position' is visited when x,y,z are all present, and 'velocity'
      when vx,vy,vz are. */
  lemma SplitNamesFields(args: seq<string>)
    ensures HasAll(args, PositionNames) ==> "position" in SplitNames(args)
    ensures HasAll(args, VelocityNames) ==> "velocity" in SplitNames(args)
  {
  }

  /** The loop visits only column names and the two fields, each field
      only when its three names are present. */
  lemma SplitNamesFrom(args: seq<string>)
    ensures forall n :: n in SplitNames(args) ==>
      n in args || (n == "position" && HasAll(args, PositionNames)) || (n == "velocity" && HasAll(args, VelocityNames))
  {
  }

  /** `customdata_splitargs` raises nothing when the data holds at least
      one snapshot, every atom row has an entry for every column name,
      and no column is literally named 'position' or 'velocity'. */
  lemma SplitArgsOk(d: CustomDict, removeData: bool)
    requires d.specs.args.Some? && d.data.Some?
    requires "position" !in d.specs.args.value && "velocity" !in d.specs.args.value
    requires |d.data.value| > 0 && forall k :: 0 <= k < |d.specs.args.value| ==> Wide(d.data.value, k)
    ensures SplitArgs(d, removeData).Ok?
  {
    var args, data := d.specs.args.value, d.data.value;
    SplitNamesFrom(args);
    forall n | n in SplitNames(args)
      ensures Visitable(args, data, n)
    {
      if n != "position" && n != "velocity" {
        assert FirstIndex(args, n) < |args|;
      }
    }
  }

  /** No name occurs twice. */
  predicate Distinct(xs: seq<string>) {
    forall x :: x in xs ==> multiset(xs)[x] == 1
  }

  lemma RemoveFirstCount(xs: seq<string>, x: string)
    requires x in xs
    ensures multiset(RemoveFirst(xs, x)) == multiset(xs) - multiset{x}
  {
    var i := FirstIndex(xs, x);
    assert xs == xs[..i] + [x] + xs[i + 1..];
    assert multiset(xs) == multiset(xs[..i]) + multiset{x} + multiset(xs[i + 1..]);
  }

  /** Folding adds the field and removes one of each part. */
  lemma FoldIntoCount(names: seq<string>, field: string, parts: seq<string>)
    requires |parts| == 3 && HasAll(names, parts)
    requires field != parts[0] && field != parts[1] && field != parts[2]
    requires parts[0] != parts[1] && parts[0] != parts[2] && parts[1] != parts[2]
    ensures multiset(FoldInto(names, field, parts)) ==
      multiset(names) + multiset{field} - multiset{parts[0]} - multiset{parts[1]} - multiset{parts[2]}
  {
    var r0 := names + [field];
    var r1 := RemoveFirst(r0, parts[0]);
    var r2 := RemoveFirst(r1, parts[1]);
    RemoveFirstCount(r0, parts[0]);
    RemoveFirstCount(r1, parts[1]);
    RemoveFirstCount(r2, parts[2]);
  }

  /** Folding distinct names into a new field keeps them distinct,
      removes the parts, and keeps everything else. */
  lemma FoldIntoDistinct(names: seq<string>, field: string, parts: seq<string>)
    requires |parts| == 3 && HasAll(names, parts)
    requires field != parts[0] && field != parts[1] && field != parts[2]
    requires parts[0] != parts[1] && parts[0] != parts[2] && parts[1] != parts[2]
    requires Distinct(names) && field !in names
    ensures var r := FoldInto(names, field, parts);
      && Distinct(r)
      && parts[0] !in r && parts[1] !in r && parts[2] !in r
      && forall n :: n in r <==> n == field || (n in names && n != parts[0] && n != parts[1] && n != parts[2])
  {
    var r := FoldInto(names, field, parts);
    FoldIntoCount(names, field, parts);
    forall n
      ensures multiset(r)[n] == if n == field then 1
        else if n == parts[0] || n == parts[1] || n == parts[2] then 0
        else multiset(names)[n]
    {
    }
  }

  /** The names after the position fold, or unchanged without x,y,z. */
  function PositionFolded(args: seq<string>): seq<string> {
    if HasAll(args, PositionNames) then FoldInto(args, "position", PositionNames) else args
  }

  lemma PositionFoldedDistinct(args: seq<string>)
    requires Distinct(args) && "position" !in args && "velocity" !in args
    ensures var w := PositionFolded(args);
      && Distinct(w) && "velocity" !in w
      && ("position" in w <==> HasAll(args, PositionNames))
      && (HasAll(args, PositionNames) ==> "x" !in w && "y" !in w && "z" !in w)
      && HasAll(args, VelocityNames) == HasAll(w, VelocityNames)
      && forall n :: n in args && !(HasAll(args, PositionNames) && n in PositionNames) ==> n in w
  {
    if HasAll(args, PositionNames) {
      var w := FoldInto(args, "position", PositionNames);
      FoldIntoDistinct(args, "position", PositionNames);
      assert PositionNames[0] == "x" && PositionNames[1] == "y" && PositionNames[2] == "z";
      assert forall n :: n in w <==> n == "position" || (n in args && n != "x" && n != "y" && n != "z");
      assert forall n :: n in PositionNames <==> n == "x" || n == "y" || n == "z";
    }
  }

  /** With distinct column names and no column literally named 'position'
      or 'velocity', the split loop visits 'position' exactly when x,y,z
      are all present, and then visits none of x,y,z (and likewise for
      'velocity'); every other column name is visited. */
  lemma SplitNamesDistinct(args: seq<string>)
    requires Distinct(args) && "position" !in args && "velocity" !in args
    ensures "position" in SplitNames(args) <==> HasAll(args, PositionNames)
    ensures "velocity" in SplitNames(args) <==> HasAll(args, VelocityNames)
    ensures HasAll(args, PositionNames) ==> "x" !in SplitNames(args) && "y" !in SplitNames(args) && "z" !in SplitNames(args)
    ensures HasAll(args, VelocityNames) ==> "vx" !in SplitNames(args) && "vy" !in SplitNames(args) && "vz" !in SplitNames(args)
    ensures forall n :: (n in args && !(HasAll(args, PositionNames) && n in PositionNames)
      && !(HasAll(args, VelocityNames) && n in VelocityNames)) ==> n in SplitNames(args)
  {
    var w := PositionFolded(args);
    PositionFoldedDistinct(args);
    VelocityFoldedDistinct(w);
    assert SplitNames(args) == VelocityFolded(w);
  }

  /** The names after the velocity fold, or unchanged without vx,vy,vz. */
  function VelocityFolded(w: seq<string>): seq<string> {
    if HasAll(w, VelocityNames) then FoldInto(w, "velocity", VelocityNames) else w
  }

  lemma VelocityFoldedDistinct(w: seq<string>)
    requires Distinct(w) && "velocity" !in w
    ensures var v := VelocityFolded(w);
      && ("velocity" in v <==> HasAll(w, VelocityNames))
      && (HasAll(w, VelocityNames) ==> "vx" !in v && "vy" !in v && "vz" !in v)
      && (forall n :: n in v && n != "velocity" ==> n in w)
      && forall n :: n in w && !(HasAll(w, VelocityNames) && n in VelocityNames) ==> n in v
  {
    if HasAll(w, VelocityNames) {
      var v := FoldInto(w, "velocity", VelocityNames);
      FoldIntoDistinct(w, "velocity", VelocityNames);
      assert VelocityNames[0] == "vx" && VelocityNames[1] == "vy" && VelocityNames[2] == "vz";
      assert forall n :: n in VelocityNames <==> n == "vx" || n == "vy" || n == "vz";
    }
  }

}

=== FILE: customwrite.dfy ===
/** `write_custom`: the output name, the choice of one array per column
    name, the shape checks, and the nine header lines plus one line per
    atom that each snapshot renders to. */
module CustomWrite {
  import opened Wrappers
  import opened Errors
  import opened PyStr
  import opened PyInt
  import opened PyFloat
  import opened CustomData
  import opened Output
  import CustomSplit

  /** The extension as the writer normalises it: lower-cased, with a
      leading dot. */
  function DotExt(extension: string): (r: string)
    requires extension != ""
    ensures |r| > 0 && r[0] == '.'
    ensures Lower(r) == r
    ensures r == Lower(extension) || r == "." + Lower(extension)
    ensures r == Lower(extension) <==> Lower(extension)[0] == '.'
  {
    var e := Lower(extension);
    LowerTwice(extension);
    if e[0] == '.' then e
    else
      LowerConcat(".", e);
      "." + e
  }

  /** The name `write_custom` opens: the extension is added unless it
      already occurs anywhere in the lower-cased name.  An empty extension
      is an IndexError on `extension[0]`. */
  function CustomOutputPath(outfn: string, extension: string): (r: Result<string, Error>)
    ensures r.Err? <==> extension == ""
    ensures r.Err? ==> r.error == IndexOutOfRange
    ensures r.Ok? ==> Contains(Lower(r.value), DotExt(extension))
    ensures r.Ok? ==> r.value == outfn || r.value == outfn + DotExt(extension)
    ensures r.Ok? && Contains(Lower(outfn), DotExt(extension)) ==> r.value == outfn
  {
    if extension == "" then Err(IndexOutOfRange)
    else
      var ext := DotExt(extension);
      if Contains(Lower(outfn), ext) then Ok(outfn)
      else
        LowerConcat(outfn, ext);
        ContainsSuffix(Lower(outfn), ext);
        Ok(outfn + ext)
  }

  /** Applying the naming rule to its own output changes nothing. */
  lemma CustomOutputPathIdempotent(outfn: string, extension: string)
    requires extension != ""
    ensures CustomOutputPath(CustomOutputPath(outfn, extension).value, extension) == CustomOutputPath(outfn, extension)
  {
  }

  /** Component k of every vector of a 'position' or 'velocity' array, as
      `np.array(psnap)[:, k]` takes it per snapshot. */
  function ComponentColumn(field: seq<seq<Vec3>>, k: nat): (r: Column)
    requires k < 3
    ensures |r| == |field|
    ensures forall s :: 0 <= s < |field| ==>
      |r[s]| == |field[s]| && forall a :: 0 <= a < |field[s]| ==> r[s][a] == F(Component(field[s][a], k))
  {
    seq(|field|, s requires 0 <= s < |field| =>
      seq(|field[s]|, a requires 0 <= a < |field[s]| => F(Component(field[s][a], k))))
  }

  /** The array written for one column name: its own key when present;
      for x, y, z (vx, vy, vz) a component of 'position' ('velocity');
      otherwise a KeyError. */
  function SelectColumn(d: CustomDict, name: string): (r: Result<Column, Error>)
    ensures r.Ok? <==>
      || name in d.columns
      || (name in CustomSplit.PositionNames && d.position.Some?)
      || (name in CustomSplit.VelocityNames && d.velocity.Some?)
    ensures r.Err? ==> r.error == MissingKey(name)
    ensures name in d.columns ==> r == Ok(d.columns[name])
    ensures name !in d.columns && name in CustomSplit.PositionNames && d.position.Some? ==>
      r == Ok(ComponentColumn(d.position.value, CustomSplit.FirstIndex(CustomSplit.PositionNames, name)))
    ensures name !in d.columns && name in CustomSplit.VelocityNames && d.velocity.Some? ==>
      r == Ok(ComponentColumn(d.velocity.value, CustomSplit.FirstIndex(CustomSplit.VelocityNames, name)))
  {
    if name !in d.columns && name in CustomSplit.PositionNames then
      if d.position.None? then Err(MissingKey(name))
      else Ok(ComponentColumn(d.position.value, CustomSplit.FirstIndex(CustomSplit.PositionNames, name)))
    else if name !in d.columns && name in CustomSplit.VelocityNames then
      if d.velocity.None? then Err(MissingKey(name))
      else Ok(ComponentColumn(d.velocity.value, CustomSplit.FirstIndex(CustomSplit.VelocityNames, name)))
    else if name !in d.columns then Err(MissingKey(name))
    else Ok(d.columns[name])
  }

  /** The selection loop over 'args': the first missing name raises. */
  function SelectColumns(d: CustomDict, names: seq<string>): (r: Result<seq<Column>, Error>)
    ensures r.Ok? <==> forall i :: 0 <= i < |names| ==> SelectColumn(d, names[i]).Ok?
    ensures r.Ok? ==> (|r.value| == |names| &&
      forall i :: 0 <= i < |names| ==> r.value[i] == SelectColumn(d, names[i]).value)
    ensures r.Err? ==> exists i :: (0 <= i < |names| && SelectColumn(d, names[i]) == Err(r.error) &&
      forall j :: 0 <= j < i ==> SelectColumn(d, names[j]).Ok?)
  {
    var rs := seq(|names|, i requires 0 <= i < |names| => SelectColumn(d, names[i]));
    assert forall i :: 0 <= i < |names| ==> rs[i] == SelectColumn(d, names[i]);
    Collect(rs)
  }

  /** The 'ITEM: BOX BOUNDS' line from the first three boundary entries.
      Without a 'boundary' key the source evaluates an undefined name. */
  function BoundaryLine(d: CustomDict): (r: Result<string, Error>)
    ensures r.Ok? <==> d.specs.boundary.Some? && |d.specs.boundary.value| >= 3
    ensures d.specs.boundary.None? ==> r == Err(UndefinedName)
    ensures r.Ok? ==> r.value == Join(["ITEM:", "BOX", "BOUNDS"] + d.specs.boundary.value[..3], ' ')
  {
    match d.specs.boundary
    case None => Err(UndefinedName)
    case Some(b) =>
      if |b| < 3 then Err(IndexOutOfRange)
      else
        BoundsJoin(b[0], b[1], b[2]);
        assert ["ITEM:", "BOX", "BOUNDS"] + b[..3] == ["ITEM:", "BOX", "BOUNDS", b[0], b[1], b[2]];
        Ok("ITEM: BOX BOUNDS " + b[0] + " " + b[1] + " " + b[2])
  }

  lemma BoundsJoin(x: string, y: string, z: string)
    ensures Join(["ITEM:", "BOX", "BOUNDS", x, y, z], ' ') == "ITEM: BOX BOUNDS " + x + " " + y + " " + z
  {
    JoinCons(y, [z], ' ');
    JoinCons(x, [y, z], ' ');
    JoinCons("BOUNDS", [x, y, z], ' ');
    JoinCons("BOX", ["BOUNDS", x, y, z], ' ');
    JoinCons("ITEM:", ["BOX", "BOUNDS", x, y, z], ' ');
  }

  /** Every column has as many snapshots as the first, and every snapshot
      of every column as many atoms as the first snapshot of the first. */
  predicate Rectangular(cols: seq<Column>) {
    && |cols| > 0 && |cols[0]| > 0
    && forall i :: 0 <= i < |cols| ==> (|cols[i]| == |cols[0]| &&
         forall s :: 0 <= s < |cols[i]| ==> |cols[i][s]| == |cols[0][0]|)
  }

  /** The check of one column: its snapshot count first, then each
      snapshot's atom count. */
  function CheckColumn(col: Column, nsnap: nat, nbp: nat): (r: Option<Error>)
    ensures r.None? <==> |col| == nsnap && forall s :: 0 <= s < |col| ==> |col[s]| == nbp
    ensures r.Some? ==> r.value == (if |col| != nsnap then InconsistentSnapshots else InconsistentAtoms)
  {
    if |col| != nsnap then Some(InconsistentSnapshots)
    else if forall s :: 0 <= s < |col| ==> |col[s]| == nbp then None
    else Some(InconsistentAtoms)
  }

  function CheckColumns(cols: seq<Column>, nsnap: nat, nbp: nat): (r: Option<Error>)
    ensures r.None? <==> forall i :: 0 <= i < |cols| ==> CheckColumn(cols[i], nsnap, nbp).None?
    ensures r.Some? ==> exists i :: (0 <= i < |cols| && CheckColumn(cols[i], nsnap, nbp) == r &&
      forall j :: 0 <= j < i ==> CheckColumn(cols[j], nsnap, nbp).None?)
  {
    if |cols| == 0 then None
    else match CheckColumn(cols[0], nsnap, nbp)
      case Some(e) => Some(e)
      case None =>
        var r := CheckColumns(cols[1..], nsnap, nbp);
        if r.Some? then
          var i :| 0 <= i < |cols[1..]| && CheckColumn(cols[1..][i], nsnap, nbp) == r &&
            forall j :: 0 <= j < i ==> CheckColumn(cols[1..][j], nsnap, nbp).None?;
          assert CheckColumn(cols[i + 1], nsnap, nbp) == r;
          r
        else r
  }

  /** `nbp` and `nsnap` from the first column, then the consistency loop.
      No columns, or a first column without snapshots, is an IndexError. */
  function CheckShapes(cols: seq<Column>): (r: Result<(nat, nat), Error>)
    ensures r.Ok? <==> Rectangular(cols)
    ensures r.Ok? ==> r.value == (|cols[0]|, |cols[0][0]|)
    ensures (|cols| == 0 || |cols[0]| == 0) ==> r == Err(IndexOutOfRange)
  {
    if |cols| == 0 || |cols[0]| == 0 then Err(IndexOutOfRange)
    else
      var nsnap, nbp := |cols[0]|, |cols[0][0]|;
      match CheckColumns(cols, nsnap, nbp)
      case Some(e) => Err(e)
      case None => Ok((nsnap, nbp))
  }

  /** A field of a formatted line, or the exception raised computing it. */
  function AsStep(r: Result<string, Error>): Step {
    match r
    case Ok(t) => Line(t)
    case Err(e) => Fail(e)
  }

  /** The timestep line: `timesteps[snap]` when the key is present, else 0. */
  function TimestepText(timesteps: Option<seq<int>>, s: nat): (r: Result<string, Error>)
    ensures r.Err? <==> timesteps.Some? && s >= |timesteps.value|
    ensures r.Err? ==> r.error == IndexOutOfRange
  {
    match timesteps
    case None => Ok(Show(0))
    case Some(ts) => if s < |ts| then Ok(Show(ts[s])) else Err(IndexOutOfRange)
  }

  /** `int()` of the timestep line gives the timestep back. */
  lemma TimestepTextParses(timesteps: Option<seq<int>>, s: nat)
    requires TimestepText(timesteps, s).Ok?
    ensures ParseInt(TimestepText(timesteps, s).value) == Some(if timesteps.Some? then timesteps.value[s] else 0)
  {
    ParseShow(if timesteps.Some? then timesteps.value[s] else 0);
  }

  /** Rows of one length: a box numpy holds as a two-dimensional array.
      Rows of different lengths make a one-dimensional object array,
      which a two-index subscript `box[i, j]` cannot address. */
  predicate Uniform(b: seq<seq<real>>) {
    forall i :: 0 <= i < |b| ==> |b[i]| == |b[0]|
  }

  /** Line i of the box: `box[i,0]` and `box[i,1]`. */
  function BoxText(box: Option<seq<seq<real>>>, i: nat, ff: FloatFormat): (r: Result<string, Error>)
    ensures r.Ok? <==> box.Some? && Uniform(box.value) && i < |box.value| && |box.value[i]| >= 2
    ensures box.None? ==> r == Err(MissingKey("simulation_box"))
    ensures box.Some? && r.Err? ==> r == Err(IndexOutOfRange)
    ensures r.Ok? ==> r.value == Join([ff.repr(box.value[i][0]), ff.repr(box.value[i][1])], ' ')
  {
    match box
    case None => Err(MissingKey("simulation_box"))
    case Some(b) =>
      if Uniform(b) && i < |b| && |b[i]| >= 2 then Ok(ff.repr(b[i][0]) + " " + ff.repr(b[i][1]))
      else Err(IndexOutOfRange)
  }

  /** One cell as an f-string field prints it. */
  function CellText(v: Num, ff: FloatFormat): string {
    match v
    case F(x) => ff.repr(x)
    case I(n) => Show(n)
  }

  /** Each cell followed by one space. */
  function Spaced(cells: seq<string>): string {
    if |cells| == 0 then "" else cells[0] + " " + Spaced(cells[1..])
  }

  /** One atom's line: the spaced cells with the final space cut off. */
  function RowText(cells: seq<string>): (r: string)
    ensures r == Join(cells, ' ')
  {
    var line := Spaced(cells);
    SpacedJoin(cells);
    if line == "" then "" else line[..|line| - 1]
  }

  /** The spaced cells are the joined cells plus a trailing space. */
  lemma {:induction false} SpacedJoin(cells: seq<string>)
    ensures |cells| > 0 ==> Spaced(cells) == Join(cells, ' ') + " "
    ensures |cells| == 0 ==> Spaced(cells) == ""
  {
    if |cells| > 1 {
      SpacedJoin(cells[1..]);
      assert Spaced(cells) == cells[0] + " " + (Join(cells[1..], ' ') + " ");
    } else if |cells| == 1 {
      assert cells[1..] == [];
    }
  }

  /** The cells of atom a in snapshot s, one per column. */
  function Cells(cols: seq<Column>, s: nat, a: nat, ff: FloatFormat): (r: seq<string>)
    requires forall k :: 0 <= k < |cols| ==> s < |cols[k]| && a < |cols[k][s]|
    ensures |r| == |cols|
    ensures forall k :: 0 <= k < |cols| ==> r[k] == CellText(cols[k][s][a], ff)
  {
    seq(|cols|, k requires 0 <= k < |cols| => CellText(cols[k][s][a], ff))
  }

  /** What stays the same across the snapshots of one call. */
  datatype Layout = Layout(
    cols: seq<Column>,
    nbp: nat,
    boundary: string,
    args: seq<string>,
    timesteps: Option<seq<int>>,
    box: Option<seq<seq<real>>>)

  predicate Fits(l: Layout, nsnap: nat) {
    forall k :: 0 <= k < |l.cols| ==> (|l.cols[k]| == nsnap &&
      forall s :: 0 <= s < nsnap ==> |l.cols[k][s]| == l.nbp)
  }

  /** The nine header writes of snapshot s. */
  function HeaderSteps(l: Layout, s: nat, ff: FloatFormat): (r: seq<Step>)
    ensures |r| == 9
  {
    [ Line("ITEM: TIMESTEP"),
      AsStep(TimestepText(l.timesteps, s)),
      Line("ITEM: NUMBER OF ATOMS"),
      Line(Show(l.nbp)),
      Line(l.boundary),
      AsStep(BoxText(l.box, 0, ff)),
      AsStep(BoxText(l.box, 1, ff)),
      AsStep(BoxText(l.box, 2, ff)),
      Line("ITEM: ATOMS " + Join(l.args, ' ')) ]
  }

  /** The atom lines of snapshot s. */
  function RowSteps(l: Layout, nsnap: nat, s: nat, ff: FloatFormat): (r: seq<Step>)
    requires Fits(l, nsnap) && s < nsnap
    ensures |r| == l.nbp && AllLines(r)
    ensures forall a :: 0 <= a < l.nbp ==> r[a] == Line(Join(Cells(l.cols, s, a, ff), ' '))
  {
    seq(l.nbp, a requires 0 <= a < l.nbp => Line(RowText(Cells(l.cols, s, a, ff))))
  }

  /** The writes of snapshots from..nsnap-1, in order. */
  function StepsFrom(l: Layout, nsnap: nat, from: nat, ff: FloatFormat): (r: seq<Step>)
    requires Fits(l, nsnap)
    decreases nsnap - from
  {
    if from >= nsnap then []
    else HeaderSteps(l, from, ff) + (RowSteps(l, nsnap, from, ff) + StepsFrom(l, nsnap, from + 1, ff))
  }

  /** `write_custom(outfn, data, extension, append)`.  Everything up to
      the shape checks happens before the file is opened; an exception
      while writing the snapshots leaves the lines already written. */
  function WriteCustom(outfn: string, d: CustomDict, extension: string, append: bool, ff: FloatFormat): (r: WriteResult)
    ensures r.file.Some? <==>
      && extension != ""
      && d.specs.args.Some?
      && SelectColumns(d, d.specs.args.value).Ok?
      && BoundaryLine(d).Ok?
      && Rectangular(SelectColumns(d, d.specs.args.value).value)
    ensures r.file.None? ==> r.error.Some?
    ensures r.file.Some? ==> r.file.value.path == CustomOutputPath(outfn, extension).value && r.file.value.append == append
  {
    match CustomOutputPath(outfn, extension)
    case Err(e) => WriteResult(None, Some(e))
    case Ok(path) =>
      match d.specs.args
      case None => WriteResult(None, Some(MissingKey("args")))
      case Some(args) =>
        match SelectColumns(d, args)
        case Err(e) => WriteResult(None, Some(e))
        case Ok(cols) =>
          match BoundaryLine(d)
          case Err(e) => WriteResult(None, Some(e))
          case Ok(boundary) =>
            match CheckShapes(cols)
            case Err(e) => WriteResult(None, Some(e))
            case Ok(shape) =>
              var l := Layout(cols, shape.1, boundary, args, d.timesteps, d.specs.box);
              var out := Run(StepsFrom(l, shape.0, 0, ff));
              WriteResult(Some(Written(path, append, out.lines)), out.error)
  }

  /** The state `write_custom` reaches before opening its file. */
  predicate Opens(outfn: string, d: CustomDict, extension: string) {
    && extension != ""
    && d.specs.args.Some?
    && SelectColumns(d, d.specs.args.value).Ok?
    && BoundaryLine(d).Ok?
    && Rectangular(SelectColumns(d, d.specs.args.value).value)
  }

  /** The atom count the writer prints: that of the first snapshot of
      the first selected column. */
  function WrittenAtoms(d: CustomDict): nat
    requires d.specs.args.Some? && SelectColumns(d, d.specs.args.value).Ok?
    requires Rectangular(SelectColumns(d, d.specs.args.value).value)
  {
    |SelectColumns(d, d.specs.args.value).value[0][0]|
  }

  /** The number of snapshots the writer prints. */
  function WrittenSnapshots(d: CustomDict): nat
    requires d.specs.args.Some? && SelectColumns(d, d.specs.args.value).Ok?
    requires Rectangular(SelectColumns(d, d.specs.args.value).value)
  {
    |SelectColumns(d, d.specs.args.value).value[0]|
  }

  /** The layout `write_custom` renders with, once it opens its file. */
  function LayoutOf(d: CustomDict): (l: Layout)
    requires d.specs.args.Some? && SelectColumns(d, d.specs.args.value).Ok? && BoundaryLine(d).Ok?
    requires Rectangular(SelectColumns(d, d.specs.args.value).value)
    ensures Fits(l, WrittenSnapshots(d))
  {
    Layout(SelectColumns(d, d.specs.args.value).value, WrittenAtoms(d), BoundaryLine(d).value,
      d.specs.args.value, d.timesteps, d.specs.box)
  }

  /** Once the file is open, what it receives is the run of the snapshot
      writes. */
  lemma WriteCustomRuns(outfn: string, d: CustomDict, extension: string, append: bool, ff: FloatFormat)
    requires Opens(outfn, d, extension)
    ensures var r := WriteCustom(outfn, d, extension, append, ff);
      var out := Run(StepsFrom(LayoutOf(d), WrittenSnapshots(d), 0, ff));
      r.file.Some? && r.file.value.lines == out.lines && r.error == out.error
  {
    var cols := SelectColumns(d, d.specs.args.value).value;
    assert CheckShapes(cols) == Ok((|cols[0]|, |cols[0][0]|));
  }

  lemma BoundaryLineText(d: CustomDict)
    requires BoundaryLine(d).Ok?
    ensures BoundaryLine(d).value == Join(["ITEM:", "BOX", "BOUNDS"] + d.specs.boundary.value[..3], ' ')
  {
  }

  /** A header write fails at snapshot `from` only through a timestep
      list shorter than the snapshots or a box without three rows of two. */
  lemma {:induction false} StepsFromAllLines(l: Layout, nsnap: nat, from: nat, ff: FloatFormat)
    requires Fits(l, nsnap)
    ensures AllLines(StepsFrom(l, nsnap, from, ff)) <==>
      from >= nsnap || ((l.timesteps.None? || |l.timesteps.value| >= nsnap) && BoxWritable(l.box))
    decreases nsnap - from
  {
    if from < nsnap {
      var h := HeaderSteps(l, from, ff);
      var rows := RowSteps(l, nsnap, from, ff);
      var rest := StepsFrom(l, nsnap, from + 1, ff);
      assert StepsFrom(l, nsnap, from, ff) == h + (rows + rest);
      StepsFromAllLines(l, nsnap, from + 1, ff);
      AllLinesConcat(h, rows + rest);
      AllLinesConcat(rows, rest);
      assert AllLines(rows);
      HeaderAllLines(l, from, ff);
    }
  }

  /** The header of snapshot s fails only on its timestep or box lines. */
  lemma HeaderAllLines(l: Layout, s: nat, ff: FloatFormat)
    ensures AllLines(HeaderSteps(l, s, ff)) <==>
      (l.timesteps.None? || s < |l.timesteps.value|) && BoxWritable(l.box)
  {
    HeaderShape(l, s, ff);
    NineLines(HeaderSteps(l, s, ff));
    assert BoxWritable(l.box) <==> BoxText(l.box, 0, ff).Ok? && BoxText(l.box, 1, ff).Ok? && BoxText(l.box, 2, ff).Ok?;
  }

  /** Which of the header's writes can fail. */
  lemma HeaderShape(l: Layout, s: nat, ff: FloatFormat)
    ensures var h := HeaderSteps(l, s, ff);
      |h| == 9 && h[0].Line? && h[2].Line? && h[3].Line? && h[4].Line? && h[8].Line? &&
      (h[1].Line? <==> TimestepText(l.timesteps, s).Ok?) &&
      (h[5].Line? <==> BoxText(l.box, 0, ff).Ok?) &&
      (h[6].Line? <==> BoxText(l.box, 1, ff).Ok?) &&
      (h[7].Line? <==> BoxText(l.box, 2, ff).Ok?)
  {
  }

  /** Nine writes of which five are plain lines all complete exactly when
      the other four do. */
  lemma NineLines(h: seq<Step>)
    requires |h| == 9 && h[0].Line? && h[2].Line? && h[3].Line? && h[4].Line? && h[8].Line?
    ensures AllLines(h) <==> h[1].Line? && h[5].Line? && h[6].Line? && h[7].Line?
  {
    if h[1].Line? && h[5].Line? && h[6].Line? && h[7].Line? {
      forall i | 0 <= i < 9
        ensures h[i].Line?
      {
        assert i in {0, 1, 2, 3, 4, 5, 6, 7, 8};
      }
    }
  }

  /** Three rows of at least two bounds each. */
  predicate BoxShaped(box: Option<seq<seq<real>>>) {
    box.Some? && |box.value| >= 3 && forall i :: 0 <= i < 3 ==> |box.value[i]| >= 2
  }

  /** A box the writer can print: a two-dimensional array of at least
      three rows and two columns. */
  predicate BoxWritable(box: Option<seq<seq<real>>>) {
    BoxShaped(box) && Uniform(box.value)
  }

  /** Once the file is open, `write_custom` finishes without an exception
      exactly when there is a timestep for every snapshot (or no
      'timesteps' key) and a rectangular box of at least three rows of two. */
  lemma WriteCustomCompletes(outfn: string, d: CustomDict, extension: string, append: bool, ff: FloatFormat)
    requires Opens(outfn, d, extension)
    ensures WriteCustom(outfn, d, extension, append, ff).error.None? <==>
      (d.timesteps.None? || |d.timesteps.value| >= WrittenSnapshots(d)) && BoxWritable(d.specs.box)
  {
    WriteCustomRuns(outfn, d, extension, append, ff);
    StepsFromAllLines(LayoutOf(d), WrittenSnapshots(d), 0, ff);
  }
}

=== FILE: filesys.dfy ===
/** The file system as the loaders see it: a map from path to a regular
    file with an integer modification time, holding either text lines or
    one array saved by np.save.  Also `os.path.splitext` and np.save's
    file naming. */
module FileSys {
  import opened Wrappers
  import opened Errors
  import opened PyStr

  type Array3 = seq<seq<seq<real>>>

  datatype Content = Text(lines: seq<string>) | Npy(values: Array3)

  datatype Entry = Entry(mtime: int, content: Content)

  type Fs = map<string, Entry>

  /** Opening a path as text and reading all its lines. */
  function ReadLines(fs: Fs, path: string): (r: Result<seq<string>, Error>)
    ensures r.Ok? <==> path in fs && fs[path].content.Text?
    ensures r.Ok? ==> r.value == fs[path].content.lines
    ensures path !in fs ==> r == Err(FileNotFound(path))
  {
    if path !in fs then Err(FileNotFound(path))
    else match fs[path].content
      case Text(lines) => Ok(lines)
      case Npy(_) => Err(NotText(path))
  }

  /** `np.load(path)`. */
  function LoadArray(fs: Fs, path: string): (r: Result<Array3, Error>)
    ensures r.Ok? <==> path in fs && fs[path].content.Npy?
    ensures r.Ok? ==> r.value == fs[path].content.values
  {
    if path !in fs then Err(FileNotFound(path))
    else match fs[path].content
      case Npy(a) => Ok(a)
      case Text(_) => Err(NotAnArray(path))
  }

  /** The file `np.save(path, ...)` writes: ".npy" is appended when the
      name does not already end in it. */
  function NpySavePath(path: string): (r: string)
    ensures EndsWith(r, ".npy")
    ensures EndsWith(path, ".npy") ==> r == path
  {
    if EndsWith(path, ".npy") then path else path + ".npy"
  }

  /** `np.save(path, a)` at time `now`: the file is created or overwritten. */
  function SaveArray(fs: Fs, path: string, a: Array3, now: int): (r: Fs)
    ensures NpySavePath(path) in r && r[NpySavePath(path)] == Entry(now, Npy(a))
    ensures forall p :: p in fs && p != NpySavePath(path) ==> p in r && r[p] == fs[p]
    ensures r.Keys == fs.Keys + {NpySavePath(path)}
  {
    fs[NpySavePath(path) := Entry(now, Npy(a))]
  }

  /** The last path component of p has its extension at k: p[k] is the
      last dot, no separator follows it, and some character of the same
      component before it is neither a dot nor a separator. */
  predicate ExtAt(p: string, k: int) {
    0 <= k < |p| && p[k] == '.' &&
    (forall i :: k < i < |p| ==> p[i] != '.' && p[i] != '/') &&
    exists j :: 0 <= j < k && p[j] != '.' && p[j] != '/' && forall i :: j < i < k ==> p[i] != '/'
  }

  /** `os.path.splitext` on a POSIX path: the extension starts at the last
      dot of the last path component, unless only dots precede that dot in
      the component. */
  function SplitExt(p: string): (r: (string, string))
    ensures r.0 + r.1 == p
    ensures r.1 == "" || r.1[0] == '.'
    ensures '/' !in r.1
    ensures r.1 != "" ==> ExtAt(p, |r.0|)
    ensures r.1 == "" <==> forall k :: 0 <= k < |p| ==> !ExtAt(p, k)
  {
    var sepIndex := RFind(p, '/');
    var dotIndex := RFind(p, '.');
    SplitExtCut(p, sepIndex, dotIndex);
    if dotIndex > sepIndex && exists j :: sepIndex < j < dotIndex && p[j] != '.' then
      assert p[..dotIndex] + p[dotIndex..] == p;
      (p[..dotIndex], p[dotIndex..])
    else (p, "")
  }

  /** The cut `SplitExt` makes from the last separator and the last dot is
      the one place the extension can start. */
  lemma SplitExtCut(p: string, sepIndex: int, dotIndex: int)
    requires sepIndex == RFind(p, '/') && dotIndex == RFind(p, '.')
    ensures (dotIndex > sepIndex && exists j :: sepIndex < j < dotIndex && p[j] != '.') ==> ExtAt(p, dotIndex)
    ensures forall k :: ExtAt(p, k) ==> k == dotIndex && dotIndex > sepIndex && exists j :: sepIndex < j < dotIndex && p[j] != '.'
  {
    if dotIndex > sepIndex && exists j :: sepIndex < j < dotIndex && p[j] != '.' {
      var j :| sepIndex < j < dotIndex && p[j] != '.';
      assert p[j] != '/';
    }
    forall k | ExtAt(p, k)
      ensures k == dotIndex && dotIndex > sepIndex && exists j :: sepIndex < j < dotIndex && p[j] != '.'
    {
      var j :| 0 <= j < k && p[j] != '.' && p[j] != '/' && forall i :: j < i < k ==> p[i] != '/';
      assert sepIndex < j < dotIndex;
    }
  }
}

=== FILE: output.dfy ===
/** What a writer leaves behind.  The writers open their output file and
    then write line by line, so an exception raised while formatting a
    line leaves the lines written before it in the file. */
module Output {
  import opened Wrappers
  import opened Errors

  /** One `f.write` of a line, or the exception raised while formatting it. */
  datatype Step = Line(text: string) | Fail(error: Error)

  datatype Emitted = Emitted(lines: seq<string>, error: Option<Error>)

  predicate AllLines(steps: seq<Step>) {
    forall i :: 0 <= i < |steps| ==> steps[i].Line?
  }

  /** Executing the writes in order until the first exception. */
  function Run(steps: seq<Step>): (r: Emitted)
    ensures r.error.None? <==> AllLines(steps)
    ensures |r.lines| <= |steps|
    ensures forall i :: 0 <= i < |r.lines| ==> steps[i].Line? && r.lines[i] == steps[i].text
    ensures r.error.Some? ==> |r.lines| < |steps| && steps[|r.lines|] == Fail(r.error.value)
    ensures r.error.None? ==> |r.lines| == |steps|
  {
    if |steps| == 0 then Emitted([], None)
    else match steps[0]
      case Fail(e) => Emitted([], Some(e))
      case Line(t) =>
        var rest := Run(steps[1..]);
        Emitted([t] + rest.lines, rest.error)
  }

  /** The texts of steps that all write a line. */
  function Texts(steps: seq<Step>): (r: seq<string>)
    requires AllLines(steps)
    ensures |r| == |steps|
    ensures forall i :: 0 <= i < |steps| ==> r[i] == steps[i].text
  {
    if |steps| == 0 then [] else [steps[0].text] + Texts(steps[1..])
  }

  /** When every write succeeds, the file holds every line. */
  lemma RunAllLines(steps: seq<Step>)
    requires AllLines(steps)
    ensures Run(steps) == Emitted(Texts(steps), None)
  {
  }

  lemma AllLinesConcat(a: seq<Step>, b: seq<Step>)
    ensures AllLines(a + b) <==> AllLines(a) && AllLines(b)
  {
    if AllLines(a) && AllLines(b) {
      forall i | 0 <= i < |a + b|
        ensures (a + b)[i].Line?
      {
        if i >= |a| {
          assert (a + b)[i] == b[i - |a|];
        }
      }
    }
    if AllLines(a + b) {
      forall i | 0 <= i < |a|
        ensures a[i].Line?
      {
        assert (a + b)[i] == a[i];
      }
      forall i | 0 <= i < |b|
        ensures b[i].Line?
      {
        assert (a + b)[|a| + i] == b[i];
      }
    }
  }

  /** Writes that all succeed are followed by whatever the rest does. */
  lemma {:induction false} RunConcat(a: seq<Step>, b: seq<Step>)
    requires AllLines(a)
    ensures Run(a + b) == Emitted(Texts(a) + Run(b).lines, Run(b).error)
  {
    if |a| > 0 {
      var ab := a + b;
      assert ab[0] == a[0] && ab[1..] == a[1..] + b;
      RunConcat(a[1..], b);
      assert [a[0].text] + (Texts(a[1..]) + Run(b).lines) == Texts(a) + Run(b).lines;
    } else {
      assert a + b == b;
    }
  }

  /** The texts of writes that all succeed, one after the other. */
  lemma TextsConcat(a: seq<Step>, b: seq<Step>)
    requires AllLines(a) && AllLines(b)
    ensures AllLines(a + b) && Texts(a + b) == Texts(a) + Texts(b)
  {
    AllLinesConcat(a, b);
    var l, r := Texts(a + b), Texts(a) + Texts(b);
    forall i | 0 <= i < |a + b|
      ensures l[i] == r[i]
    {
      if i < |a| {
        assert (a + b)[i] == a[i];
      } else {
        assert (a + b)[i] == b[i - |a|];
      }
    }
  }

  /** The lines one call of a writer wrote, and whether the file was
      opened for appending. */
  datatype Written = Written(path: string, append: bool, lines: seq<string>)

  /** The file, if the writer got as far as opening it, and the exception
      the writer raised, if any. */
  datatype WriteResult = WriteResult(file: Option<Written>, error: Option<Error>)

  /** The file's lines after the write: mode 'a' adds to what was there,
      mode 'w' replaces it. */
  function FileAfter(existing: seq<string>, w: Written): seq<string> {
    if w.append then existing + w.lines else w.lines
  }
}

=== FILE: pyfloat.dfy ===
/** The float conversions the readers and writers call, left abstract:
    their text syntax and rounding are outside this model. */
module PyFloat {
  import opened Wrappers
  import opened PyStr

  /** `parse` is `float()` on one token (None for a ValueError), `repr`
      is `str()` of a float as an f-string field prints it, and `fixed4`
      is the `'%.4f'` format. */
  datatype FloatFormat = FloatFormat(
    parse: string -> Option<real>,
    repr: real -> string,
    fixed4: real -> string)

  /** `float('')` raises ValueError. */
  predicate RejectsEmpty(ff: FloatFormat) {
    ff.parse("") == None
  }

  /** `str(x)` is one whitespace-free token that `float()` accepts. */
  ghost predicate ReprParses(ff: FloatFormat) {
    forall x: real :: IsToken(ff.repr(x)) && ff.parse(ff.repr(x)).Some?
  }

  /** Every value `float()` produces is a double, and `float(str(x)) == x`
      for a double: a parsed value reads back unchanged from its text. */
  ghost predicate ReprInvertsParse(ff: FloatFormat) {
    forall s: string :: ff.parse(s).Some? ==> ff.parse(ff.repr(ff.parse(s).value)) == ff.parse(s)
  }

  /** The value `float()` reads back from the text `str()` writes for x. */
  function Reread(ff: FloatFormat, x: real): (r: real)
    requires ReprParses(ff)
    ensures ff.parse(ff.repr(x)) == Some(r)
  {
    ff.parse(ff.repr(x)).value
  }

  /** A value `float()` produced is reread unchanged. */
  lemma RereadParsed(ff: FloatFormat, s: string)
    requires ReprParses(ff) && ReprInvertsParse(ff)
    requires ff.parse(s).Some?
    ensures Reread(ff, ff.parse(s).value) == ff.parse(s).value
  {
  }

  /** `'%.4f' % x` is one whitespace-free token that `float()` accepts. */
  ghost predicate FixedParses(ff: FloatFormat) {
    forall x: real :: IsToken(ff.fixed4(x)) && ff.parse(ff.fixed4(x)).Some?
  }

  lemma FixedAt(ff: FloatFormat, x: real)
    requires FixedParses(ff)
    ensures IsToken(ff.fixed4(x)) && ff.parse(ff.fixed4(x)).Some?
  {
  }

  /** The value of a float cast to an integer type: truncation toward zero. */
  function Trunc(x: real): (r: int)
    ensures 0.0 <= x ==> 0 <= r && r as real <= x < r as real + 1.0
    ensures x < 0.0 ==> r <= 0 && r as real - 1.0 < x <= r as real
  {
    if 0.0 <= x then x.Floor else -((-x).Floor)
  }
}

=== FILE: pyint.dfy ===
/** `int()` on a string and `str()` / `'%d'` of an int, in base 10. */
module PyInt {
  import opened Wrappers
  import opened PyStr

  predicate IsDigit(c: char) {
    '0' <= c <= '9'
  }

  function DigitChar(d: nat): (c: char)
    requires d < 10
    ensures IsDigit(c) && c as int - '0' as int == d
  {
    ('0' as int + d) as char
  }

  /** Digits, where every underscore sits between two digits: the body
      `int()` accepts after its optional sign. */
  predicate IsNumeral(s: string) {
    && |s| > 0
    && (forall i :: 0 <= i < |s| ==> IsDigit(s[i]) || s[i] == '_')
    && (forall i :: 0 <= i < |s| && s[i] == '_' ==> 0 < i < |s| - 1 && IsDigit(s[i - 1]) && IsDigit(s[i + 1]))
  }

  /** The number a numeral spells, underscores ignored. */
  function NumeralValue(s: string): nat
    requires forall i :: 0 <= i < |s| ==> IsDigit(s[i]) || s[i] == '_'
  {
    if |s| == 0 then 0
    else
      var c := s[|s| - 1];
      if c == '_' then NumeralValue(s[..|s| - 1])
      else
        assert IsDigit(c);
        NumeralValue(s[..|s| - 1]) * 10 + (c as int - '0' as int)
  }

  /** `str(n)` for a non-negative n. */
  function ShowNat(n: nat): (r: string)
    ensures IsNumeral(r)
    ensures forall i :: 0 <= i < |r| ==> IsDigit(r[i])
    ensures NumeralValue(r) == n
    ensures r[0] == '0' ==> n == 0
  {
    if n < 10 then [DigitChar(n)]
    else
      var init := ShowNat(n / 10);
      var r := init + [DigitChar(n % 10)];
      assert r[..|r| - 1] == init;
      r
  }

  /** `str(n)`, `'%d' % n` and the f-string field `{n}` for an int. */
  function Show(n: int): string {
    if n < 0 then "-" + ShowNat(-n) else ShowNat(n)
  }

  /** `str(n)` is a minus sign exactly for a negative n, followed by the
      numeral of |n|. */
  lemma ShowDigits(n: int)
    ensures |Show(n)| > 0 && (Show(n)[0] == '-' <==> n < 0)
    ensures var digits := if n < 0 then Show(n)[1..] else Show(n);
      IsNumeral(digits) && NumeralValue(digits) == if n < 0 then -n else n
  {
    if n < 0 {
      assert Show(n)[1..] == ShowNat(-n);
    }
  }

  /** `int(s)` on a string: surrounding whitespace, an optional sign, then
      a numeral; anything else is a ValueError (None). */
  function ParseInt(s: string): Option<int> {
    var t := Strip(s);
    if |t| > 0 && (t[0] == '-' || t[0] == '+') then
      if IsNumeral(t[1..]) then
        var v: int := NumeralValue(t[1..]);
        Some(if t[0] == '-' then -v else v)
      else None
    else if IsNumeral(t) then Some(NumeralValue(t))
    else None
  }

  /** `int()` accepts exactly an optionally signed numeral between
      whitespace, and gives the numeral's value with the sign applied. */
  lemma ParseIntSyntax(s: string)
    ensures ParseInt(s).Some? <==>
      || IsNumeral(Strip(s))
      || (|Strip(s)| > 0 && (Strip(s)[0] == '-' || Strip(s)[0] == '+') && IsNumeral(Strip(s)[1..]))
    ensures ParseInt(s).Some? && IsNumeral(Strip(s)) ==> ParseInt(s).value == NumeralValue(Strip(s))
    ensures ParseInt(s).Some? && !IsNumeral(Strip(s)) ==>
      ParseInt(s).value == (if Strip(s)[0] == '-' then -1 else 1) * NumeralValue(Strip(s)[1..])
  {
    var t := Strip(s);
    if |t| > 0 && (t[0] == '-' || t[0] == '+') {
      assert !IsDigit(t[0]) && t[0] != '_';
    }
  }

  /** `int(str(n)) == n`: printing then parsing an int is the identity. */
  lemma ParseShow(n: int)
    ensures ParseInt(Show(n)) == Some(n)
  {
    var s := Show(n);
    assert !IsSpace(s[0]) && !IsSpace(s[|s| - 1]);
    StripUnchanged(s);
    if n < 0 {
      assert s[1..] == ShowNat(-n);
    }
  }

  /** `str(n)` is one whitespace-free token. */
  lemma ShowToken(n: int)
    ensures IsToken(Show(n))
  {
    if n < 0 {
      assert Show(n) == "-" + ShowNat(-n);
    }
  }

  /** A blank line is not an int. */
  lemma ParseBlank(s: string)
    requires Strip(s) == ""
    ensures ParseInt(s) == None
  {
  }
}

=== FILE: pystr.dfy ===
/** The parts of Python's `str` the trajectory code uses: `strip()`,
    `split(' ')`, `' '.join`, `lower()`, the `in` substring test, and
    the right-to-left character search behind `os.path.splitext`. */
module PyStr {

  /** `str.isspace()` for one character: the ASCII controls 9-13 and 28-31,
      the space, and the Unicode space separators. */
  predicate IsSpace(c: char) {
    var n := c as int;
    || 9 <= n <= 13
    || 28 <= n <= 32
    || n == 0x85 || n == 0xA0 || n == 0x1680
    || 0x2000 <= n <= 0x200A
    || n == 0x2028 || n == 0x2029 || n == 0x202F || n == 0x205F || n == 0x3000
  }

  /** A non-empty string without whitespace: what survives `strip()` and
      `split(' ')` unchanged. */
  predicate IsToken(t: string) {
    |t| > 0 && forall i :: 0 <= i < |t| ==> !IsSpace(t[i])
  }

  predicate AllTokens(ts: seq<string>) {
    forall i :: 0 <= i < |ts| ==> IsToken(ts[i])
  }

  function LStrip(s: string): (r: string)
    ensures |r| <= |s| && r == s[|s| - |r|..]
    ensures forall i :: 0 <= i < |s| - |r| ==> IsSpace(s[i])
    ensures |r| > 0 ==> !IsSpace(r[0])
  {
    if |s| > 0 && IsSpace(s[0]) then LStrip(s[1..]) else s
  }

  function RStrip(s: string): (r: string)
    ensures |r| <= |s| && r == s[..|r|]
    ensures forall i :: |r| <= i < |s| ==> IsSpace(s[i])
    ensures |r| > 0 ==> !IsSpace(r[|r| - 1])
  {
    if |s| > 0 && IsSpace(s[|s| - 1]) then RStrip(s[..|s| - 1]) else s
  }

  /** `str.strip()` with no argument. */
  function Strip(s: string): (r: string)
    ensures |r| <= |s|
    ensures |r| > 0 ==> !IsSpace(r[0]) && !IsSpace(r[|r| - 1])
  {
    RStrip(LStrip(s))
  }

  /** `strip()` removes only whitespace: the result is a slice of s with
      nothing but whitespace before and after it. */
  lemma StripIsSlice(s: string)
    ensures exists a :: StrippedAt(s, Strip(s), a)
  {
    var a := |s| - |LStrip(s)|;
    StripSlice(s);
    assert StrippedAt(s, Strip(s), a);
  }

  lemma StripSlice(s: string)
    ensures StrippedAt(s, RStrip(LStrip(s)), |s| - |LStrip(s)|)
  {
    var l := LStrip(s);
    var r := RStrip(l);
    var a := |s| - |l|;
    assert l == s[a..];
    assert r == l[..|r|];
    assert s[a..a + |r|] == r;
    assert forall i :: 0 <= i < a ==> IsSpace(s[i]);
    assert forall i :: |r| <= i < |l| ==> IsSpace(l[i]);
    assert forall i :: a + |r| <= i < |s| ==> IsSpace(s[i]) by {
      forall i | a + |r| <= i < |s|
        ensures IsSpace(s[i])
      {
        assert s[i] == l[i - a];
      }
    }
    assert StrippedAt(s, r, a);
  }

  /** r is the slice of s starting at a, with only whitespace before and
      after it. */
  predicate StrippedAt(s: string, r: string, a: int) {
    0 <= a && a + |r| <= |s| && s[a..a + |r|] == r &&
    (forall i :: 0 <= i < a ==> IsSpace(s[i])) &&
    (forall i :: a + |r| <= i < |s| ==> IsSpace(s[i]))
  }

  /** A string that neither starts nor ends with whitespace is its own strip. */
  lemma StripUnchanged(s: string)
    requires |s| > 0 ==> !IsSpace(s[0]) && !IsSpace(s[|s| - 1])
    ensures Strip(s) == s
  {
  }

  /** `sep.join(ts)` for a one-character separator. */
  function Join(ts: seq<string>, sep: char): string
  {
    if |ts| == 0 then ""
    else if |ts| == 1 then ts[0]
    else ts[0] + [sep] + Join(ts[1..], sep)
  }

  /** Joining a list with a head: the head, the separator, the rest. */
  lemma JoinCons(t: string, ts: seq<string>, sep: char)
    requires |ts| > 0
    ensures Join([t] + ts, sep) == t + [sep] + Join(ts, sep)
  {
    assert ([t] + ts)[1..] == ts;
  }

  /** `s.split(sep)` with an explicit one-character separator: empty
      fields are kept, and "" splits to [""]. */
  function Split(s: string, sep: char): (r: seq<string>)
    ensures |r| >= 1
    ensures forall i :: 0 <= i < |r| ==> sep !in r[i]
  {
    if |s| == 0 then [""]
    else
      var rest := Split(s[1..], sep);
      if s[0] == sep then [""] + rest
      else [[s[0]] + rest[0]] + rest[1..]
  }

  /** Joining the pieces of a split with the separator gives the string back. */
  lemma {:induction false} JoinSplit(s: string, sep: char)
    ensures Join(Split(s, sep), sep) == s
  {
    if |s| > 0 {
      var rest := Split(s[1..], sep);
      JoinSplit(s[1..], sep);
      if s[0] == sep {
        assert ([""] + rest)[1..] == rest;
      } else {
        var r := [[s[0]] + rest[0]] + rest[1..];
        assert r[1..] == rest[1..];
        assert s == [s[0]] + s[1..];
      }
    }
  }

  /** Splitting a string whose first part holds no separator. */
  lemma {:induction false} SplitPrefix(a: string, b: string, sep: char)
    requires sep !in a
    ensures Split(a + b, sep) == [a + Split(b, sep)[0]] + Split(b, sep)[1..]
  {
    if |a| == 0 {
      var x := Split(b, sep);
      assert a + b == b;
      assert a + x[0] == x[0];
      assert x == [x[0]] + x[1..];
    } else {
      var s := a + b;
      assert s[0] == a[0] && s[0] != sep;
      assert s[1..] == a[1..] + b;
      SplitPrefix(a[1..], b, sep);
      var x := Split(b, sep);
      var rest := Split(s[1..], sep);
      assert rest == [a[1..] + x[0]] + x[1..];
      assert Split(s, sep) == [[s[0]] + rest[0]] + rest[1..];
      assert [a[0]] + (a[1..] + x[0]) == a + x[0];
    }
  }

  /** `split` undoes `join` when no piece holds the separator. */
  lemma {:induction false} SplitJoin(ts: seq<string>, sep: char)
    requires |ts| >= 1
    requires forall i :: 0 <= i < |ts| ==> sep !in ts[i]
    ensures Split(Join(ts, sep), sep) == ts
  {
    if |ts| == 1 {
      SplitPrefix(ts[0], "", sep);
      assert ts[0] + "" == ts[0];
    } else {
      var rest := Join(ts[1..], sep);
      SplitJoin(ts[1..], sep);
      assert ts[0] + [sep] + rest == ts[0] + ([sep] + rest);
      SplitPrefix(ts[0], [sep] + rest, sep);
      var y := [sep] + rest;
      assert y[0] == sep && y[1..] == rest;
      assert Split(y, sep) == [""] + Split(rest, sep);
      assert Split(y, sep)[0] == "" && Split(y, sep)[1..] == ts[1..];
      assert ts[0] + "" == ts[0];
      assert Join(ts, sep) == ts[0] + y;
      assert ts == [ts[0]] + ts[1..];
    }
  }

  /** A joined list of tokens starts with the first token's first
      character and ends with the last token's last character. */
  lemma {:induction false} JoinEnds(ts: seq<string>, sep: char)
    requires |ts| > 0 && forall i :: 0 <= i < |ts| ==> ts[i] != ""
    ensures var j := Join(ts, sep); |j| > 0 && j[0] == ts[0][0] && j[|j| - 1] == ts[|ts| - 1][|ts[|ts| - 1]| - 1]
  {
    if |ts| > 1 {
      var rest := Join(ts[1..], sep);
      JoinEnds(ts[1..], sep);
      assert ts[1..][|ts| - 2] == ts[|ts| - 1];
      var j := ts[0] + [sep] + rest;
      assert Join(ts, sep) == j;
      assert j[0] == ts[0][0];
      assert j[|j| - 1] == rest[|rest| - 1];
    }
  }

  lemma TokenHasNoSpace(t: string)
    requires IsToken(t)
    ensures ' ' !in t
  {
  }

  /** `s.strip().split(' ')` of tokens joined by single spaces gives the
      tokens back. */
  lemma SplitStripJoin(ts: seq<string>)
    requires |ts| > 0 && AllTokens(ts)
    ensures Split(Strip(Join(ts, ' ')), ' ') == ts
  {
    var j := Join(ts, ' ');
    JoinEnds(ts, ' ');
    assert !IsSpace(j[0]) && !IsSpace(j[|j| - 1]);
    StripUnchanged(j);
    forall i | 0 <= i < |ts|
      ensures ' ' !in ts[i]
    {
      TokenHasNoSpace(ts[i]);
    }
    SplitJoin(ts, ' ');
  }

  /** The list comprehension that keeps the non-empty strings: each one
      as often as it occurs, and no empty one. */
  function DropEmpty(ts: seq<string>): (r: seq<string>)
    ensures |r| <= |ts|
    ensures forall i :: 0 <= i < |r| ==> r[i] != ""
    ensures forall t :: t in r <==> t in ts && t != ""
    ensures forall t :: t != "" ==> multiset(r)[t] == multiset(ts)[t]
    ensures multiset(r)[""] == 0
  {
    if |ts| == 0 then []
    else
      assert ts == [ts[0]] + ts[1..];
      if ts[0] == "" then DropEmpty(ts[1..])
    else [ts[0]] + DropEmpty(ts[1..])
  }

  /** Dropping the empty strings of a concatenation drops them from each
      part in turn, so the kept strings stay in their order. */
  lemma {:induction false} DropEmptyConcat(a: seq<string>, b: seq<string>)
    ensures DropEmpty(a + b) == DropEmpty(a) + DropEmpty(b)
  {
    if |a| > 0 {
      assert (a + b)[0] == a[0] && (a + b)[1..] == a[1..] + b;
      DropEmptyConcat(a[1..], b);
    } else {
      assert a + b == b;
    }
  }

  /** Keeping the non-empty strings of a list that has no empty string
      changes nothing. */
  lemma {:induction false} DropEmptyUnchanged(ts: seq<string>)
    requires forall i :: 0 <= i < |ts| ==> ts[i] != ""
    ensures DropEmpty(ts) == ts
  {
    if |ts| > 0 {
      DropEmptyUnchanged(ts[1..]);
      assert ts == [ts[0]] + ts[1..];
    }
  }

  /** `str.lower()` on ASCII letters. */
  function LowerChar(c: char): char {
    if 'A' <= c <= 'Z' then (c as int + 32) as char else c
  }

  function Lower(s: string): (r: string)
    ensures |r| == |s|
    ensures forall i :: 0 <= i < |s| ==> r[i] == LowerChar(s[i])
  {
    seq(|s|, i requires 0 <= i < |s| => LowerChar(s[i]))
  }

  lemma LowerTwice(s: string)
    ensures Lower(Lower(s)) == Lower(s)
  {
  }

  lemma LowerConcat(a: string, b: string)
    ensures Lower(a + b) == Lower(a) + Lower(b)
  {
  }

  predicate OccursAt(h: string, n: string, i: int) {
    0 <= i && i + |n| <= |h| && h[i..i + |n|] == n
  }

  /** Python's `n in h` on strings. */
  predicate Contains(h: string, n: string) {
    exists i :: 0 <= i <= |h| - |n| && OccursAt(h, n, i)
  }

  lemma ContainsSuffix(a: string, b: string)
    ensures Contains(a + b, b)
  {
    assert OccursAt(a + b, b, |a|);
  }

  predicate EndsWith(s: string, suffix: string) {
    |suffix| <= |s| && s[|s| - |suffix|..] == suffix
  }

  /** `str.rfind` for one character: -1 when absent. */
  function RFind(s: string, c: char): (r: int)
    ensures -1 <= r < |s|
    ensures r >= 0 ==> s[r] == c
    ensures forall j :: r < j < |s| ==> s[j] != c
  {
    if |s| == 0 then -1
    else if s[|s| - 1] == c then |s| - 1
    else RFind(s[..|s| - 1], c)
  }
}

=== FILE: rowsort.dfy ===
/** Ordering the rows of one snapshot by the value in one column, as
    `snap[np.argsort(snap[:, c])]` does. */
module RowSort {

  predicate HasColumn(rows: seq<seq<real>>, c: nat) {
    forall i :: 0 <= i < |rows| ==> c < |rows[i]|
  }

  predicate SortedOn(rows: seq<seq<real>>, c: nat)
    requires HasColumn(rows, c)
  {
    forall i, j :: 0 <= i < j < |rows| ==> rows[i][c] <= rows[j][c]
  }

  /** Where a row goes in sorted rows: after every row with a smaller
      key, before the first row whose key is not smaller. */
  function InsertPos(row: seq<real>, rows: seq<seq<real>>, c: nat): (k: nat)
    requires c < |row| && HasColumn(rows, c)
    ensures k <= |rows|
    ensures forall i :: 0 <= i < k ==> rows[i][c] < row[c]
    ensures k < |rows| ==> row[c] <= rows[k][c]
  {
    if |rows| == 0 || row[c] <= rows[0][c] then 0
    else 1 + InsertPos(row, rows[1..], c)
  }

  function Insert(row: seq<real>, rows: seq<seq<real>>, c: nat): (r: seq<seq<real>>)
    requires c < |row| && HasColumn(rows, c) && SortedOn(rows, c)
    ensures HasColumn(r, c) && SortedOn(r, c)
    ensures multiset(r) == multiset(rows) + multiset{row}
  {
    var k := InsertPos(row, rows, c);
    InsertAt(row, rows, c, k);
    rows[..k] + [row] + rows[k..]
  }

  /** Putting a row at a place after every smaller key and before the
      first key that is not smaller keeps sorted rows sorted. */
  lemma InsertAt(row: seq<real>, rows: seq<seq<real>>, c: nat, k: nat)
    requires c < |row| && HasColumn(rows, c) && SortedOn(rows, c)
    requires k <= |rows| && forall i :: 0 <= i < k ==> rows[i][c] < row[c]
    requires k < |rows| ==> row[c] <= rows[k][c]
    ensures var r := rows[..k] + [row] + rows[k..];
      HasColumn(r, c) && SortedOn(r, c) && multiset(r) == multiset(rows) + multiset{row}
  {
    InsertAtColumn(row, rows, c, k);
    InsertAtSorted(row, rows, c, k);
    InsertAtCount(row, rows, k);
  }

  lemma InsertAtColumn(row: seq<real>, rows: seq<seq<real>>, c: nat, k: nat)
    requires c < |row| && HasColumn(rows, c) && k <= |rows|
    ensures HasColumn(rows[..k] + [row] + rows[k..], c)
  {
    InsertAtIndex(row, rows, k);
  }

  lemma InsertAtCount(row: seq<real>, rows: seq<seq<real>>, k: nat)
    requires k <= |rows|
    ensures multiset(rows[..k] + [row] + rows[k..]) == multiset(rows) + multiset{row}
  {
    assert rows == rows[..k] + rows[k..];
  }

  lemma InsertAtIndex(row: seq<real>, rows: seq<seq<real>>, k: nat)
    requires k <= |rows|
    ensures var r := rows[..k] + [row] + rows[k..];
      |r| == |rows| + 1 && r[k] == row &&
      (forall i :: 0 <= i < k ==> r[i] == rows[i]) &&
      (forall i :: k < i < |r| ==> r[i] == rows[i - 1])
  {
  }

  lemma InsertAtSorted(row: seq<real>, rows: seq<seq<real>>, c: nat, k: nat)
    requires c < |row| && HasColumn(rows, c) && SortedOn(rows, c)
    requires k <= |rows| && forall i :: 0 <= i < k ==> rows[i][c] < row[c]
    requires k < |rows| ==> row[c] <= rows[k][c]
    requires HasColumn(rows[..k] + [row] + rows[k..], c)
    ensures SortedOn(rows[..k] + [row] + rows[k..], c)
  {
    var r := rows[..k] + [row] + rows[k..];
    InsertAtIndex(row, rows, k);
    forall i, j | 0 <= i < j < |r|
      ensures r[i][c] <= r[j][c]
    {
      if k < j {
        var rj := rows[j - 1][c];
        assert r[j][c] == rj;
        if i < k {
          assert rows[i][c] <= rj;
        } else if i == k {
          assert rows[k][c] <= rj;
        } else {
          assert rows[i - 1][c] <= rj;
        }
      }
    }
  }

  /** A stable sort by column c: the result is a permutation of the rows,
      in non-decreasing order of column c. */
  function SortByColumn(rows: seq<seq<real>>, c: nat): (r: seq<seq<real>>)
    requires HasColumn(rows, c)
    ensures HasColumn(r, c) && SortedOn(r, c)
    ensures multiset(r) == multiset(rows)
    ensures |r| == |rows|
  {
    if |rows| == 0 then []
    else
      assert rows == [rows[0]] + rows[1..];
      Insert(rows[0], SortByColumn(rows[1..], c), c)
  }

  /** Every row has w entries. */
  predicate RowsOfWidth(rows: seq<seq<real>>, w: nat) {
    forall i :: 0 <= i < |rows| ==> |rows[i]| == w
  }

  /** Sorting only moves rows, so it keeps their width. */
  lemma SortKeepsWidth(rows: seq<seq<real>>, c: nat, w: nat)
    requires HasColumn(rows, c) && RowsOfWidth(rows, w)
    ensures RowsOfWidth(SortByColumn(rows, c), w)
  {
    var r := SortByColumn(rows, c);
    forall i | 0 <= i < |r|
      ensures |r[i]| == w
    {
      assert r[i] in multiset(r);
      assert r[i] in multiset(rows);
    }
  }

  lemma SortedTail(rows: seq<seq<real>>, c: nat)
    requires |rows| > 0 && HasColumn(rows, c) && SortedOn(rows, c)
    ensures HasColumn(rows[1..], c) && SortedOn(rows[1..], c)
    ensures |rows| > 1 ==> rows[0][c] <= rows[1..][0][c]
  {
    var tl := rows[1..];
    assert forall i :: 0 <= i < |tl| ==> tl[i] == rows[i + 1];
  }

  /** A row no greater than the first goes in front. */
  lemma InsertFront(row: seq<real>, rows: seq<seq<real>>, c: nat)
    requires c < |row| && HasColumn(rows, c) && SortedOn(rows, c)
    requires |rows| > 0 ==> row[c] <= rows[0][c]
    ensures Insert(row, rows, c) == [row] + rows
  {
    assert InsertPos(row, rows, c) == 0;
    assert rows[..0] + [row] + rows[0..] == [row] + rows;
  }

  /** Rows already in order come back unchanged. */
  lemma {:induction false} SortSorted(rows: seq<seq<real>>, c: nat)
    requires HasColumn(rows, c) && SortedOn(rows, c)
    ensures SortByColumn(rows, c) == rows
  {
    if |rows| > 0 {
      var tl := rows[1..];
      SortedTail(rows, c);
      SortSorted(tl, c);
      InsertFront(rows[0], tl, c);
      assert rows == [rows[0]] + tl;
    }
  }
}

=== FILE: wrappers.dfy ===
/** Option and Result, both usable with `:-`. */
module Wrappers {

  datatype Option<+T> = None | Some(value: T) {
    predicate IsFailure() { None? }

    function PropagateFailure<U>(): Option<U>
      requires None?
    {
      None
    }

    function Extract(): T
      requires Some?
    {
      value
    }
  }

  datatype Result<+T, +E> = Ok(value: T) | Err(error: E) {
    predicate IsFailure() { Err? }

    function PropagateFailure<U>(): Result<U, E>
      requires Err?
    {
      Err(error)
    }

    function Extract(): T
      requires Ok?
    {
      value
    }
  }
}

/** The exceptions the trajectory readers and writers raise, one constructor
    per cause.  The Python exception class is given beside each. */
module Errors {
  import opened Wrappers

  datatype Error =
    | FileNotFound(path: string)     // FileNotFoundError from open() or the explicit check
    | NotAnInt                       // ValueError from int()
    | NotAFloat                      // ValueError from float()
    | RowShape                       // ValueError: a row cannot be broadcast into the snapshot array
    | NegativeAtomCount              // ValueError: np.empty with a negative dimension
    | MissingKey(key: string)        // KeyError on a dictionary lookup
    | NotInList(name: string)        // ValueError from list.index
    | IndexOutOfRange                // IndexError
    | UndefinedName                  // NameError
    | InconsistentSnapshots          // ValueError raised by the custom writer
    | InconsistentAtoms              // ValueError raised by the custom writer
    | NotAnArray(path: string)       // np.load on a file that holds no array
    | NotText(path: string)          // a binary array file opened as text

  /** The first error among `rs`, or all their values: what a loop that
      stops at the first exception leaves. */
  function Collect<T>(rs: seq<Result<T, Error>>): (r: Result<seq<T>, Error>)
    ensures r.Ok? <==> forall i :: 0 <= i < |rs| ==> rs[i].Ok?
    ensures r.Ok? ==> |r.value| == |rs| && forall i :: 0 <= i < |rs| ==> rs[i] == Ok(r.value[i])
    ensures r.Err? ==> exists i :: 0 <= i < |rs| && rs[i] == Err(r.error) && forall j :: 0 <= j < i ==> rs[j].Ok?
  {
    if |rs| == 0 then Ok([])
    else match rs[0]
      case Err(e) => Err(e)
      case Ok(v) =>
        match Collect(rs[1..])
        case Err(e) =>
          assert exists i :: 0 <= i < |rs| - 1 && rs[1..][i] == Err(e) && forall j :: 0 <= j < i ==> rs[1..][j].Ok?;
          var i :| 0 <= i < |rs| - 1 && rs[1..][i] == Err(e) && forall j :: 0 <= j < i ==> rs[1..][j].Ok?;
          assert forall j :: 1 <= j < i + 1 ==> rs[j] == rs[1..][j - 1];
          Err(e)
        case Ok(vs) =>
          assert forall i :: 1 <= i < |rs| ==> rs[i] == rs[1..][i - 1];
          Ok([v] + vs)
  }
}

=== FILE: xyzload.dfy ===
/** `load_xyz`: read an XYZ file, or take its positions from the binary
    sidecar `np.save` left next to it; `_save_xyz_binary`, which names the
    sidecar; and `load_pos_of_type`, which keeps the atoms of some types. */
module XyzLoad {
  import opened Wrappers
  import opened Errors
  import opened PyStr
  import opened PyFloat
  import opened FileSys
  import opened XyzRead

  /** Python's `s[:-4]`: empty when s is shorter than four characters. */
  function DropLast4(s: string): (r: string)
    ensures |s| >= 4 ==> r == s[..|s| - 4]
    ensures |s| < 4 ==> r == ""
  {
    if |s| >= 4 then s[..|s| - 4] else ""
  }

  /** The sidecar `load_xyz` looks for: the name without its last four
      characters, followed by "_xyz.npy". */
  function XyzSidecar(filename: string): (r: string)
    ensures EndsWith(r, ".npy")
    ensures r != filename
  {
    var r := DropLast4(filename) + "_xyz.npy";
    assert r[|r| - 4..] == ".npy";
    assert |r| != |filename|;
    r
  }

  /** The file `_save_xyz_binary(outname, data)` writes: ".npy" is
      appended only when the name does not end in it. */
  function SavedXyzBinary(outname: string): (r: string)
    ensures EndsWith(r, ".npy")
    ensures EndsWith(outname, ".npy") ==> r == outname
    ensures !EndsWith(outname, ".npy") ==> r == outname + ".npy"
  {
    var outn := if EndsWith(outname, ".npy") then outname else outname + ".npy";
    assert outn[|outn| - 4..] == ".npy";
    NpySavePath(outn)
  }

  /** The sidecar is saved exactly where it is looked for. */
  lemma SavedXyzSidecarFound(filename: string)
    ensures SavedXyzBinary(XyzSidecar(filename)) == XyzSidecar(filename)
  {
  }

  /** The result of a load and the file system after it. */
  datatype XyzLoaded = XyzLoaded(result: Result<XyzDict, Error>, fs: Fs)

  /** The dictionary taken from the cache: 'pos' loaded from the sidecar,
      'types' read from the source. */
  function XyzFromCache(fs: Fs, filename: string): (r: Result<XyzDict, Error>)
    ensures r.Ok? <==> LoadArray(fs, XyzSidecar(filename)).Ok? && ReadLines(fs, filename).Ok?
    ensures r.Ok? ==> r.value == XyzDict(fs[XyzSidecar(filename)].content.values,
                                         AtomTypesOf(WordLists(fs[filename].content.lines)))
  {
    var pos :- LoadArray(fs, XyzSidecar(filename));
    var lines :- ReadLines(fs, filename);
    Ok(XyzDict(pos, AtomTypesOf(WordLists(lines))))
  }

  /** `load_xyz(filename, savenpy, loadnpy)` at time `now`.  The cache is
      used whenever the sidecar exists and loading from it is allowed,
      however old it is. */
  function LoadXyz(fs: Fs, filename: string, savenpy: bool, loadnpy: bool, ff: FloatFormat, now: int): (r: XyzLoaded)
    ensures XyzSidecar(filename) in fs && loadnpy ==> r == XyzLoaded(XyzFromCache(fs, filename), fs)
    ensures !(XyzSidecar(filename) in fs && loadnpy) ==> r.result == ReadXyz(fs, filename, ff)
    ensures !(XyzSidecar(filename) in fs && loadnpy) ==>
      r.fs == if savenpy && ReadXyz(fs, filename, ff).Ok?
        then SaveArray(fs, SavedXyzBinary(XyzSidecar(filename)), ReadXyz(fs, filename, ff).value.pos, now)
        else fs
    ensures r.fs.Keys >= fs.Keys
    ensures filename in fs ==> filename in r.fs && r.fs[filename] == fs[filename]
  {
    var fnpy := XyzSidecar(filename);
    if fnpy in fs && loadnpy then XyzLoaded(XyzFromCache(fs, filename), fs)
    else
      match ReadXyz(fs, filename, ff)
      case Err(e) => XyzLoaded(Err(e), fs)
      case Ok(d) =>
        XyzLoaded(Ok(d), if savenpy then SaveArray(fs, SavedXyzBinary(fnpy), d.pos, now) else fs)
  }

  /** A load that takes the cache writes nothing; 'pos' is the sidecar's
      array and 'types' are the ones a full `read_xyz` of the source
      would give. */
  lemma XyzCacheHit(fs: Fs, filename: string, savenpy: bool, ff: FloatFormat, now: int)
    requires XyzSidecar(filename) in fs
    requires LoadXyz(fs, filename, savenpy, true, ff, now).result.Ok?
    ensures var r := LoadXyz(fs, filename, savenpy, true, ff, now);
      && r.fs == fs
      && fs[XyzSidecar(filename)].content.Npy?
      && r.result.value.pos == fs[XyzSidecar(filename)].content.values
      && (ReadXyz(fs, filename, ff).Ok? ==> r.result.value.types == ReadXyz(fs, filename, ff).value.types)
  {
  }

  /** Modification times play no part: a sidecar older than the source
      gives the same result as a newer one. */
  lemma LoadXyzIgnoresMtime(fs: Fs, filename: string, c: Content, t1: int, t2: int,
                            savenpy: bool, loadnpy: bool, ff: FloatFormat, now: int)
    ensures LoadXyz(fs[XyzSidecar(filename) := Entry(t1, c)], filename, savenpy, loadnpy, ff, now).result ==
            LoadXyz(fs[XyzSidecar(filename) := Entry(t2, c)], filename, savenpy, loadnpy, ff, now).result
  {
    var fnpy := XyzSidecar(filename);
    var fs1, fs2 := fs[fnpy := Entry(t1, c)], fs[fnpy := Entry(t2, c)];
    assert ReadLines(fs1, filename) == ReadLines(fs2, filename);
    assert LoadArray(fs1, fnpy) == LoadArray(fs2, fnpy);
  }

  /** A load that parses the source and saves the sidecar makes the next
      load that may use the cache take it, return the same dictionary and
      write nothing. */
  lemma XyzReloadHits(fs: Fs, filename: string, loadnpy: bool, ff: FloatFormat, now: int,
                      savenpy2: bool, now2: int)
    requires !(XyzSidecar(filename) in fs && loadnpy)
    requires LoadXyz(fs, filename, true, loadnpy, ff, now).result.Ok?
    ensures var r1 := LoadXyz(fs, filename, true, loadnpy, ff, now);
      var r2 := LoadXyz(r1.fs, filename, savenpy2, true, ff, now2);
      XyzSidecar(filename) in r1.fs && r2 == XyzLoaded(r1.result, r1.fs)
  {
    var fnpy := XyzSidecar(filename);
    SavedXyzSidecarFound(filename);
    var d := ReadXyz(fs, filename, ff).value;
    var r1 := LoadXyz(fs, filename, true, loadnpy, ff, now);
    assert r1.fs == SaveArray(fs, fnpy, d.pos, now);
    assert ReadLines(r1.fs, filename) == ReadLines(fs, filename);
    assert XyzFromCache(r1.fs, filename) == Ok(d);
  }

  /** The indices of the atoms whose type is selected, from k on: in
      range, strictly increasing, and an index is there exactly when its
      type is selected. */
  function SelectFrom(types: seq<string>, selected: seq<string>, k: nat): (r: seq<nat>)
    ensures forall j :: 0 <= j < |r| ==> k <= r[j] < |types|
    ensures forall i, j :: 0 <= i < j < |r| ==> r[i] < r[j]
    ensures forall i :: k <= i < |types| ==> (i in r <==> types[i] in selected)
    decreases |types| - k
  {
    if k >= |types| then []
    else
      var rest := SelectFrom(types, selected, k + 1);
      if types[k] in selected then
        var r := [k] + rest;
        assert forall j :: 1 <= j < |r| ==> r[j] == rest[j - 1];
        r
      else rest
  }

  /** `[id for id in range(len(types)) if types[id] in selected_types]`. */
  method SelectedIndices(types: seq<string>, selected: seq<string>) returns (ids: seq<nat>)
    ensures forall j :: 0 <= j < |ids| ==> ids[j] < |types|
    ensures forall i, j :: 0 <= i < j < |ids| ==> ids[i] < ids[j]
    ensures forall i :: 0 <= i < |types| ==> (i in ids <==> types[i] in selected)
  {
    ids := [];
    var id := 0;
    while id < |types|
      invariant 0 <= id <= |types|
      invariant forall j :: 0 <= j < |ids| ==> ids[j] < id
      invariant forall i, j :: 0 <= i < j < |ids| ==> ids[i] < ids[j]
      invariant forall i :: 0 <= i < id ==> (i in ids <==> types[i] in selected)
    {
      if types[id] in selected {
        ids := ids + [id];
      }
      id := id + 1;
    }
  }

  /** Two strictly increasing index lists holding the same indices are the
      same list: the loop and the recursive definition agree. */
  lemma {:induction false} IncreasingUnique(a: seq<nat>, b: seq<nat>)
    requires Increasing(a) && Increasing(b)
    requires forall x :: x in a <==> x in b
    ensures a == b
    decreases |a|
  {
    FirstIsIn(a);
    FirstIsIn(b);
    if |a| > 0 && |b| > 0 {
      SameFirst(a, b);
      SameTails(a, b);
      IncreasingUnique(a[1..], b[1..]);
      assert a == [a[0]] + a[1..];
      assert b == [b[0]] + b[1..];
    }
  }

  predicate Increasing(a: seq<nat>) {
    forall i, j :: 0 <= i < j < |a| ==> a[i] < a[j]
  }

  /** The first element of an increasing list is its least. */
  lemma FirstIsLeast(a: seq<nat>, x: nat)
    requires Increasing(a) && x in a
    ensures a[0] <= x
  {
    var k :| 0 <= k < |a| && a[k] == x;
  }

  lemma SameFirst(a: seq<nat>, b: seq<nat>)
    requires Increasing(a) && Increasing(b) && |a| > 0 && |b| > 0
    requires forall x :: x in a <==> x in b
    ensures a[0] == b[0]
  {
    assert a[0] in a && b[0] in b;
    FirstIsLeast(b, a[0]);
    FirstIsLeast(a, b[0]);
  }

  lemma SameTails(a: seq<nat>, b: seq<nat>)
    requires Increasing(a) && Increasing(b) && |a| > 0 && |b| > 0 && a[0] == b[0]
    requires forall x :: x in a <==> x in b
    ensures Increasing(a[1..]) && Increasing(b[1..])
    ensures forall x :: x in a[1..] <==> x in b[1..]
  {
    forall x
      ensures x in a[1..] ==> x in b[1..]
    {
      if x in a[1..] {
        TailMember(a, b, x);
      }
    }
    forall x
      ensures x in b[1..] ==> x in a[1..]
    {
      if x in b[1..] {
        TailMember(b, a, x);
      }
    }
  }

  lemma TailMember(a: seq<nat>, b: seq<nat>, x: nat)
    requires Increasing(a) && Increasing(b) && |a| > 0 && |b| > 0 && a[0] == b[0]
    requires forall y :: y in a <==> y in b
    requires x in a[1..]
    ensures x in b[1..]
  {
    var k :| 0 <= k < |a| - 1 && a[1..][k] == x;
    assert a[k + 1] == x && x in b;
    var m :| 0 <= m < |b| && b[m] == x;
    assert a[0] < x;
    assert m != 0;
    assert b[1..][m - 1] == x;
  }

  lemma FirstIsIn(s: seq<nat>)
    ensures |s| > 0 ==> s[0] in s
  {
  }

  lemma SelectedIndicesIsSelectFrom(types: seq<string>, selected: seq<string>, ids: seq<nat>)
    requires forall j :: 0 <= j < |ids| ==> ids[j] < |types|
    requires forall i, j :: 0 <= i < j < |ids| ==> ids[i] < ids[j]
    requires forall i :: 0 <= i < |types| ==> (i in ids <==> types[i] in selected)
    ensures ids == SelectFrom(types, selected, 0)
  {
    var r := SelectFrom(types, selected, 0);
    forall x: nat
      ensures x in ids <==> x in r
    {
      if x in ids {
        var k :| 0 <= k < |ids| && ids[k] == x;
      }
    }
    IncreasingUnique(ids, r);
  }

  /** `snap[ids]`: the rows at the given indices, in that order; an
      IndexError when one is out of range. */
  function PickRows(snap: seq<seq<real>>, ids: seq<nat>): (r: Result<seq<seq<real>>, Error>)
    ensures r.Ok? <==> forall j :: 0 <= j < |ids| ==> ids[j] < |snap|
    ensures r.Ok? ==> |r.value| == |ids| && forall j :: 0 <= j < |ids| ==> r.value[j] == snap[ids[j]]
    ensures r.Err? ==> r.error == IndexOutOfRange
  {
    if forall j :: 0 <= j < |ids| ==> ids[j] < |snap| then
      Ok(seq(|ids|, j requires 0 <= j < |ids| => snap[ids[j]]))
    else Err(IndexOutOfRange)
  }

  /** `np.array([snap[ids] for snap in pos])`: every snapshot must have a
      row at every index. */
  function PickAll(pos: Array3, ids: seq<nat>): (r: Result<Array3, Error>)
    ensures r.Ok? <==> forall s, j :: 0 <= s < |pos| && 0 <= j < |ids| ==> ids[j] < |pos[s]|
    ensures r.Ok? ==> |r.value| == |pos|
    ensures r.Ok? ==> forall s :: 0 <= s < |pos| ==>
      |r.value[s]| == |ids| &&
      forall j :: 0 <= j < |ids| ==> ids[j] < |pos[s]| && r.value[s][j] == pos[s][ids[j]]
  {
    if |pos| == 0 then Ok([])
    else
      var first :- PickRows(pos[0], ids);
      assert forall s :: 1 <= s < |pos| ==> pos[s] == pos[1..][s - 1];
      var rest :- PickAll(pos[1..], ids);
      var r := [first] + rest;
      assert forall s :: 1 <= s < |pos| ==> r[s] == rest[s - 1];
      Ok(r)
  }

  /** `load_pos_of_type(filename, selected_types, savenpy, loadnpy)`: the
      positions of the atoms whose type is selected, in atom order.  The
      `loadnpy` argument is not used: `savenpy` is passed in its place. */
  function LoadPosOfType(fs: Fs, filename: string, selected: seq<string>, savenpy: bool, loadnpy: bool,
                         ff: FloatFormat, now: int): (r: (Result<Array3, Error>, Fs))
    ensures r.1 == LoadXyz(fs, filename, savenpy, savenpy, ff, now).fs
    ensures LoadXyz(fs, filename, savenpy, savenpy, ff, now).result.Err? ==>
      r.0 == Err(LoadXyz(fs, filename, savenpy, savenpy, ff, now).result.error)
    ensures LoadXyz(fs, filename, savenpy, savenpy, ff, now).result.Ok? ==>
      var xyz := LoadXyz(fs, filename, savenpy, savenpy, ff, now).result.value;
      var ids := SelectFrom(xyz.types, selected, 0);
      (r.0.Ok? <==> forall s, j :: 0 <= s < |xyz.pos| && 0 <= j < |ids| ==> ids[j] < |xyz.pos[s]|) &&
      (r.0.Ok? ==>
        |r.0.value| == |xyz.pos| &&
        forall s :: 0 <= s < |xyz.pos| ==>
          |r.0.value[s]| == |ids| &&
          forall j :: 0 <= j < |ids| ==> ids[j] < |xyz.pos[s]| && r.0.value[s][j] == xyz.pos[s][ids[j]])
  {
    var l := LoadXyz(fs, filename, savenpy, savenpy, ff, now);
    match l.result
    case Err(e) => (Err(e), l.fs)
    case Ok(xyz) =>
      var ids := SelectFrom(xyz.types, selected, 0);
      PickAllShape(xyz.pos, ids);
      (PickAll(xyz.pos, ids), l.fs)
  }

  lemma PickAllShape(pos: Array3, ids: seq<nat>)
    ensures PickAll(pos, ids).Ok? <==> forall s, j :: 0 <= s < |pos| && 0 <= j < |ids| ==> ids[j] < |pos[s]|
    ensures PickAll(pos, ids).Ok? ==> |PickAll(pos, ids).value| == |pos|
  {
  }

  /** Whatever `loadnpy` is, the result is the same. */
  lemma LoadPosIgnoresLoadnpy(fs: Fs, filename: string, selected: seq<string>, savenpy: bool,
                              ff: FloatFormat, now: int)
    ensures LoadPosOfType(fs, filename, selected, savenpy, true, ff, now) ==
            LoadPosOfType(fs, filename, selected, savenpy, false, ff, now)
  {
  }
}

=== FILE: xyzread.dfy ===
/** Reading the XYZ trajectory format: a snapshot is a run of lines with
    at least four words, the first of which is an atom type and the next
    three its coordinates.  Lines with fewer words (the atom count, the
    'Atoms. Timestep:' comment) separate the runs. */
module XyzRead {
  import opened Wrappers
  import opened Errors
  import opened PyStr
  import opened PyFloat
  import opened FileSys

  /** `read_xyz`'s dictionary: 'pos' ([snapshot][atom][x, y, z]) and
      'types' (the atom types of the first snapshot). */
  datatype XyzDict = XyzDict(pos: Array3, types: seq<string>)

  /** `_linelist(line)`: the words of the stripped line split on single
      spaces, with the empty words dropped. */
  function LineList(line: string): seq<string> {
    DropEmpty(Split(Strip(line), ' '))
  }

  /** Every word is non-empty and holds no space. */
  lemma LineListWords(line: string)
    ensures forall i :: 0 <= i < |LineList(line)| ==> LineList(line)[i] != "" && ' ' !in LineList(line)[i]
  {
    var r := LineList(line);
    assert forall i :: 0 <= i < |r| ==> r[i] in Split(Strip(line), ' ');
  }

  /** Words joined by single spaces are split back into the same words. */
  lemma LineListJoin(ts: seq<string>)
    requires AllTokens(ts)
    ensures LineList(Join(ts, ' ')) == ts
  {
    if |ts| == 0 {
      assert Strip("") == "";
      assert Split("", ' ') == [""];
      var r := DropEmpty([""]);
      assert forall i :: 0 <= i < |r| ==> r[i] in [""];
    } else {
      SplitStripJoin(ts);
      DropEmptyUnchanged(ts);
    }
  }

  /** `_linelist` of every line of a file. */
  function WordLists(lines: seq<string>): (r: seq<seq<string>>)
    ensures |r| == |lines|
    ensures forall i :: 0 <= i < |lines| ==> r[i] == LineList(lines[i])
  {
    seq(|lines|, i requires 0 <= i < |lines| => LineList(lines[i]))
  }

  lemma WordListsConcat(a: seq<string>, b: seq<string>)
    ensures WordLists(a + b) == WordLists(a) + WordLists(b)
  {
  }

  /** The words of a line that starts a snapshot when met outside one. */
  predicate StartsSnapshot(ll: seq<string>) {
    |ll| >= 4 && ll[0] != "Atoms."
  }

  /** The number of row lines at the head of `rest`: the inner loop of
      `read_xyz` reads them and stops at the first line that is not one. */
  function RunLength(rest: seq<seq<string>>): (n: nat)
    ensures n <= |rest|
    ensures forall k :: 0 <= k < n ==> |rest[k]| >= 4
    ensures n < |rest| ==> |rest[n]| < 4
  {
    if |rest| > 0 && |rest[0]| >= 4 then 1 + RunLength(rest[1..]) else 0
  }

  /** Any prefix of row lines followed by a non-row line or the end is
      the run. */
  lemma RunLengthIs(rest: seq<seq<string>>, m: nat)
    requires m <= |rest|
    requires forall k :: 0 <= k < m ==> |rest[k]| >= 4
    requires m < |rest| ==> |rest[m]| < 4
    ensures RunLength(rest) == m
  {
  }

  /** What is left after a run of n rows: the loop has also read the line
      that ended the run, and reads the next one. */
  function AfterRun(rest: seq<seq<string>>, n: nat): (r: seq<seq<string>>)
    requires n <= |rest|
    ensures |r| < |rest| - n || (r == [] && n == |rest|)
    ensures n < |rest| ==> r == rest[n + 1..]
  {
    if n < |rest| then rest[n + 1..] else []
  }

  /** `[float(ft) for ft in ll[1:4]]` for the words of one row. */
  function ParseRow(ll: seq<string>, ff: FloatFormat): (r: Result<seq<real>, Error>)
    requires |ll| >= 4
    ensures r.Ok? <==> ff.parse(ll[1]).Some? && ff.parse(ll[2]).Some? && ff.parse(ll[3]).Some?
    ensures r.Ok? ==> |r.value| == 3
    ensures r.Ok? ==> ff.parse(ll[1]) == Some(r.value[0]) && ff.parse(ll[2]) == Some(r.value[1]) && ff.parse(ll[3]) == Some(r.value[2])
    ensures r.Err? ==> r.error == NotAFloat
  {
    if ff.parse(ll[1]).None? || ff.parse(ll[2]).None? || ff.parse(ll[3]).None? then Err(NotAFloat)
    else Ok([ff.parse(ll[1]).value, ff.parse(ll[2]).value, ff.parse(ll[3]).value])
  }

  /** The rows of one run, parsed in order; the first bad word stops the read. */
  function ParseRows(rows: seq<seq<string>>, ff: FloatFormat): (r: Result<seq<seq<real>>, Error>)
    requires forall k :: 0 <= k < |rows| ==> |rows[k]| >= 4
    ensures r.Ok? <==> forall k :: 0 <= k < |rows| ==> ParseRow(rows[k], ff).Ok?
    ensures r.Ok? ==> |r.value| == |rows|
    ensures r.Ok? ==> forall k :: 0 <= k < |rows| ==> ParseRow(rows[k], ff) == Ok(r.value[k])
    ensures r.Err? ==> r.error == NotAFloat
  {
    if |rows| == 0 then Ok([])
    else
      var row :- ParseRow(rows[0], ff);
      assert forall k :: 1 <= k < |rows| ==> rows[k] == rows[1..][k - 1];
      var more :- ParseRows(rows[1..], ff);
      Ok([row] + more)
  }

  /** The snapshots `read_xyz` collects from the word lists of the
      remaining lines. */
  function ReadXyzWords(rest: seq<seq<string>>, ff: FloatFormat): (r: Result<Array3, Error>)
    ensures r.Ok? ==> forall s :: 0 <= s < |r.value| ==> |r.value[s]| > 0
    ensures r.Ok? ==> forall s, a :: 0 <= s < |r.value| && 0 <= a < |r.value[s]| ==> |r.value[s][a]| == 3
    ensures r.Err? ==> r.error == NotAFloat
    decreases |rest|
  {
    if |rest| == 0 then Ok([])
    else if StartsSnapshot(rest[0]) then
      var n := RunLength(rest);
      var snap :- ParseRows(rest[..n], ff);
      var more :- ReadXyzWords(AfterRun(rest, n), ff);
      Ok([snap] + more)
    else ReadXyzWords(rest[1..], ff)
  }

  /** A line that does not start a snapshot is passed over. */
  lemma SkipLine(ll: seq<string>, rest: seq<seq<string>>, ff: FloatFormat)
    requires !StartsSnapshot(ll)
    ensures ReadXyzWords([ll] + rest, ff) == ReadXyzWords(rest, ff)
  {
    assert ([ll] + rest)[1..] == rest;
  }

  /** A run of rows followed by the end or a line that is not a row is
      one snapshot; the line after the run is passed over. */
  lemma ReadRun(rows: seq<seq<string>>, tail: seq<seq<string>>, ff: FloatFormat)
    requires |rows| > 0 && StartsSnapshot(rows[0])
    requires forall k :: 0 <= k < |rows| ==> |rows[k]| >= 4
    requires |tail| > 0 ==> |tail[0]| < 4
    requires ParseRows(rows, ff).Ok?
    ensures ReadXyzWords(rows + tail, ff) ==
      match ReadXyzWords(if |tail| > 0 then tail[1..] else [], ff)
      case Ok(more) => Ok([ParseRows(rows, ff).value] + more)
      case Err(e) => Err(e)
  {
    var rest := rows + tail;
    assert rest[0] == rows[0];
    assert forall k :: 0 <= k < |rows| ==> rest[k] == rows[k];
    assert |tail| > 0 ==> rest[|rows|] == tail[0];
    RunLengthIs(rest, |rows|);
    assert rest[..|rows|] == rows;
    assert |tail| > 0 ==> AfterRun(rest, |rows|) == tail[1..];
  }

  /** With no line that starts a snapshot, there are no snapshots and no
      error; conversely an empty result means no line starts one. */
  lemma {:induction false} NoSnapshots(rest: seq<seq<string>>, ff: FloatFormat)
    ensures (forall k :: 0 <= k < |rest| ==> !StartsSnapshot(rest[k])) ==> ReadXyzWords(rest, ff) == Ok([])
    ensures ReadXyzWords(rest, ff) == Ok([]) ==> forall k :: 0 <= k < |rest| ==> !StartsSnapshot(rest[k])
    decreases |rest|
  {
    if |rest| > 0 && !StartsSnapshot(rest[0]) {
      NoSnapshots(rest[1..], ff);
      assert forall k :: 1 <= k < |rest| ==> rest[k] == rest[1..][k - 1];
    }
  }

  /** The first words of row lines. */
  function FirstWords(rows: seq<seq<string>>): (r: seq<string>)
    requires forall k :: 0 <= k < |rows| ==> |rows[k]| >= 4
    ensures |r| == |rows|
    ensures forall k :: 0 <= k < |rows| ==> r[k] == rows[k][0]
  {
    seq(|rows|, k requires 0 <= k < |rows| => rows[k][0])
  }

  /** The atom types `read_xyz_atomtypes` returns: the first word of every
      row of the first snapshot. */
  function AtomTypesOf(rest: seq<seq<string>>): (r: seq<string>)
    decreases |rest|
  {
    if |rest| == 0 then []
    else if StartsSnapshot(rest[0]) then FirstWords(rest[..RunLength(rest)])
    else AtomTypesOf(rest[1..])
  }

  lemma FirstWordsSnoc(rows: seq<seq<string>>, row: seq<string>)
    requires forall k :: 0 <= k < |rows| ==> |rows[k]| >= 4
    requires |row| >= 4
    ensures FirstWords(rows + [row]) == FirstWords(rows) + [row[0]]
  {
  }

  /** Where a snapshot starts, the atom types are its first words. */
  lemma AtomTypesAtRun(ws: seq<seq<string>>, start: nat, end: nat)
    requires start < end <= |ws| && StartsSnapshot(ws[start])
    requires forall k :: start <= k < end ==> |ws[k]| >= 4
    requires end < |ws| ==> |ws[end]| < 4
    ensures AtomTypesOf(ws[start..]) == FirstWords(ws[start..end])
  {
    var rest := ws[start..];
    assert rest[0] == ws[start];
    assert forall k :: 0 <= k < end - start ==> rest[k] == ws[start + k];
    RunLengthIs(rest, end - start);
    assert rest[..end - start] == ws[start..end];
  }

  /** A line that does not start a snapshot is passed over. */
  lemma AtomTypesSkip(ws: seq<seq<string>>, pos: nat)
    requires pos < |ws| && !StartsSnapshot(ws[pos])
    ensures AtomTypesOf(ws[pos..]) == AtomTypesOf(ws[pos + 1..])
  {
    assert ws[pos..][0] == ws[pos];
    assert ws[pos..][1..] == ws[pos + 1..];
  }

  /** The same, for a line put in front. */
  lemma AtomTypesCons(ll: seq<string>, rest: seq<seq<string>>)
    requires !StartsSnapshot(ll)
    ensures AtomTypesOf([ll] + rest) == AtomTypesOf(rest)
  {
    assert ([ll] + rest)[1..] == rest;
  }

  /** A run of rows followed by the end or a line that is not a row: the
      atom types are the rows' first words. */
  lemma AtomTypesRun(rows: seq<seq<string>>, tail: seq<seq<string>>)
    requires |rows| > 0 && StartsSnapshot(rows[0])
    requires forall k :: 0 <= k < |rows| ==> |rows[k]| >= 4
    requires |tail| > 0 ==> |tail[0]| < 4
    ensures AtomTypesOf(rows + tail) == FirstWords(rows)
  {
    var rest := rows + tail;
    assert rest[0] == rows[0];
    assert forall k :: 0 <= k < |rows| ==> rest[k] == rows[k];
    RunLengthIs(rest, |rows|);
    assert rest[..|rows|] == rows;
  }

  /** `read_xyz_atomtypes` as its loop runs, on the word lists of the
      file's lines: it counts the snapshots it meets and stops at the
      second. */
  method ReadXyzAtomTypes(ws: seq<seq<string>>) returns (types: seq<string>)
    ensures types == AtomTypesOf(ws)
  {
    var pos := 0;
    var num := 0;
    types := [];
    while pos < |ws|
      invariant 0 <= pos <= |ws| && 0 <= num <= 1
      invariant num == 0 ==> types == [] && AtomTypesOf(ws[pos..]) == AtomTypesOf(ws)
      invariant num == 1 ==> types == AtomTypesOf(ws)
      decreases |ws| - pos
    {
      var ll := ws[pos];
      if |ll| >= 4 && ll[0] != "Atoms." {
        num := num + 1;
        if num > 1 {
          break;
        }
        var start := pos;
        while pos < |ws| && |ws[pos]| >= 4
          invariant start <= pos <= |ws|
          invariant forall k :: start <= k < pos ==> |ws[k]| >= 4
          invariant types == FirstWords(ws[start..pos])
          decreases |ws| - pos
        {
          assert ws[start..pos + 1] == ws[start..pos] + [ws[pos]];
          FirstWordsSnoc(ws[start..pos], ws[pos]);
          types := types + [ws[pos][0]];
          pos := pos + 1;
        }
        AtomTypesAtRun(ws, start, pos);
      } else {
        AtomTypesSkip(ws, pos);
      }
      if pos < |ws| {
        pos := pos + 1;
      }
    }
  }

  /** `read_xyz_atomtypes` gives one type per row of the first snapshot
      `read_xyz` reads. */
  lemma {:induction false} AtomTypesMatchFirst(rest: seq<seq<string>>, ff: FloatFormat)
    requires ReadXyzWords(rest, ff).Ok? && |ReadXyzWords(rest, ff).value| > 0
    ensures |AtomTypesOf(rest)| == |ReadXyzWords(rest, ff).value[0]|
    decreases |rest|
  {
    if !StartsSnapshot(rest[0]) {
      AtomTypesMatchFirst(rest[1..], ff);
    }
  }

  /** `read_xyz(filename)`: the snapshots and the atom types. */
  function ReadXyz(fs: Fs, filename: string, ff: FloatFormat): (r: Result<XyzDict, Error>)
    ensures filename !in fs ==> r == Err(FileNotFound(filename))
    ensures r.Ok? ==> ReadLines(fs, filename).Ok?
    ensures r.Ok? ==> ReadXyzWords(WordLists(ReadLines(fs, filename).value), ff) == Ok(r.value.pos)
    ensures r.Ok? ==> r.value.types == AtomTypesOf(WordLists(ReadLines(fs, filename).value))
  {
    var lines :- ReadLines(fs, filename);
    var ws := WordLists(lines);
    var pos :- ReadXyzWords(ws, ff);
    Ok(XyzDict(pos, AtomTypesOf(ws)))
  }
}

=== FILE: xyzroundtrip.dfy ===
/** What reading back the output of `write_xyz` gives: as many snapshots
    as were written, each with the written atom count, each coordinate
    what `float()` makes of its `'%.4f'` text, and the written types. */
module XyzRoundTrip {
  import opened Wrappers
  import opened Errors
  import opened PyStr
  import opened PyInt
  import opened PyFloat
  import opened FileSys
  import opened Output
  import opened XyzRead
  import opened XyzWrite

  lemma CommentWords()
    ensures IsToken("Atoms.") && IsToken("Timestep:")
  {
    assert IsToken("Atoms.");
    assert IsToken("Timestep:");
  }

  /** The comment line splits into "Atoms.", "Timestep:" and the index. */
  lemma TimestepWords(s: int)
    ensures LineList(TimestepLine(s)) == ["Atoms.", "Timestep:", Show(s)]
  {
    CommentWords();
    ShowToken(s);
    var ts := ["Atoms.", "Timestep:", Show(s)];
    assert AllTokens(ts);
    JoinThree("Atoms.", "Timestep:", Show(s));
    assert "Atoms." + " " + "Timestep:" + " " == "Atoms. Timestep: ";
    LineListJoin(ts);
  }

  lemma JoinThree(a: string, b: string, c: string)
    ensures Join([a, b, c], ' ') == a + " " + b + " " + c
  {
    assert [a, b, c][1..] == [b, c];
    assert [b, c][1..] == [c];
    assert Join([b, c], ' ') == b + [' '] + c;
    assert Join([a, b, c], ' ') == a + [' '] + (b + [' '] + c);
  }

  /** The atom-count line is one word. */
  lemma CountWords(n: int)
    ensures LineList(Show(n)) == [Show(n)]
  {
    ShowToken(n);
    assert Join([Show(n)], ' ') == Show(n);
    LineListJoin([Show(n)]);
  }

  /** An atom line splits into the type and the three formatted numbers. */
  lemma AtomWords(t: string, p: seq<real>, ff: FloatFormat)
    requires FixedParses(ff) && IsToken(t) && |p| >= 3
    ensures LineList(AtomLine(t, p, ff)) == RowWords(t, p, ff)
  {
    var ws := RowWords(t, p, ff);
    FixedAt(ff, p[0]);
    FixedAt(ff, p[1]);
    FixedAt(ff, p[2]);
    assert AllTokens(ws);
    LineListJoin(ws);
  }

  /** The word lists of a snapshot's atom lines. */
  function RowsOf(snap: seq<seq<real>>, types: seq<string>, nbp: nat, ff: FloatFormat): (r: seq<seq<string>>)
    requires SnapWritable(snap, types, nbp)
    ensures |r| == nbp
    ensures forall i :: 0 <= i < nbp ==> |r[i]| == 4 && r[i] == RowWords(types[i], snap[i], ff)
  {
    seq(nbp, i requires 0 <= i < nbp => RowWords(types[i], snap[i], ff))
  }

  /** The word lists of the lines of snapshot s. */
  function SnapshotWords(snap: seq<seq<real>>, types: seq<string>, nbp: nat, s: nat, ff: FloatFormat): (r: seq<seq<string>>)
    requires SnapWritable(snap, types, nbp)
    ensures |r| == nbp + 2
  {
    [[Show(nbp)], ["Atoms.", "Timestep:", Show(s)]] + RowsOf(snap, types, nbp, ff)
  }

  function XyzWordLists(pos: Array3, types: seq<string>, nbp: nat, from: nat, ff: FloatFormat): seq<seq<string>>
    requires forall s :: from <= s < |pos| ==> SnapWritable(pos[s], types, nbp)
    decreases |pos| - from
  {
    if from >= |pos| then []
    else SnapshotWords(pos[from], types, nbp, from, ff) + XyzWordLists(pos, types, nbp, from + 1, ff)
  }

  /** The atom lines of a snapshot split into their row words. */
  lemma RowWordsOf(snap: seq<seq<real>>, types: seq<string>, nbp: nat, ff: FloatFormat)
    requires FixedParses(ff) && SnapWritable(snap, types, nbp) && AllTokens(types[..nbp])
    ensures WordLists(seq(nbp, i requires 0 <= i < nbp => AtomLine(types[i], snap[i], ff))) ==
            RowsOf(snap, types, nbp, ff)
  {
    var lines := seq(nbp, i requires 0 <= i < nbp => AtomLine(types[i], snap[i], ff));
    var ws := WordLists(lines);
    forall i | 0 <= i < nbp
      ensures ws[i] == RowWords(types[i], snap[i], ff)
    {
      assert types[..nbp][i] == types[i];
      AtomWords(types[i], snap[i], ff);
    }
  }

  lemma SnapshotWordsOf(snap: seq<seq<real>>, types: seq<string>, nbp: nat, s: nat, ff: FloatFormat)
    requires FixedParses(ff) && SnapWritable(snap, types, nbp) && AllTokens(types[..nbp])
    ensures WordLists(SnapshotLines(snap, types, nbp, s, ff)) == SnapshotWords(snap, types, nbp, s, ff)
  {
    var head := [Show(nbp), TimestepLine(s)];
    var rows := seq(nbp, i requires 0 <= i < nbp => AtomLine(types[i], snap[i], ff));
    assert SnapshotLines(snap, types, nbp, s, ff) == head + rows;
    HeadWords(nbp, s);
    RowWordsOf(snap, types, nbp, ff);
    WordListsConcat(head, rows);
  }

  /** The count line and the comment line of snapshot s split into their words. */
  lemma HeadWords(nbp: nat, s: nat)
    ensures WordLists([Show(nbp), TimestepLine(s)]) == [[Show(nbp)], ["Atoms.", "Timestep:", Show(s)]]
  {
    WordListsPair(Show(nbp), TimestepLine(s));
    CountWords(nbp);
    TimestepWords(s);
  }

  lemma WordListsPair(a: string, b: string)
    ensures WordLists([a, b]) == [LineList(a), LineList(b)]
  {
    var w := WordLists([a, b]);
    assert w[0] == LineList(a) && w[1] == LineList(b);
  }

  lemma {:induction false} XyzWordsOf(pos: Array3, types: seq<string>, nbp: nat, from: nat, ff: FloatFormat)
    requires FixedParses(ff) && nbp <= |types| && AllTokens(types[..nbp])
    requires forall s :: from <= s < |pos| ==> SnapWritable(pos[s], types, nbp)
    ensures WordLists(XyzLines(pos, types, nbp, from, ff)) == XyzWordLists(pos, types, nbp, from, ff)
    decreases |pos| - from
  {
    if from < |pos| {
      XyzWordsOf(pos, types, nbp, from + 1, ff);
      SnapshotWordsOf(pos[from], types, nbp, from, ff);
      WordListsConcat(SnapshotLines(pos[from], types, nbp, from, ff), XyzLines(pos, types, nbp, from + 1, ff));
    }
  }

  /** The rows read back for a snapshot: nbp of them, each holding what
      `float()` gives for the `'%.4f'` texts of the snapshot's first nbp
      positions. */
  predicate SnapReadBack(rows: seq<seq<real>>, snap: seq<seq<real>>, nbp: nat, ff: FloatFormat) {
    |rows| == nbp && nbp <= |snap| &&
    forall i :: 0 <= i < nbp ==>
      |rows[i]| == 3 && |snap[i]| >= 3 &&
      ff.parse(ff.fixed4(snap[i][0])) == Some(rows[i][0]) &&
      ff.parse(ff.fixed4(snap[i][1])) == Some(rows[i][1]) &&
      ff.parse(ff.fixed4(snap[i][2])) == Some(rows[i][2])
  }

  lemma SnapshotParses(snap: seq<seq<real>>, types: seq<string>, nbp: nat, ff: FloatFormat)
    requires FixedParses(ff) && SnapWritable(snap, types, nbp)
    ensures var rows := RowsOf(snap, types, nbp, ff);
      ParseRows(rows, ff).Ok? && SnapReadBack(ParseRows(rows, ff).value, snap, nbp, ff)
  {
    var rows := RowsOf(snap, types, nbp, ff);
    forall i | 0 <= i < nbp
      ensures ParseRow(rows[i], ff).Ok?
    {
      FixedAt(ff, snap[i][0]);
      FixedAt(ff, snap[i][1]);
      FixedAt(ff, snap[i][2]);
    }
  }

  /** A block of two lines that start no snapshot, then rows, then
      lines that begin with the first of those two again (or nothing),
      reads back as one snapshot followed by what the rest reads back as. */
  lemma ReadBlock(h1: seq<string>, h2: seq<string>, rows: seq<seq<string>>, tail: seq<seq<string>>, ff: FloatFormat)
    requires |h1| < 4 && !StartsSnapshot(h2)
    requires |rows| > 0 && StartsSnapshot(rows[0])
    requires forall k :: 0 <= k < |rows| ==> |rows[k]| >= 4
    requires ParseRows(rows, ff).Ok?
    requires |tail| > 0 ==> tail[0] == h1
    ensures ReadXyzWords([h1] + ([h2] + (rows + tail)), ff) ==
      match ReadXyzWords(tail, ff)
      case Ok(more) => Ok([ParseRows(rows, ff).value] + more)
      case Err(e) => Err(e)
  {
    SkipLine(h1, [h2] + (rows + tail), ff);
    SkipLine(h2, rows + tail, ff);
    ReadRun(rows, tail, ff);
    if |tail| > 0 {
      assert tail == [h1] + tail[1..];
      SkipLine(h1, tail[1..], ff);
    }
  }

  /** The written word lists from `from` on, taken apart. */
  lemma WordListsAt(pos: Array3, types: seq<string>, nbp: nat, from: nat, ff: FloatFormat)
    requires from < |pos| && SnapWritable(pos[from], types, nbp)
    requires forall s :: from <= s < |pos| ==> SnapWritable(pos[s], types, nbp)
    ensures XyzWordLists(pos, types, nbp, from, ff) ==
      [[Show(nbp)]] + ([["Atoms.", "Timestep:", Show(from)]] + (RowsOf(pos[from], types, nbp, ff) + XyzWordLists(pos, types, nbp, from + 1, ff)))
    ensures XyzWordLists(pos, types, nbp, from, ff)[0] == [Show(nbp)]
  {
    var h1: seq<string> := [Show(nbp)];
    var h2 := ["Atoms.", "Timestep:", Show(from)];
    var rows := RowsOf(pos[from], types, nbp, ff);
    assert SnapshotWords(pos[from], types, nbp, from, ff) == [h1, h2] + rows;
    RegroupBlock(h1, h2, rows, XyzWordLists(pos, types, nbp, from + 1, ff));
  }

  lemma RegroupBlock<T>(a: T, b: T, c: seq<T>, d: seq<T>)
    ensures ([a, b] + c) + d == [a] + ([b] + (c + d))
  {
    var l, r := ([a, b] + c) + d, [a] + ([b] + (c + d));
    forall i | 0 <= i < |l|
      ensures l[i] == r[i]
    {
      if i >= 2 {
        assert l[i] == (c + d)[i - 2];
      }
    }
  }

  /** One written snapshot reads back as one snapshot, followed by what
      the later ones read back as. */
  lemma ReadOneWritten(pos: Array3, types: seq<string>, nbp: nat, from: nat, ff: FloatFormat)
    requires FixedParses(ff) && nbp >= 1 && |types| > 0 && types[0] != "Atoms."
    requires from < |pos| && SnapWritable(pos[from], types, nbp)
    requires forall s :: from <= s < |pos| ==> SnapWritable(pos[s], types, nbp)
    ensures var rows := RowsOf(pos[from], types, nbp, ff);
      ParseRows(rows, ff).Ok? &&
      ReadXyzWords(XyzWordLists(pos, types, nbp, from, ff), ff) ==
        match ReadXyzWords(XyzWordLists(pos, types, nbp, from + 1, ff), ff)
        case Ok(more) => Ok([ParseRows(rows, ff).value] + more)
        case Err(e) => Err(e)
  {
    var rows := RowsOf(pos[from], types, nbp, ff);
    var tail := XyzWordLists(pos, types, nbp, from + 1, ff);
    SnapshotParses(pos[from], types, nbp, ff);
    WordListsAt(pos, types, nbp, from, ff);
    if from + 1 < |pos| {
      assert SnapWritable(pos[from + 1], types, nbp);
      WordListsAt(pos, types, nbp, from + 1, ff);
    }
    assert rows[0] == RowWords(types[0], pos[from][0], ff);
    ReadBlock([Show(nbp)], ["Atoms.", "Timestep:", Show(from)], rows, tail, ff);
  }

  /** Every snapshot read back matches the written snapshot at the same
      place, counting from `from`. */
  predicate AllReadBack(rs: seq<seq<seq<real>>>, pos: Array3, from: nat, nbp: nat, ff: FloatFormat)
    decreases |rs|
  {
    from + |rs| <= |pos| &&
    (|rs| > 0 ==> SnapReadBack(rs[0], pos[from], nbp, ff) && AllReadBack(rs[1..], pos, from + 1, nbp, ff))
  }

  lemma {:induction false} AllReadBackAt(rs: seq<seq<seq<real>>>, pos: Array3, from: nat, nbp: nat, ff: FloatFormat)
    requires AllReadBack(rs, pos, from, nbp, ff)
    ensures forall s :: 0 <= s < |rs| ==> SnapReadBack(rs[s], pos[from + s], nbp, ff)
    decreases |rs|
  {
    if |rs| > 0 {
      AllReadBackAt(rs[1..], pos, from + 1, nbp, ff);
      forall s | 1 <= s < |rs|
        ensures SnapReadBack(rs[s], pos[from + s], nbp, ff)
      {
        assert rs[s] == rs[1..][s - 1];
      }
    }
  }

  /** Reading the word lists of the written snapshots from `from` on. */
  lemma {:induction false} ReadWritten(pos: Array3, types: seq<string>, nbp: nat, from: nat, ff: FloatFormat)
    requires FixedParses(ff) && nbp >= 1 && |types| > 0 && types[0] != "Atoms."
    requires from <= |pos|
    requires forall s :: from <= s < |pos| ==> SnapWritable(pos[s], types, nbp)
    ensures var r := ReadXyzWords(XyzWordLists(pos, types, nbp, from, ff), ff);
      r.Ok? && |r.value| == |pos| - from && AllReadBack(r.value, pos, from, nbp, ff)
    decreases |pos| - from
  {
    if from < |pos| {
      assert SnapWritable(pos[from], types, nbp);
      var rows := RowsOf(pos[from], types, nbp, ff);
      ReadWritten(pos, types, nbp, from + 1, ff);
      ReadOneWritten(pos, types, nbp, from, ff);
      SnapshotParses(pos[from], types, nbp, ff);
      var p := ParseRows(rows, ff).value;
      var more := ReadXyzWords(XyzWordLists(pos, types, nbp, from + 1, ff), ff).value;
      assert ReadXyzWords(XyzWordLists(pos, types, nbp, from, ff), ff) == Ok([p] + more);
      AllReadBackCons(p, more, pos, from, nbp, ff);
    }
  }

  lemma AllReadBackCons(p: seq<seq<real>>, more: seq<seq<seq<real>>>, pos: Array3, from: nat, nbp: nat, ff: FloatFormat)
    requires from < |pos| && SnapReadBack(p, pos[from], nbp, ff) && AllReadBack(more, pos, from + 1, nbp, ff)
    ensures AllReadBack([p] + more, pos, from, nbp, ff)
  {
    var r := [p] + more;
    assert r[0] == p && r[1..] == more;
  }

  /** The atom types of a block of two lines that start no snapshot,
      then rows, then the end or a line that is not a row, are the rows'
      first words. */
  lemma TypesOfBlock(h1: seq<string>, h2: seq<string>, rows: seq<seq<string>>, tail: seq<seq<string>>)
    requires |h1| < 4 && !StartsSnapshot(h2)
    requires |rows| > 0 && StartsSnapshot(rows[0])
    requires forall k :: 0 <= k < |rows| ==> |rows[k]| >= 4
    requires |tail| > 0 ==> |tail[0]| < 4
    ensures AtomTypesOf([h1] + ([h2] + (rows + tail))) == FirstWords(rows)
  {
    AtomTypesCons(h1, [h2] + (rows + tail));
    AtomTypesCons(h2, rows + tail);
    AtomTypesRun(rows, tail);
  }

  /** The types read back are those of the first snapshot's atoms. */
  lemma TypesWritten(pos: Array3, types: seq<string>, nbp: nat, ff: FloatFormat)
    requires nbp >= 1 && |pos| > 0 && |types| > 0 && types[0] != "Atoms."
    requires forall s :: 0 <= s < |pos| ==> SnapWritable(pos[s], types, nbp)
    ensures AtomTypesOf(XyzWordLists(pos, types, nbp, 0, ff)) == types[..nbp]
  {
    assert SnapWritable(pos[0], types, nbp);
    var rows := RowsOf(pos[0], types, nbp, ff);
    var tail := XyzWordLists(pos, types, nbp, 1, ff);
    WordListsAt(pos, types, nbp, 0, ff);
    if 1 < |pos| {
      assert SnapWritable(pos[1], types, nbp);
      WordListsAt(pos, types, nbp, 1, ff);
    }
    assert rows[0] == RowWords(types[0], pos[0][0], ff);
    TypesOfBlock([Show(nbp)], ["Atoms.", "Timestep:", Show(0)], rows, tail);
    assert FirstWords(rows) == types[..nbp];
  }

  /** The word lists of everything written read back as `len(pos)`
      snapshots matching the written ones, with the first snapshot's types. */
  lemma ReadAllWritten(pos: Array3, types: seq<string>, nbp: nat, ff: FloatFormat)
    requires FixedParses(ff) && nbp >= 1 && |pos| > 0 && |types| > 0 && types[0] != "Atoms."
    requires forall s :: 0 <= s < |pos| ==> SnapWritable(pos[s], types, nbp)
    ensures var ws := XyzWordLists(pos, types, nbp, 0, ff);
      var r := ReadXyzWords(ws, ff);
      r.Ok? && |r.value| == |pos| && AtomTypesOf(ws) == types[..nbp] &&
      forall s :: 0 <= s < |pos| ==> SnapReadBack(r.value[s], pos[s], nbp, ff)
  {
    var ws := XyzWordLists(pos, types, nbp, 0, ff);
    ReadWritten(pos, types, nbp, 0, ff);
    var r := ReadXyzWords(ws, ff);
    assert r.Ok? && |r.value| == |pos|;
    AllReadBackAt(r.value, pos, 0, nbp, ff);
    TypesWritten(pos, types, nbp, ff);
  }

  /** Reading back a file `write_xyz` wrote gives `len(pos)` snapshots of
      `len(pos[0])` rows, each coordinate what `float()` makes of its
      `'%.4f'` text, and the types of those atoms.  This needs at least
      one atom, types that are single words, and a first type other than
      "Atoms.", which would hide the first snapshot. */
  lemma WriteThenReadXyz(fs: Fs, outfn: string, pos: Array3, types: seq<string>, addExtension: bool,
                         ff: FloatFormat, now: int)
    requires FixedParses(ff)
    requires |pos| > 0 && |pos[0]| >= 1
    requires forall s :: 0 <= s < |pos| ==> SnapWritable(pos[s], types, |pos[0]|)
    requires |pos[0]| <= |types| && AllTokens(types[..|pos[0]|]) && types[0] != "Atoms."
    ensures var w := WriteXyz(outfn, pos, types, addExtension, ff);
      w.error.None? && w.file.Some? &&
      var r := ReadXyz(fs[w.file.value.path := Entry(now, Text(w.file.value.lines))], w.file.value.path, ff);
      r.Ok? && |r.value.pos| == |pos| && r.value.types == types[..|pos[0]|] &&
      forall s :: 0 <= s < |pos| ==> SnapReadBack(r.value.pos[s], pos[s], |pos[0]|, ff)
  {
    var nbp := |pos[0]|;
    assert SnapWritable(pos[0], types, nbp);
    WriteXyzLines(outfn, pos, types, addExtension, ff);
    XyzWordsOf(pos, types, nbp, 0, ff);
    ReadAllWritten(pos, types, nbp, ff);
    var path := XyzOutputPath(outfn, addExtension);
    var lines := XyzLines(pos, types, nbp, 0, ff);
    var ws := XyzWordLists(pos, types, nbp, 0, ff);
    assert ReadLines(fs[path := Entry(now, Text(lines))], path) == Ok(lines);
    assert ReadXyz(fs[path := Entry(now, Text(lines))], path, ff) ==
      Ok(XyzDict(ReadXyzWords(ws, ff).value, AtomTypesOf(ws)));
  }
}

=== FILE: xyzwrite.dfy ===
/** `write_xyz`: for every snapshot, the atom count, a comment line with
    the snapshot's index, and one line per atom with its type and three
    coordinates. */
module XyzWrite {
  import opened Wrappers
  import opened Errors
  import opened PyStr
  import opened PyInt
  import opened PyFloat
  import opened FileSys
  import opened Output

  /** The name `write_xyz` opens: ".xyz" is added when asked for and not
      already occurring anywhere in the lower-cased name. */
  function XyzOutputPath(outfn: string, addExtension: bool): (r: string)
    ensures r == outfn || r == outfn + ".xyz"
    ensures addExtension ==> Contains(Lower(r), ".xyz")
    ensures !addExtension || Contains(Lower(outfn), ".xyz") ==> r == outfn
  {
    if !Contains(Lower(outfn), ".xyz") && addExtension then
      LowerConcat(outfn, ".xyz");
      assert Lower(".xyz") == ".xyz";
      ContainsSuffix(Lower(outfn), ".xyz");
      outfn + ".xyz"
    else outfn
  }

  /** Applying the naming rule to its own output changes nothing. */
  lemma XyzOutputPathIdempotent(outfn: string, addExtension: bool)
    ensures XyzOutputPath(XyzOutputPath(outfn, addExtension), addExtension) == XyzOutputPath(outfn, addExtension)
  {
  }

  /** The words of an atom line, `'%s %.4f %.4f %.4f'`. */
  function RowWords(t: string, p: seq<real>, ff: FloatFormat): (r: seq<string>)
    requires |p| >= 3
    ensures |r| == 4 && r[0] == t
  {
    [t, ff.fixed4(p[0]), ff.fixed4(p[1]), ff.fixed4(p[2])]
  }

  function AtomLine(t: string, p: seq<real>, ff: FloatFormat): string
    requires |p| >= 3
  {
    Join(RowWords(t, p, ff), ' ')
  }

  /** `'Atoms. Timestep: %d' % s`. */
  function TimestepLine(s: int): string {
    "Atoms. Timestep: " + Show(s)
  }

  /** The atom line for atom i: an IndexError when there is no type or
      no position for it. */
  function AtomStep(snap: seq<seq<real>>, types: seq<string>, i: nat, ff: FloatFormat): (r: Step)
    ensures r.Line? <==> i < |types| && i < |snap| && |snap[i]| >= 3
    ensures r.Fail? ==> r.error == IndexOutOfRange
  {
    if i < |types| && i < |snap| && |snap[i]| >= 3 then Line(AtomLine(types[i], snap[i], ff))
    else Fail(IndexOutOfRange)
  }

  /** The writes for snapshot s. */
  function SnapshotSteps(snap: seq<seq<real>>, types: seq<string>, nbp: nat, s: nat, ff: FloatFormat): seq<Step> {
    [Line(Show(nbp)), Line(TimestepLine(s))] + seq(nbp, i requires 0 <= i < nbp => AtomStep(snap, types, i, ff))
  }

  /** The writes for the snapshots from `from` on. */
  function XyzSteps(pos: Array3, types: seq<string>, nbp: nat, from: nat, ff: FloatFormat): seq<Step>
    decreases |pos| - from
  {
    if from >= |pos| then []
    else SnapshotSteps(pos[from], types, nbp, from, ff) + XyzSteps(pos, types, nbp, from + 1, ff)
  }

  /** `write_xyz(outfn, data, add_extension)`.  `len(pos[0])` is taken
      before the file is opened, so an empty 'pos' is an IndexError with
      no file. */
  function WriteXyz(outfn: string, pos: Array3, types: seq<string>, addExtension: bool, ff: FloatFormat): (r: WriteResult)
    ensures r.file.None? <==> |pos| == 0
    ensures r.file.None? ==> r.error == Some(IndexOutOfRange)
    ensures r.file.Some? ==> r.file.value.path == XyzOutputPath(outfn, addExtension) && !r.file.value.append
  {
    if |pos| == 0 then WriteResult(None, Some(IndexOutOfRange))
    else
      var run := Run(XyzSteps(pos, types, |pos[0]|, 0, ff));
      WriteResult(Some(Written(XyzOutputPath(outfn, addExtension), false, run.lines)), run.error)
  }

  /** Every atom line of one snapshot can be formatted. */
  predicate SnapWritable(snap: seq<seq<real>>, types: seq<string>, nbp: nat) {
    nbp <= |types| && nbp <= |snap| && forall i :: 0 <= i < nbp ==> |snap[i]| >= 3
  }

  lemma {:induction false} SnapshotStepsAllLines(snap: seq<seq<real>>, types: seq<string>, nbp: nat, s: nat, ff: FloatFormat)
    ensures AllLines(SnapshotSteps(snap, types, nbp, s, ff)) <==> SnapWritable(snap, types, nbp)
  {
    var steps := SnapshotSteps(snap, types, nbp, s, ff);
    var atoms := seq(nbp, i requires 0 <= i < nbp => AtomStep(snap, types, i, ff));
    AllLinesConcat([Line(Show(nbp)), Line(TimestepLine(s))], atoms);
    if AllLines(atoms) {
      forall i | 0 <= i < nbp
        ensures i < |types| && i < |snap| && |snap[i]| >= 3
      {
        assert atoms[i].Line?;
      }
      if nbp > 0 {
        assert atoms[nbp - 1].Line?;
      }
    }
    if SnapWritable(snap, types, nbp) {
      forall i | 0 <= i < nbp
        ensures atoms[i].Line?
      {
        assert atoms[i] == AtomStep(snap, types, i, ff);
      }
    }
  }

  /** The writes all succeed exactly when every snapshot from `from` on
      has a type and three coordinates for each of the nbp atoms. */
  lemma {:induction false} XyzStepsAllLines(pos: Array3, types: seq<string>, nbp: nat, from: nat, ff: FloatFormat)
    ensures AllLines(XyzSteps(pos, types, nbp, from, ff)) <==>
      forall s :: from <= s < |pos| ==> SnapWritable(pos[s], types, nbp)
    decreases |pos| - from
  {
    if from < |pos| {
      XyzStepsAllLines(pos, types, nbp, from + 1, ff);
      SnapshotStepsAllLines(pos[from], types, nbp, from, ff);
      AllLinesConcat(SnapshotSteps(pos[from], types, nbp, from, ff), XyzSteps(pos, types, nbp, from + 1, ff));
    }
  }

  /** `write_xyz` raises no exception exactly when 'pos' is not empty and
      every snapshot has a type and three coordinates for each of the
      `len(pos[0])` atoms. */
  lemma WriteXyzCompletes(outfn: string, pos: Array3, types: seq<string>, addExtension: bool, ff: FloatFormat)
    ensures WriteXyz(outfn, pos, types, addExtension, ff).error.None? <==>
      |pos| > 0 && forall s :: 0 <= s < |pos| ==> SnapWritable(pos[s], types, |pos[0]|)
  {
    if |pos| > 0 {
      XyzStepsAllLines(pos, types, |pos[0]|, 0, ff);
    }
  }

  /** The lines of one snapshot when every write succeeds. */
  function SnapshotLines(snap: seq<seq<real>>, types: seq<string>, nbp: nat, s: nat, ff: FloatFormat): (r: seq<string>)
    requires SnapWritable(snap, types, nbp)
    ensures |r| == nbp + 2
  {
    [Show(nbp), TimestepLine(s)] + seq(nbp, i requires 0 <= i < nbp => AtomLine(types[i], snap[i], ff))
  }

  function XyzLines(pos: Array3, types: seq<string>, nbp: nat, from: nat, ff: FloatFormat): seq<string>
    requires forall s :: from <= s < |pos| ==> SnapWritable(pos[s], types, nbp)
    decreases |pos| - from
  {
    if from >= |pos| then []
    else SnapshotLines(pos[from], types, nbp, from, ff) + XyzLines(pos, types, nbp, from + 1, ff)
  }

  lemma {:induction false} XyzStepsTexts(pos: Array3, types: seq<string>, nbp: nat, from: nat, ff: FloatFormat)
    requires forall s :: from <= s < |pos| ==> SnapWritable(pos[s], types, nbp)
    ensures AllLines(XyzSteps(pos, types, nbp, from, ff))
    ensures Texts(XyzSteps(pos, types, nbp, from, ff)) == XyzLines(pos, types, nbp, from, ff)
    decreases |pos| - from
  {
    XyzStepsAllLines(pos, types, nbp, from, ff);
    if from < |pos| {
      var a := SnapshotSteps(pos[from], types, nbp, from, ff);
      var b := XyzSteps(pos, types, nbp, from + 1, ff);
      SnapshotStepsAllLines(pos[from], types, nbp, from, ff);
      XyzStepsTexts(pos, types, nbp, from + 1, ff);
      TextsConcat(a, b);
      assert Texts(a) == SnapshotLines(pos[from], types, nbp, from, ff);
    }
  }

  /** When every write succeeds, the file holds the lines of every snapshot. */
  lemma WriteXyzLines(outfn: string, pos: Array3, types: seq<string>, addExtension: bool, ff: FloatFormat)
    requires |pos| > 0 && forall s :: 0 <= s < |pos| ==> SnapWritable(pos[s], types, |pos[0]|)
    ensures WriteXyz(outfn, pos, types, addExtension, ff) ==
      WriteResult(Some(Written(XyzOutputPath(outfn, addExtension), false, XyzLines(pos, types, |pos[0]|, 0, ff))), None)
  {
    XyzStepsTexts(pos, types, |pos[0]|, 0, ff);
    RunAllLines(XyzSteps(pos, types, |pos[0]|, 0, ff));
  }
}
